=== FILE: README.md ===
# morphos packet programs and Click elements, modelled in Dafny

morphos runs eBPF-style packet programs inside Click elements on a
unikernel router, and replaces those programs while the router runs. This
project models three parts of it as pure Dafny functions over immutable
values:

- **The packet programs** under `ebpf/` and `filter-rs/`: filters that
  return a verdict, classifiers that return an output number, and
  rewriters that edit or resize the packet. They share the bounds-checked
  packet access of `ebpf/src/lib.rs`, the incremental checksum update and
  the `FilterResult`/`RewriterResult` codes of `ebpf/src/programs.rs`.
- **The Click elements** that run the programs and act on the returned
  code: `BPFElement` (shared by `BPFClassifier` and `BPFRewriter`),
  `BPFilter` and `Control`. This includes loading and live reconfiguration
  under the element's read/write lock.
- **The clients** that trigger a reconfiguration: the control datagram
  they send, and the console markers the benchmarks time it by.

A packet is a sequence of bytes (`Base.Byte` is an integer newtype in
0..255). A program's persistent stores are values: `Stores.BoundedMap` is a
hash map with a capacity and `Stores.FixedArray` is an array whose slot may
be missing. One packet is a function from (packet, stores) to (result,
packet, stores). Every `u16`/`u32`/`u64`/`i64` addition, subtraction and
truncating cast the source performs is written out as wrap-around
(`Base.WrapU32`, `WrapU64`, `WrapI64`, `TruncU16`), as a release build
computes it. Things outside the programs are parameters:

- the clock (`bpf_ktime_get_ns`);
- the DNS parser;
- the virtual machine's result;
- Click's argument parser;
- the file system;
- the ELF loader and JIT compiler;
- the address the host returns from a resize.

Some of the source behaves differently from what its authors evidently
meant. The model then has a selector datatype whose `AsWritten…`
constructor follows the code and whose other constructor follows the
intent. Lemmas state both the counterexample for the code as written and
the property of the corrected version (see "## Findings").

## Model

| member | source | states |
|---|---|---|
| PacketAccess.GetPtr | ebpf/src/lib.rs:19-30 | an access succeeds exactly when `offset + size` lies within the packet, and the pointer is `data + offset`, inside `[data, data_end)` |
| PacketAccess.GetPtrMut | ebpf/src/lib.rs:32-43 | the same bounds check as `get_ptr`, yielding a writable address |
| PacketAccess.GetPtrMutAgrees | ebpf/src/lib.rs:19-43 | read and write access are granted under the same condition and at the same address |
| PacketAccess.GetPtrReadsPacket | ebpf/src/lib.rs:19-30 | wherever the packet is stored, a granted access designates exactly the bytes `p[offset..offset+size]` |
| PacketAccess.GetSlice | ebpf/src/lib.rs:45-61 | a slice longer than 50000 bytes is refused; otherwise it is granted iff it fits, and it is the packet's bytes at that offset |
| PacketAccess.SliceAt | ebpf/dns-filter-ebpf/src/main.rs:44-55 | the uncapped slice of the older build: granted iff it fits, with the packet's bytes |
| PacketAccess.GetSliceIsCappedSliceAt | ebpf/dns-filter-ebpf/src/main.rs:44-55 | the two slice accessors agree up to the cap; above it `get_slice` refuses what `slice_at` grants |
| PacketAccess.SlicePtrAt | ebpf/udp-tcp-classifier-ebpf/src/main.rs:43-53 | the slice-based `ptr_at` accepts iff `offset + size <= len` |
| PacketAccess.SlicePtrAtAgrees | ebpf/udp-tcp-classifier-ebpf/src/main.rs:43-53 | the pointer-pair and the slice-based checks accept the same accesses at corresponding addresses |
| PacketAccess.Load | ebpf/src/lib.rs:19-30 | a checked read succeeds iff in bounds and returns exactly those bytes |
| PacketAccess.Store | ebpf/src/lib.rs:32-43 | a checked write lands iff it fits, changes only its own bytes and never changes the length |
| PacketAccess.LoadAfterStore | ebpf/src/lib.rs:19-43 | reading back what a successful write stored yields the stored bytes |
| Checksum.UpdateChecksum | ebpf/src/lib.rs:70-75 | the result's complement is congruent modulo 0xffff to ~HC + ~m + m' (RFC 1624 eqn. 3) |
| Checksum.FoldPreservesOnesSum | ebpf/src/lib.rs:73 | folding the carry back does not change the sum modulo 0xffff |
| Checksum.UnchangedWordKeepsChecksum | ebpf/src/lib.rs:70-75 | replacing a word by itself keeps the checksum, except that 0xffff comes back as 0 |
| Checksum.UpdateChecksumIp | ebpf/src/lib.rs:77-85 | a 32-bit update accounts for both 16-bit word changes |
| Checksum.UnchangedAddressKeepsChecksum | ebpf/src/lib.rs:77-85 | rewriting an address to itself keeps any checksum other than 0xffff |
| Verdicts.DecodeFilter | ebpf/src/programs.rs:1-9 | a code is a filter verdict iff it is 0, 1 or 2 |
| Verdicts.FilterCodesRoundTrip | ebpf/src/programs.rs:1-9 | Abort/Pass/Drop are 0/1/2, distinct, and decoding inverts encoding both ways |
| Verdicts.DecodeRewriter | ebpf/src/programs.rs:15-20 | a code is a rewriter result iff it is 0 or 1 |
| Verdicts.RewriterCodesRoundTrip | ebpf/src/programs.rs:15-20 | Abort = 0 and Success = 1, and decoding inverts encoding both ways |
| Verdicts.EncodingsDisagree | filter-rs/dns-filter-ebpf/src/main.rs:15-16 | the XDP, `FilterResult` and filter-rs encodings give the same numbers to different verdicts |
| Verdicts.GuestResize | ebpf/src/programs.rs:27-36 | after `bpf_packet_add_space` the context starts at the returned address and its length grew by `head + tail`, port unchanged |
| SimpleFilters.ConstantFilters | ebpf/src/bin/pass.rs:6-9 | pass always passes (code 1) and drop (ebpf/src/bin/drop.rs:6-10) always drops (code 2), for every input |
| SimpleFilters.CheckTargetPort | ebpf/src/bin/target-port.rs:19-46 | errors exactly for short frames or unreadable/non-TCP-UDP IPv4; non-IPv4 is recognised; otherwise the destination port read at 36..38 |
| SimpleFilters.TargetPortFilter | ebpf/src/bin/target-port.rs:11-46 | drop iff an IPv4 TCP/UDP packet goes to port 12345; pass iff non-IPv4 or another port; abort iff a header is unreadable |
| SimpleFilters.TargetPortXdp | ebpf/target-port-ebpf/src/main.rs:18-71 | the older build makes the same decisions, in XDP codes |
| SimpleFilters.CounterToggleFilter | filter-rs/dns-filter-ebpf/src/main.rs:24-95 | PASS iff the target-port filter passes (errors drop); the `i64` counter is incremented with wrap, a missing slot leaves it; key 1 toggles, a full map refuses the insert and stays as it was, and no other key or the capacity changes |
| SimpleFilters.ToggleTwiceRestores | filter-rs/dns-filter-ebpf/src/main.rs:38-47 | two packets toggle key 1 back to where it was |
| SimpleFilters.FirewallTry | ebpf/src/bin/firewall.rs:27-54 | errors exactly for a short IPv4 header, another protocol or a short L4 header; otherwise drop |
| SimpleFilters.Firewall | ebpf/src/bin/firewall.rs:19-25 | every packet is dropped, including every error |
| Classifiers.OutputPortsDistinct | ebpf/src/bin/udp-tcp-classifier.rs:10-16 | UDP, TCP and the rest leave on the distinct outputs 0, 1 and 2 |
| Classifiers.ClassifyTry | ebpf/src/bin/udp-tcp-classifier.rs:32-53 | an error iff the Ethernet header is short, or an IPv4 frame is too short for its IPv4 header; UDP iff sane IPv4 with protocol 17, TCP iff protocol 6 |
| Classifiers.UdpTcpClassify | ebpf/src/bin/udp-tcp-classifier.rs:18-53 | output 0 iff sane IPv4 UDP, 1 iff sane IPv4 TCP, 2 otherwise (errors included); also ebpf/udp-tcp-classifier-ebpf |
| Classifiers.RoundRobin | ebpf/src/bin/round-robin.rs:11-31 | output is the parity of the count before the packet and the `u32` count moves on by one with wrap, other slots kept; a missing slot gives output 0 and no change |
| Classifiers.RoundRobinAlternates | ebpf/src/bin/round-robin.rs:21-31 | over k packets the counter advances by k mod 2^32, and packet i leaves on (c + i) mod 2, across the wrap |
| Classifiers.RoundRobinFromZero | ebpf/src/bin/round-robin.rs:21-31 | from a zero counter the outputs alternate 0, 1, 0, 1, … |
| RateLimiter.Stamp | ebpf/src/bin/rate-limiter.rs:49 | a seconds stamp names the second the clock reading falls in (until 2^32 seconds); the older builds stamp the nanosecond reading itself (ebpf/rate-limiter-ebpf/src/main.rs:73) |
| RateLimiter.Fresh | ebpf/src/bin/rate-limiter.rs:27-35 | a new bucket holds 3 tokens stamped now; with a consistent clock nothing is due at that instant, but as written tokens are due at once |
| RateLimiter.NewTokens | ebpf/src/bin/rate-limiter.rs:40-46 | as written tokens are due whenever the reading differs from the stamp; with seconds compared to seconds, iff the second changed; in the older builds (ebpf/rate-limiter-ebpf/src/main.rs:64-68), iff a whole second passed |
| RateLimiter.GrantTokens | ebpf/src/bin/rate-limiter.rs:37-51 | no tokens due leaves the bucket alone; otherwise the bucket is capped at 3, restamped, and (without wrap) holds min(old + new, 3) |
| RateLimiter.SpendToken | ebpf/src/bin/rate-limiter.rs:53-61 | succeeds iff 2 tokens are there, and then takes exactly 2 |
| RateLimiter.Filter | ebpf/src/bin/rate-limiter.rs:67-98 | abort iff a header is short or a new source finds the map full; non-IPv4 drops; only the source's bucket changes; pass iff the charged bucket holds 2 tokens |
| RateLimiter.FilterRsBuildCode | filter-rs/rate-limiter-ebpf/src/main.rs:17-25 | the filter-rs build returns 0 iff the verdict is pass and 1 otherwise, so it never aborts |
| RateLimiter.FilterKeepsBuckets | ebpf/src/bin/rate-limiter.rs:78-97 | every bucket stays at 3 tokens or fewer and the map within its capacity, whatever the clock does |
| RateLimiter.NewSourcePasses | ebpf/src/bin/rate-limiter.rs:78-85 | a first packet from a new source, with room in the map, passes and leaves 1 token |
| RateLimiter.SameInstantSecondFrameDrops | ebpf/rate-limiter-ebpf/src/main.rs:61-75 | with a consistent clock a second packet at the same instant is dropped |
| RateLimiter.NanosecondRefill | ebpf/rate-limiter-ebpf/src/main.rs:61-75 | the nanosecond builds grant one token per whole elapsed second, capped at 3: pass iff that reaches 2 |
| RateLimiter.IntendedSecondsRefill | ebpf/src/bin/rate-limiter.rs:39-50 | with seconds compared to seconds, a packet passes iff the bucket plus the elapsed seconds, capped at 3, reaches 2 |
| RateLimiter.SecondsClockCounterexample | ebpf/src/bin/rate-limiter.rs:40-49 | as written, a drained bucket passes a packet in the very second it was stamped; the intended clock drops it |
| DnsFilter.QuestionsVerdict | ebpf/src/bin/dns-filter.rs:68-87 | never aborts; drop iff some question fails to parse or names lmu.de |
| DnsFilter.ParseVerdict | ebpf/src/bin/dns-filter.rs:58-66 | undefined (`None`) iff the message header is rejected; an unreadable question section drops |
| DnsFilter.Slice | ebpf/src/bin/dns-filter.rs:56 | the payload slice is granted iff it fits and, for `get_slice`, is at most 50000 bytes |
| DnsFilter.PayloadLen | ebpf/src/bin/dns-filter.rs:54-56 | as written the payload length is the UDP length field itself; the intended length is what follows the 8-byte header, and a field shorter than the header is an error |
| DnsFilter.Filter | ebpf/src/bin/dns-filter.rs:21-88 | short headers abort; non-IPv4, bad IHL, non-UDP and non-53 ports pass; nothing but the parser's verdict can drop |
| DnsFilter.FilterAtPayload | ebpf/src/bin/dns-filter.rs:53-58 | past the header checks the verdict is decided by the length rule, then the slice, then the parser |
| DnsFilter.AsWrittenExactDatagramAborts | ebpf/src/bin/dns-filter.rs:54-56 | as written, every DNS query whose datagram exactly fills the frame aborts (also ebpf/dns-filter-ebpf lines 90-92) |
| DnsFilter.IntendedExactDatagramParsesPayload | ebpf/src/bin/dns-filter.rs:54-56 | with the UDP header subtracted, the parser sees exactly the payload and the verdict is never abort |
| DnsFilter.SliceAccessesAgree | ebpf/dns-filter-ebpf/src/main.rs:89-92 | the two builds differ only on payloads over 50000 bytes that fit, where `get_slice` aborts |
| Nat.NextPort | ebpf/src/bin/nat.rs:82-96 | an error iff the slot is missing; otherwise a port is handed out and the slot updated |
| Nat.NextPortCycles | ebpf/src/bin/nat.rs:82-96 | from 0 or a port in range, hands out 50000 + offset and stores the next port; ports stay in [50000, 65535) and 65534 is followed by 50000 |
| Nat.AllocationsCycle | ebpf/src/bin/nat.rs:82-96 | successive allocations walk the 15535 ports cyclically |
| Nat.ParseConnection | ebpf/src/bin/nat.rs:134-168 | errors iff the IPv4 header is short, the protocol is not TCP/UDP or the L4 header is short; else the 5-tuple from the header bytes |
| Nat.ApplyRewrite | ebpf/src/bin/nat.rs:98-120 | writes the addresses, then the ports; succeeds iff both headers fit; only bytes 12..24 change |
| Nat.RewriteReadsBack | ebpf/src/bin/nat.rs:98-120 | parsing a rewritten packet yields the rewrite's addresses and ports |
| Nat.Step | ebpf/src/bin/nat.rs:68-74 | output is always 0 or 1; parse errors and misses on inputs other than 0 change nothing; hits apply the rule; rules are never removed (try_classify, lines 125-223) |
| Nat.ForwardRewrite | ebpf/src/bin/nat.rs:184-192 | the translated packet leaves from the external address and the NAT port, still addressed to the flow's peer, on FOUTPUT |
| Nat.ReverseKey | ebpf/src/bin/nat.rs:196-203 | replies arrive under the translated packet's connection sent back |
| Nat.ReverseRewrite | ebpf/src/bin/nat.rs:204-210 | with the intended rule a reply is rewritten to exactly the flow's connection sent back; as written only when the flow's two ports coincide |
| Nat.OpenFlow | ebpf/src/bin/nat.rs:181-215 | a miss on input 0 returns 0 and adds only FOUTPUT rules; every existing key is kept, and a rule already at the reverse key is replaced |
| Nat.AlwaysForwardOutput | ebpf/src/bin/nat.rs:176-214 | since every rule carries FOUTPUT, the NAT never uses output 1 (ROUTPUT) |
| Nat.NewFlowInstallsTwoRules | ebpf/src/bin/nat.rs:181-215 | a new flow gets the stored port, installs exactly the forward and reverse rules and leaves from 172.44.0.3 at that port |
| Nat.OpenFlowInstalls | ebpf/src/bin/nat.rs:181-215 | the rules and packet after a successful flow opening |
| Nat.ReverseInsertFailureKeepsForward | ebpf/src/bin/nat.rs:194-211 | the two inserts are not atomic: if only the forward rule fits, it stays and the port is consumed |
| Nat.OpenFlowReverseFails | ebpf/src/bin/nat.rs:194-211 | the state after the reverse insert fails |
| Nat.IntendedReplyReachesSender | ebpf/src/bin/nat.rs:204-210 | with the reverse rule's destination port set to the flow's source port, a reply reaches the internal host's socket |
| Nat.AsWrittenReplyMisdirected | ebpf/src/bin/nat.rs:204-210 | as written, the reply is sent to the peer's port, not the internal host's |
| StringMatcher.Next | ebpf/src/bin/stringmatcher.rs:33-37 | the next state is 2 iff 0x8d follows 0x22, and 1 iff 0x22 is seen (for the matcher as written, only from state 0) |
| StringMatcher.Scan | ebpf/src/bin/stringmatcher.rs:26-48 | the loop never aborts; from state 2 it drops iff a byte remains; a drop needs a byte for every state still missing plus one |
| StringMatcher.Filter | ebpf/src/bin/stringmatcher.rs:18-49 | abort iff no 20-byte header; otherwise the automaton's verdict over the first 2000 bytes |
| StringMatcher.DropMeansPair | ebpf/src/bin/stringmatcher.rs:26-46 | a drop implies the pair 0x22 0x8d occurs with a byte after it |
| StringMatcher.AsWrittenMissesRepeatedFirstByte | ebpf/src/bin/stringmatcher.rs:36-37 | as written, 0x22 0x22 0x8d x contains the pair but passes |
| StringMatcher.IntendedFindsEveryPair | ebpf/src/bin/stringmatcher.rs:33-39 | the corrected automaton drops iff the pair occurs with a byte after it |
| StringMatcher.IntendedFilterDropsIffPair | ebpf/src/bin/stringmatcher.rs:26-48 | end to end: drop iff the pair lies in the first 2000 bytes |
| Migration.CountVerdict | ebpf/src/bin/state-migration-v1.rs:22-26 | never aborts; pass iff the count is at most 10 |
| Migration.CounterV1 | ebpf/src/bin/state-migration-v1.rs:13-27 | abort iff the slot is missing, with nothing changed; otherwise the `u32` count moves on by one with wrap and the packet drops iff the new count exceeds 10 |
| Migration.CounterV1Run | ebpf/src/bin/state-migration-v1.rs:13-27 | over k packets the counter ends at c0 + k mod 2^32 and packet i is judged by c0 + i + 1 mod 2^32 |
| Migration.FreshCounterPassesTen | ebpf/src/bin/state-migration-v1.rs:20-26 | from zero, ten packets pass and the eleventh is dropped |
| Migration.HandleMigration | ebpf/src/bin/state-migration-v2.rs:38-52 | errors iff VERSION is missing, or the version is not 2 and a counter slot is missing; otherwise the v1 count is copied and version 2 recorded; version 2 is unchanged |
| Migration.MigrationIdempotent | ebpf/src/bin/state-migration-v2.rs:38-52 | migrating a second time changes nothing |
| Migration.CounterV2 | ebpf/src/bin/state-migration-v2.rs:13-30 | abort iff migration fails or the v2 slot is missing, with the stores unchanged; otherwise the stores are at version 2, the `u64` count is the carried-over count (v2 counter if migrated, else v1 count) plus one with wrap, and the packet drops iff it exceeds 10 |
| Migration.CounterV2Run | ebpf/src/bin/state-migration-v2.rs:13-52 | over k >= 1 packets on stores that migrate, the count ends k past the carried-over count mod 2^64 and packet i is judged by that count + i + 1 |
| Migration.UpgradeContinuesCount | ebpf/src/bin/state-migration-v2.rs:13-52 | below the `u32` wrap, the first v2 packet gets the verdict and count v1 would have given |
| Migration.UpgradeAtWrap | ebpf/src/bin/state-migration-v2.rs:22-29 | at a v1 count of 2^32 - 1 the widths differ: v1 passes (wrap to 0) and v2 drops |
| Rewriters.HostAddSpace | libs/click/unikraft/bpfrewriter.cc:17-35 | the length changes by head + tail, in all four sign combinations: push prepends headroom, pull drops leading bytes, put appends tailroom, take drops trailing bytes (of the pushed packet, if longer than the original) |
| Rewriters.ResizeAgreesWithHost | libs/click/unikraft/bpfrewriter.cc:17-35 | the guest's rebuilt context is the frame of the packet the host produced |
| Rewriters.ResizeShiftsOffsets | ebpf/src/programs.rs:27-36 | after a resize by `head`, an access at offset o through the rebuilt context is granted and reads the bytes that were at o - head, for every range that survived (host side bpfrewriter.cc:17-35) |
| Rewriters.StripVlanCall | ebpf/src/bin/strip-ether-vlan-header.rs:21-38 | no resize iff the frame is shorter than 14 bytes; (-18, 0) iff 802.1Q-tagged; (-14, 0) otherwise |
| Rewriters.ReturnCode | ebpf/src/bin/strip-ether-vlan-header.rs:18 | as written the code is Abort (0); the intended code is Success iff the rewrite happened |
| Rewriters.StripVlan | ebpf/src/bin/strip-ether-vlan-header.rs:8-38 | the packet loses its 18- or 14-byte Ethernet header, short frames are unchanged; as written the code is 0 (also ebpf/strip-ether-vlan-header-ebpf) |
| Rewriters.EtherMirror | ebpf/src/bin/ether-mirror.rs:10-35 | with a whole Ethernet header, bytes 0..6 and 6..12 trade places and nothing else changes; as written the code is 0 (also ebpf/ether-mirror-ebpf) |
| Rewriters.MirrorTwiceRestores | ebpf/src/bin/ether-mirror.rs:24-35 | mirroring twice restores the frame |
| Rewriters.StripViewsAgree | ebpf/strip-ether-vlan-header-ebpf/src/helper.rs:9-18 | the stripper's guest context after the resize is the frame of the stripped packet |
| ClickDispatch.Exec | libs/click/unikraft/bpfelement.cc:174-194 | the low 32 bits of the program's result; an interpreter error yields 2^32 - 1 |
| ClickDispatch.AsCInt | libs/click/unikraft/bpfclassifier.cc:21 | the `int` a caller stores: two's complement of the `uint32_t` |
| ClickDispatch.ExecErrorIsMinusOne | libs/click/unikraft/bpfelement.cc:183-193 | a classifier reads -1 iff the interpreter failed or the program itself returned 0xffffffff |
| ClickDispatch.BPFilterPush | libs/click/unikraft/bpfilter.cc:111-133 | every push counts the packet, also when it then waits on a held write lock; result 1 frees it and raises `filtered` by exactly one (wrapping); other results forward it on 0 and leave `filtered`; an interpreter error, as written, keeps the read lock, and with the intended unlock frees the packet with the lock released |
| ClickDispatch.ResetCounters | libs/click/unikraft/bpfilter.cc:135-144 | both counters become 0 and nothing else changes |
| ClickDispatch.PushKeepsCountersConsistent | libs/click/unikraft/bpfilter.cc:111-144 | `filtered <= count` holds after every push and after a reset |
| ClickDispatch.BPFilterInvertsFilterResult | libs/click/unikraft/bpfilter.cc:125-132 | BPFilter frees on 1, the `FilterResult` code of Pass, and forwards Drop (2) and Abort (0) |
| ClickDispatch.ClassifierOutputsReachPorts | libs/click/unikraft/bpfclassifier.cc:21-30 | the UDP/TCP classifier's and the round-robin's output number is the element output the writable copy leaves on; a number the element lacks frees the copy |
| ClickDispatch.BPFClassifierPush | libs/click/unikraft/bpfclassifier.cc:12-31 | a failed `uniqueify` ends the push before the lock is taken; a held write lock makes it wait; -1 frees the original; an existing output gets the writable copy; any other result frees the copy |
| ClickDispatch.BPFRewriterPush | libs/click/unikraft/bpfrewriter.cc:45-70 | a failed `uniqueify` ends the push before the lock is taken; a held write lock makes it wait; Success forwards the (possibly resized) packet on 0, Abort frees it, any other code frees the original |
| ClickDispatch.RewrittenPacketsAreFreed | libs/click/unikraft/bpfrewriter.cc:61-69 | as written, every packet the stripper or the mirror handles is freed by BPFRewriter |
| ClickDispatch.IntendedRewritesAreForwarded | libs/click/unikraft/bpfrewriter.cc:61-62 | with the intended codes, a rewritten frame leaves on output 0 |
| ElementConfig.DecimalRoundTrip | libs/click/unikraft/bpfelement.cc:119-123 | the `%lu` identifier printed in the announcement reads back as the identifier |
| ElementConfig.Announce | libs/click/unikraft/bpfelement.cc:117-124 | the announcement starts with `<verb> <class> (` |
| ElementConfig.TakeWriteLock | libs/click/unikraft/bpfelement.cc:138 | the write lock is granted iff nobody holds the lock |
| ElementConfig.ElementConfigure | libs/click/unikraft/bpfelement.cc:99-172 | rejects empty or unparsable arguments with no effect; announces; on success loads the program, restores the lock and prints the mirrored closing line |
| ElementConfig.AsWrittenLoadFailureBlocksPackets | libs/click/unikraft/bpfelement.cc:144-148 | as written, a failed reload keeps the write lock: the old program is gone and every packet and reconfiguration waits |
| ElementConfig.ReleasedLoadFailureKeepsElementUsable | libs/click/unikraft/bpfelement.cc:144-155 | releasing the lock on error lets packets and the next reconfiguration proceed |
| ElementConfig.AsWrittenCompileFailureBlocksPackets | libs/click/unikraft/bpfelement.cc:150-154 | as written, a JIT compile error also keeps the write lock: the new program is loaded, and every packet and reconfiguration waits |
| ElementConfig.ReleasedCompileFailureKeepsElementUsable | libs/click/unikraft/bpfelement.cc:150-161 | releasing the lock on the compile error lets packets and the next reconfiguration proceed |
| ElementConfig.FilterConfigure | libs/click/unikraft/bpfilter.cc:51-109 | BPFilter's configure: the same checks, no JIT, and the lock is always left as found |
| ElementConfig.FilterLoadFailureUnloads | libs/click/unikraft/bpfilter.cc:88-100 | a failed reload leaves BPFilter without a program |
| ElementConfig.AsWrittenExecErrorBlocksReconfigure | libs/click/unikraft/bpfilter.cc:117-122 | as written, one interpreter error keeps a read lock, so every later reconfiguration waits |
| ElementConfig.UnlockedExecErrorAllowsReconfigure | libs/click/unikraft/bpfilter.cc:117-123 | unlocking on the error path lets the next reconfiguration proceed |
| ControlElement.Visit | libs/click/unikraft/control.cc:22-34 | every action names an element at or after the start index |
| ControlElement.VisitSound | libs/click/unikraft/control.cc:22-34 | each action concerns a BPFilter element and writes "" iff its handler is writable |
| ControlElement.VisitOrdered | libs/click/unikraft/control.cc:22 | actions follow element order |
| ControlElement.VisitCovers | libs/click/unikraft/control.cc:22-24 | every BPFilter element gets an action |
| ControlElement.ControlPush | libs/click/unikraft/control.cc:18-35 | actions exactly for the BPFilter elements, in order; a write of "" iff the `config` handler is visible and writable, else an error report |
| ControlElement.OtherElementsUntouched | libs/click/unikraft/control.cc:24 | no action names an element of another class |
| ReconfigureMarkers.FindFrom | benchmark/benches/live_reconfigure.rs:142-146 | the first line from `from` that contains the marker, and none before it |
| ReconfigureMarkers.Measure | benchmark/benches/live_reconfigure.rs:113-121 | the clock starts at the first start-marker line and stops at the first later line with "Reconfigured BPFilter"; there is no measurement iff no line has the start marker or no later line has the end marker |
| ReconfigureMarkers.ReconfigureLinesAreLogged | libs/click/unikraft/bpfilter.cc:69-106 | a successful BPFilter reconfiguration prints exactly the two lines the markers are matched against |
| ReconfigureMarkers.MarkersInLines | libs/click/unikraft/bpfilter.cc:70 | the start line contains "Reconfiguring BPFilter" but neither "Reconfigured BPFilter" nor "Reconfiguring BPFilter..."; the end line contains only the end marker |
| ReconfigureMarkers.BenchMarkersBracketReconfiguration | benchmark/benches/live_reconfigure.rs:142-152 | the benchmark's markers start the clock at the announcement and stop it at the closing line |
| ReconfigureMarkers.AsWrittenStartMarkerNeverMatches | benchmark/src/live_reconfigure.rs:82-90 | "Reconfiguring BPFilter..." is on no line BPFilter prints, so the tool's clock never starts |
| ControlDatagram.Encode | examples/showcase/tui/src/click_api.rs:18-25 | `control`, the id as LE u64, the length-prefixed program and optionally the signature: length 23 + \|p\| (+ 8 + \|s\|) |
| ControlDatagram.DecodeEncode | examples/showcase/tui/src/click_api.rs:18-25 | decoding an encoded command gives the command back |
| ControlDatagram.EncodeDecode | examples/showcase/tui/src/click_api.rs:18-25 | what decodes re-encodes to the same bytes: one datagram per command |
| ControlDatagram.TakeFieldOfField | examples/showcase/tui/src/click_api.rs:22-23 | a length-prefixed field reads back as itself and what follows |
| ControlDatagram.ClickApiReconfigure | examples/showcase/tui/src/click_api.rs:18-30 | the datagram decodes to (id, program, signature) and has length 31 + \|p\| + \|s\| |
| ControlDatagram.ToolTrigger | benchmark/src/live_reconfigure.rs:67-80 | the tool's trigger decodes to element 1, the program and no signature (also helper/src/main.rs:23-35) |
| ControlDatagram.BenchTrigger | benchmark/benches/live_reconfigure.rs:123-140 | the benchmark's trigger decodes to element 1, the program and `<program>.sig` |
| ControlDatagram.HelperMain | helper/src/main.rs:5-41 | succeeds iff the first argument is `send-packet`, or `reconfigure` with a program; sends the trigger to the control address or "data" to the data address |
| ControlDatagram.TriggersShareFirstFields | benchmark/benches/live_reconfigure.rs:126-132 | the signed trigger is the unsigned one plus a trailing signature field |
| ControlDatagram.EncodeAppendsSignature | examples/showcase/tui/src/click_api.rs:24-25 | a signed datagram is the unsigned one followed by the signature field |

## Left out

- Program I/O: `bpf_printk`, `uk_pr_info` and `uk_pr_err` output is not modelled, except the two configuration announcements the benchmarks match on.
- The clock, the DNS message parser (`flex_dns`), the virtual machine, Click's argument parser, the file system and the ELF loader and JIT are parameters. Their own behaviour is not part of this model.
- Click core: `uniqueify`, `checked_output_push`, the `config` handler's effect, and `Packet::push/pull/put/take` clamping are not part of this model. Pushing to a missing output is taken to free the packet.
- Rewriters.HostAddSpace: requires the resize not to shrink the packet below empty, because Click's own clamping of an oversized pull is not part of this model.
- Verdicts.GuestResize: requires a non-negative new length; the source computes it unchecked, and a negative one is undefined behaviour (`new_ptr.add`).
- Rewriters.StripVlan: requires `StripDefined` (no 802.1Q-tagged frame of 14 to 17 bytes), for the same reason.
- DnsFilter.ParseVerdict: a message header the parser rejects gives `None`, because the source's `unwrap` panics into `unreachable_unchecked` (undefined behaviour).
- BPFilter hands the program `p->buffer()` (headroom included) rather than the packet data. Its push takes the program's result as a parameter, so which bytes the program sees is not modelled.
- The `usize` overflow of `start + offset + len` in the bounds checks is not modelled: addresses are unbounded naturals.
- NAT: the IPv4 and L4 checksums are not updated after a rewrite, since nat.rs does not update them either. The commented-out Ethernet check and the PKTCOUNTER array are unused.
- ElementConfig: the JIT dump (`DUMP_JIT`, `handle_jit_dump`) is left out. It only writes a file and logs.
- ElementConfig: `%b` and `%d` of the JIT flag print as 0/1, and the console prefix a platform puts before each line is a parameter.
- ReconfigureMarkers.MarkersInLines: requires the console prefixes and the program file name to contain no 'R', so that only the message's own verb can start a marker.
- ReconfigureMarkers.BenchMarkersBracketReconfiguration: requires the same absence of 'R' in prefixes and file name.
- ReconfigureMarkers.AsWrittenStartMarkerNeverMatches: requires the same absence of 'R' in prefixes and file name.
- ReconfigureMarkers: a reader blocked on a console that never prints the marker is modelled as `None` (no measurement).
- RateLimiter.NanosecondRefill: only states the case where the elapsed seconds do not wrap the `u32` token count, which takes about 136 years.
- RateLimiter.IntendedSecondsRefill: only states the case where the seconds stamp does not wrap its `u32`.
- ClickDispatch.PushKeepsCountersConsistent: requires `count + 1 < 2^64`, since the 64-bit `_count` wrapping would break `filtered <= count`.
- Migration.UpgradeContinuesCount: requires the `u32` count not to be at its wrap; that case is `Migration.UpgradeAtWrap`.
- ControlDatagram.Decode: the router's reading of the control datagram is not in the modelled sources. `Decode` is this model's reading of the format the three clients write.
- showcase and the benchmark measurement scripts (latency, throughput, memory, Python drivers) are context and not modelled.

## Findings

| source | as written | input that shows it | evidently intended | confidence | as-written member | corrected member |
|---|---|---|---|---|---|---|
| ebpf/src/bin/nat.rs:208 | the reverse rule's destination port is the flow's destination port | a flow 10.0.0.5:40000 → 1.2.3.4:80 and its reply to the NAT port: the reply goes to port 80 | the flow's source port, so the reply reaches the socket that opened the flow | high, not executed | Nat.AsWrittenReplyMisdirected | Nat.IntendedReplyReachesSender |
| ebpf/src/bin/rate-limiter.rs:40-49 | the last grant is stored in seconds but subtracted from the clock in nanoseconds, and the difference is granted as tokens | bucket with 1 token stamped at second 5; a packet at 5·10^9 ns passes | compare seconds with seconds (or store nanoseconds and divide, as the older builds do) | high, not executed | RateLimiter.SecondsClockCounterexample | RateLimiter.IntendedSecondsRefill |
| ebpf/src/bin/dns-filter.rs:54-56 | the payload slice is the UDP length field long, but the field includes the 8-byte UDP header | any DNS query whose UDP datagram exactly fills the frame: the slice overruns by 8 bytes and the filter aborts | UDP length minus 8 (also ebpf/dns-filter-ebpf/src/main.rs:90-92) | high, not executed | DnsFilter.AsWrittenExactDatagramAborts | DnsFilter.IntendedExactDatagramParsesPayload |
| ebpf/src/bin/stringmatcher.rs:36-37 | in state 1 any byte other than 0x8d returns to state 0, including 0x22 | 0x22 0x22 0x8d 0x00 contains the pair but passes | on 0x22 stay in state 1 | high, not executed | StringMatcher.AsWrittenMissesRepeatedFirstByte | StringMatcher.IntendedFindsEveryPair |
| benchmark/src/live_reconfigure.rs:89 | waits for a line containing "Reconfiguring BPFilter..." | BPFilter prints "Reconfiguring BPFilter (ID: 1 - JIT: 0) with program f.." — the marker never matches | "Reconfiguring BPFilter", as benchmark/benches/live_reconfigure.rs:145 has it | high, not executed | ReconfigureMarkers.AsWrittenStartMarkerNeverMatches | ReconfigureMarkers.BenchMarkersBracketReconfiguration |
| libs/click/unikraft/bpfilter.cc:119-122 | an interpreter error returns without releasing the read lock or freeing the packet | one packet the interpreter fails on; the next reconfiguration waits forever on the write lock | release the lock and free the packet | high, not executed | ElementConfig.AsWrittenExecErrorBlocksReconfigure | ElementConfig.UnlockedExecErrorAllowsReconfigure |
| libs/click/unikraft/bpfelement.cc:146-154 | a load or JIT compile error returns with the write lock held | a reconfiguration to a file the loader rejects; every later packet and reconfiguration waits | release the write lock on every error path | high, not executed | ElementConfig.AsWrittenLoadFailureBlocksPackets | ElementConfig.ReleasedLoadFailureKeepsElementUsable |
| ebpf/src/bin/strip-ether-vlan-header.rs:18 | the rewriter returns 0, which is `RewriterResult::Abort`, whatever happened (also ebpf/src/bin/ether-mirror.rs:21) | any frame of 14 bytes or more: BPFRewriter (bpfrewriter.cc:63-65) frees the rewritten packet | return 1 (Success) when the rewrite was carried out | medium, not executed; bpfrewriter.cc:55 calls `exec(port, p_out)` while bpfelement.hh:31 declares `exec(Packet *p)`, so these files may come from different revisions | ClickDispatch.RewrittenPacketsAreFreed | ClickDispatch.IntendedRewritesAreForwarded |

=== FILE: base.dfy ===
/** Shared vocabulary: optional values, machine-integer widths with their
    wrap-around, and the byte-order conversions the packet programs use. */
module Base {

  /** A value that may be missing: a map lookup miss, an absent array slot. */
  datatype Option<+T> = None | Some(value: T)

  /** The `Result<T, ()>` of the Rust programs: the error carries no data. */
  datatype Result<+T> = Ok(value: T) | Err

  /** A packet byte. */
  newtype Byte = b: int | 0 <= b < 0x100
  type Bytes = seq<Byte>

  const U16_LIMIT: nat := 0x1_0000
  const U32_LIMIT: nat := 0x1_0000_0000
  const U64_LIMIT: nat := 0x1_0000_0000_0000_0000
  const I64_MIN: int := -0x8000_0000_0000_0000

  predicate IsU16(x: int) { 0 <= x < U16_LIMIT }
  predicate IsU32(x: int) { 0 <= x < U32_LIMIT }
  predicate IsU64(x: int) { 0 <= x < U64_LIMIT }

  /** Fields declared `u16` / `u32` in a record the programs store. */
  type U16 = x: int | 0 <= x < U16_LIMIT
  type U32 = x: int | 0 <= x < U32_LIMIT

  /** Wrapping `u32` addition/subtraction and truncating casts: Dafny's `%`
      is Euclidean, which is exactly modular reduction for these widths. */
  function WrapU32(x: int): (r: nat)
    ensures IsU32(r)
    ensures IsU32(x) ==> r == x
  {
    x % U32_LIMIT
  }

  function WrapU64(x: int): (r: nat)
    ensures IsU64(r)
    ensures IsU64(x) ==> r == x
  {
    x % U64_LIMIT
  }

  /** Wrapping `i64` arithmetic: reduce into [-2^63, 2^63). */
  function WrapI64(x: int): (r: int)
    ensures I64_MIN <= r < -I64_MIN
    ensures I64_MIN <= x < -I64_MIN ==> r == x
  {
    (x - I64_MIN) % U64_LIMIT + I64_MIN
  }

  function TruncU16(x: int): (r: nat)
    ensures IsU16(r)
    ensures IsU16(x) ==> r == x
  {
    x % U16_LIMIT
  }

  function Min(a: int, b: int): (r: int)
    ensures r <= a && r <= b
    ensures r == a || r == b
  {
    if a <= b then a else b
  }

  /** Big-endian (network order) reads: `u16::from_be` / `u32::from_be`
      applied to a field loaded from the packet. */
  function Be16(b: Bytes): (r: nat)
    requires |b| == 2
    ensures IsU16(r)
  {
    (b[0] as nat) * 0x100 + b[1] as nat
  }

  function Be32(b: Bytes): (r: nat)
    requires |b| == 4
    ensures IsU32(r)
  {
    Be16(b[..2]) * U16_LIMIT + Be16(b[2..])
  }

  /** Big-endian encodings: `to_be()` followed by a store into the packet. */
  function ToBe16(x: nat): (r: Bytes)
    requires IsU16(x)
    ensures |r| == 2
  {
    [(x / 0x100) as Byte, (x % 0x100) as Byte]
  }

  function ToBe32(x: nat): (r: Bytes)
    requires IsU32(x)
    ensures |r| == 4
  {
    ToBe16(x / U16_LIMIT) + ToBe16(x % U16_LIMIT)
  }

  lemma Be16RoundTrip(x: nat)
    requires IsU16(x)
    ensures Be16(ToBe16(x)) == x
  {
  }

  lemma Be32RoundTrip(x: nat)
    requires IsU32(x)
    ensures Be32(ToBe32(x)) == x
  {
    var b := ToBe32(x);
    assert b[..2] == ToBe16(x / U16_LIMIT);
    assert b[2..] == ToBe16(x % U16_LIMIT);
    Be16RoundTrip(x / U16_LIMIT);
    Be16RoundTrip(x % U16_LIMIT);
  }

  /** Little-endian 8-byte encoding, `u64::to_le_bytes`. */
  function LeBytes(x: nat, n: nat): (r: Bytes)
    ensures |r| == n
    decreases n
  {
    if n == 0 then [] else [(x % 0x100) as Byte] + LeBytes(x / 0x100, n - 1)
  }

  function LeValue(b: Bytes): (r: nat)
    decreases |b|
  {
    if |b| == 0 then 0 else b[0] as nat + 0x100 * LeValue(b[1..])
  }

  function Pow256(n: nat): (r: nat)
    ensures r >= 1
  {
    if n == 0 then 1 else 0x100 * Pow256(n - 1)
  }

  /** Decoding an n-byte little-endian field recovers any value below 256^n. */
  lemma {:induction false} LeRoundTrip(x: nat, n: nat)
    requires x < Pow256(n)
    ensures LeValue(LeBytes(x, n)) == x
    decreases n
  {
    if n > 0 {
      var b := LeBytes(x, n);
      assert b[1..] == LeBytes(x / 0x100, n - 1);
      assert x / 0x100 < Pow256(n - 1);
      LeRoundTrip(x / 0x100, n - 1);
    }
  }

  lemma Pow256Of8()
    ensures Pow256(8) == U64_LIMIT
  {
  }

  function LeU64(x: nat): (r: Bytes)
    ensures |r| == 8
  {
    LeBytes(x, 8)
  }

  lemma LeU64RoundTrip(x: nat)
    requires IsU64(x)
    ensures LeValue(LeU64(x)) == x
  {
    Pow256Of8();
    LeRoundTrip(x, 8);
  }

  /** A field of a header read from a packet is the packet's own bytes. */
  lemma SliceOfSlice(p: Bytes, lo: nat, hi: nat, a: nat, b: nat)
    requires lo <= hi <= |p| && a <= b <= hi - lo
    ensures p[lo..hi][a..b] == p[lo + a..lo + b]
  {
    assert forall i :: 0 <= i < b - a ==> p[lo..hi][a..b][i] == p[lo + a + i];
  }

  /** ASCII text as the bytes `str::as_bytes` yields for it. */
  function Ascii(s: string): (r: Bytes)
    requires forall i :: 0 <= i < |s| ==> s[i] as int < 0x80
    ensures |r| == |s|
    ensures forall i :: 0 <= i < |s| ==> r[i] as int == s[i] as int
  {
    seq(|s|, i requires 0 <= i < |s| => s[i] as int as Byte)
  }
}

=== FILE: checksum.dfy ===
/** Incremental Internet checksum update (ebpf/src/lib.rs `update_checksum`,
    `update_checksum_ip`), the computation of equation 3 in section 3 of
    RFC 1624: HC' = ~(~HC + ~m + m'), with end-around carries folded back.

    Ones'-complement arithmetic on 16-bit words is arithmetic modulo
    0xffff; the contracts below state the update in those terms. */
module Checksum {
  import opened Base

  const ONES_MODULUS: nat := 0xffff

  /** `!x` on a `u16`. */
  function Not16(x: nat): (r: nat)
    requires IsU16(x)
    ensures IsU16(r)
    ensures r + x == 0xffff
  {
    0xffff - x
  }

  /** One end-around-carry fold of a 32-bit sum: `(s & 0xffff) + (s >> 16)`. */
  function Fold(s: nat): nat
  {
    s % U16_LIMIT + s / U16_LIMIT
  }

  lemma MultipleOfModulus(q: nat, k: nat)
    ensures (ONES_MODULUS * q + k) % ONES_MODULUS == k % ONES_MODULUS
  {
  }

  /** Folding a carry back in does not change a value modulo 0xffff,
      because 0x10000 is 1 modulo 0xffff. */
  lemma FoldPreservesOnesSum(s: nat)
    ensures Fold(s) % ONES_MODULUS == s % ONES_MODULUS
  {
    var q := s / U16_LIMIT;
    var k := s % U16_LIMIT;
    assert s == ONES_MODULUS * q + (q + k);
    MultipleOfModulus(q, q + k);
  }

  /** `update_checksum(checksum, prior, next)`: the stored result `r` is the
      ones'-complement of ~HC + ~m + m', that is ~r is congruent to that sum
      modulo 0xffff, which is what RFC 1624 eqn. 3 prescribes. */
  function UpdateChecksum(checksum: nat, prior: nat, next: nat): (r: nat)
    requires IsU16(checksum) && IsU16(prior) && IsU16(next)
    ensures IsU16(r)
    ensures Not16(r) % ONES_MODULUS
      == (Not16(checksum) + Not16(prior) + next) % ONES_MODULUS
  {
    var sum0 := Not16(checksum) + Not16(prior) + next;
    var sum1 := Fold(sum0);
    var sum2 := sum1 + sum1 / U16_LIMIT;
    FoldPreservesOnesSum(sum0);
    assert sum1 <= 0x10001;
    assert sum2 % U16_LIMIT == if sum1 < U16_LIMIT then sum1 else sum1 - 0xffff;
    Not16(sum2 % U16_LIMIT)
  }

  /** Replacing a word by itself leaves the checksum as it was, except the
      negative-zero representation 0xffff, which comes back as 0x0000. */
  lemma UnchangedWordKeepsChecksum(checksum: nat, word: nat)
    requires IsU16(checksum) && IsU16(word)
    ensures UpdateChecksum(checksum, word, word) == if checksum == 0xffff then 0 else checksum
  {
    var r := UpdateChecksum(checksum, word, word);
    var sum0 := Not16(checksum) + Not16(word) + word;
    assert sum0 == 0xffff + Not16(checksum);
    if checksum == 0xffff {
      assert sum0 == 0xffff;
    } else {
      assert sum0 == U16_LIMIT + (0xfffe - checksum);
      assert sum0 % U16_LIMIT == 0xfffe - checksum && sum0 / U16_LIMIT == 1;
    }
  }

  function High16(x: nat): (r: nat)
    requires IsU32(x)
    ensures IsU16(r)
  {
    x / U16_LIMIT
  }

  function Low16(x: nat): (r: nat)
    ensures IsU16(r)
  {
    x % U16_LIMIT
  }

  /** `update_checksum_ip`: a 32-bit field (an IPv4 address) changes as two
      16-bit words; the result accounts for both word changes, high half
      first and then low half. */
  function UpdateChecksumIp(checksum: nat, prior: nat, next: nat): (r: nat)
    requires IsU16(checksum) && IsU32(prior) && IsU32(next)
    ensures IsU16(r)
    ensures Not16(r) % ONES_MODULUS
      == (Not16(checksum) + Not16(High16(prior)) + High16(next)
          + Not16(Low16(prior)) + Low16(next)) % ONES_MODULUS
  {
    var mid := UpdateChecksum(checksum, High16(prior), High16(next));
    var r := UpdateChecksum(mid, Low16(prior), Low16(next));
    OnesSumCompose(checksum, mid, r, Not16(High16(prior)) + High16(next),
                   Not16(Low16(prior)) + Low16(next));
    r
  }

  lemma OnesSumCompose(c: nat, mid: nat, r: nat, d1: nat, d2: nat)
    requires IsU16(c) && IsU16(mid) && IsU16(r)
    requires Not16(mid) % ONES_MODULUS == (Not16(c) + d1) % ONES_MODULUS
    requires Not16(r) % ONES_MODULUS == (Not16(mid) + d2) % ONES_MODULUS
    ensures Not16(r) % ONES_MODULUS == (Not16(c) + d1 + d2) % ONES_MODULUS
  {
    var m := Not16(mid);
    var a := Not16(c) + d1;
    assert m % ONES_MODULUS == a % ONES_MODULUS;
    assert (m + d2) % ONES_MODULUS == (a + d2) % ONES_MODULUS by {
      assert m == ONES_MODULUS * (m / ONES_MODULUS) + m % ONES_MODULUS;
      assert a == ONES_MODULUS * (a / ONES_MODULUS) + a % ONES_MODULUS;
      MultipleOfModulus(m / ONES_MODULUS, m % ONES_MODULUS + d2);
      MultipleOfModulus(a / ONES_MODULUS, a % ONES_MODULUS + d2);
    }
  }

  /** Rewriting an address to itself leaves a valid checksum untouched. */
  lemma UnchangedAddressKeepsChecksum(checksum: nat, addr: nat)
    requires IsU16(checksum) && checksum != 0xffff && IsU32(addr)
    ensures UpdateChecksumIp(checksum, addr, addr) == checksum
  {
    UnchangedWordKeepsChecksum(checksum, High16(addr));
    UnchangedWordKeepsChecksum(checksum, Low16(addr));
  }
}

=== FILE: classifiers.dfy ===
/** Classifier programs: the UDP/TCP classifier (ebpf/src/bin/udp-tcp-classifier.rs
    and its older build ebpf/udp-tcp-classifier-ebpf) and the round-robin
    classifier (ebpf/src/bin/round-robin.rs).  A classifier returns the
    number of the output the packet leaves on. */
module Classifiers {
  import opened Base
  import opened PacketAccess
  import opened Headers
  import opened Stores

  datatype ClassifyResult = Udp | Tcp | Rest

  /** `#[repr(u32)]` discriminant / `output_port`. */
  function OutputPort(c: ClassifyResult): nat
  {
    match c
    case Udp => 0
    case Tcp => 1
    case Rest => 2
  }

  /** The three classes leave on three distinct outputs, 0, 1 and 2. */
  lemma OutputPortsDistinct(a: ClassifyResult, b: ClassifyResult)
    ensures OutputPort(a) <= 2
    ensures OutputPort(a) == OutputPort(b) <==> a == b
  {
  }

  /** `try_classify`: IPv4 packets with a sane IHL are split by protocol. */
  function ClassifyTry(p: Bytes): (r: Result<ClassifyResult>)
    ensures r.Err? <==> |p| < ETH_HDR_LEN || (IsIpv4Frame(p) && |p| < 34)
    ensures r == Ok(Udp) <==> SaneIpv4(p) && p[23] == 17
    ensures r == Ok(Tcp) <==> SaneIpv4(p) && p[23] == 6
  {
    match Load(p, 0, ETH_HDR_LEN)
    case Err => Err
    case Ok(eth) =>
      if EtherType(eth) != ETHERTYPE_IPV4 then Ok(Rest)
      else
        match Load(p, ETH_HDR_LEN, IPV4_HDR_LEN)
        case Err => Err
        case Ok(ip) =>
          if IpHeaderLen(ip) < IPV4_HDR_LEN then Ok(Rest)
          else if Proto(ip) == PROTO_UDP then Ok(Udp)
          else if Proto(ip) == PROTO_TCP then Ok(Tcp)
          else Ok(Rest)
  }

  /** A well-formed IPv4 frame with IHL of at least 5 words, described on
      raw bytes: EtherType at 12..14, IHL in the low nibble of byte 14. */
  predicate SaneIpv4(p: Bytes)
  {
    IsIpv4Frame(p) && |p| >= 34 && (p[14] as nat % 16) * 4 >= 20
  }

  /** `classify`: any error is reported as Rest, so the output is always
      0, 1 or 2; UDP goes to 0 and TCP to 1 exactly when the frame is sane
      IPv4 carrying that protocol (byte 23). */
  function UdpTcpClassify(p: Bytes): (out: nat)
    ensures out <= 2
    ensures out == 0 <==> SaneIpv4(p) && p[23] == 17
    ensures out == 1 <==> SaneIpv4(p) && p[23] == 6
    ensures out == 2 <==> !(SaneIpv4(p) && (p[23] == 17 || p[23] == 6))
  {
    match ClassifyTry(p)
    case Err => OutputPort(Rest)
    case Ok(c) => OutputPort(c)
  }

  const OUTPUTS: nat := 2

  /** round-robin.rs `try_classify` over the one-slot `u32` array
      PKTCOUNTER: the output is the counter modulo 2 read before the
      increment; a missing slot yields output 0 and no change. */
  function RoundRobin(counter: FixedArray<nat>): (r: (nat, FixedArray<nat>))
    ensures r.0 < OUTPUTS
    ensures |r.1.slots| == |counter.slots|
    ensures counter.Get(0).None? ==> r == (0, counter)
    // the output is the parity of the count before this packet, and the
    // `u32` count moves on by one, wrapping
    ensures counter.Get(0).Some? ==>
      && r.0 == counter.slots[0] % 2
      && r.1.slots[0] == WrapU32(counter.slots[0] + 1)
      && r.1.slots[1..] == counter.slots[1..]
  {
    match counter.Get(0)
    case None => (0, counter)
    case Some(c) => (c % OUTPUTS, counter.Set(0, WrapU32(c + 1)))
  }

  /** The outputs of `k` successive packets and the counter afterwards. */
  function RunRoundRobin(counter: FixedArray<nat>, k: nat): (r: (seq<nat>, FixedArray<nat>))
    ensures |r.0| == k
    decreases k
  {
    if k == 0 then ([], counter)
    else
      var (outs, c) := RunRoundRobin(counter, k - 1);
      var (o, c') := RoundRobin(c);
      (outs + [o], c')
  }

  lemma ParityOfWrap(x: nat)
    ensures WrapU32(x) % 2 == x % 2
  {
    var a := 0x8000_0000 * (x / U32_LIMIT);
    assert x == 2 * a + WrapU32(x);
    EvenShift(a, WrapU32(x));
  }

  lemma EvenShift(a: nat, b: nat)
    ensures (2 * a + b) % 2 == b % 2
  {
  }

  /** The counter advances by exactly one per packet (modulo 2^32) and the
      k-th packet leaves on output (c + k) mod 2: since 2^32 is even, the
      alternation survives the counter's wrap-around. */
  lemma {:induction false} RoundRobinAlternates(counter: FixedArray<nat>, k: nat)
    requires |counter.slots| >= 1 && IsU32(counter.slots[0])
    ensures |RunRoundRobin(counter, k).1.slots| == |counter.slots|
    ensures RunRoundRobin(counter, k).1.slots[0] == WrapU32(counter.slots[0] + k)
    ensures forall i :: 0 <= i < k ==> RunRoundRobin(counter, k).0[i] == (counter.slots[0] + i) % 2
    decreases k
  {
    if k > 0 {
      var prev := RunRoundRobin(counter, k - 1);
      RoundRobinAlternates(counter, k - 1);
      var step := RoundRobin(prev.1);
      assert RunRoundRobin(counter, k) == (prev.0 + [step.0], step.1);
      RoundRobinStep(prev.1, counter.slots[0] + (k - 1));
      AppendOutput(prev.0, step.0, counter.slots[0], k - 1);
    }
  }

  /** One packet on a counter that holds `x` modulo 2^32 leaves on output
      `x` mod 2 and leaves `x + 1` modulo 2^32. */
  lemma RoundRobinStep(c: FixedArray<nat>, x: nat)
    requires |c.slots| >= 1 && c.slots[0] == WrapU32(x)
    ensures RoundRobin(c).0 == x % 2
    ensures RoundRobin(c).1.slots[0] == WrapU32(x + 1)
  {
    ParityOfWrap(x);
    WrapSucc(x);
  }

  lemma WrapSucc(x: nat)
    ensures WrapU32(WrapU32(x) + 1) == WrapU32(x + 1)
  {
  }

  /** The induction step of `RoundRobinAlternates`: one more output of the
      right parity extends the alternation. */
  lemma AppendOutput(outs: seq<nat>, o: nat, c0: nat, n: nat)
    requires |outs| == n && o == (c0 + n) % 2
    requires forall i :: 0 <= i < n ==> outs[i] == (c0 + i) % 2
    ensures forall i :: 0 <= i < n + 1 ==> (outs + [o])[i] == (c0 + i) % 2
  {
  }

  /** From a zeroed counter, packets alternate 0, 1, 0, 1, ... */
  lemma RoundRobinFromZero(k: nat)
    ensures forall i :: 0 <= i < k ==> RunRoundRobin(FixedArray([0]), k).0[i] == i % 2
  {
    RoundRobinAlternates(FixedArray([0]), k);
  }
}

=== FILE: click_dispatch.dfy ===
/** How the Click elements hand a packet to a program and act on the code
    it returns (libs/click/unikraft/bpfelement.cc `exec`, bpfilter.cc
    `push`/`write_handler`, bpfclassifier.cc `push`, bpfrewriter.cc `push`).

    The program itself is not run here: its result arrives as a parameter.
    Locks are modelled as a count of held read locks and a held-write flag,
    because two paths leave them held. */
module ClickDispatch {
  import opened Base
  import opened Verdicts
  import opened Rewriters
  import opened Stores
  import opened Classifiers

  /** What the virtual machine reported for one run. */
  datatype VmRun =
    | Jitted(value: nat)            // the compiled function's `u64` return
    | Interpreted(result: Option<nat>)  // `ubpf_exec`: a value or an error

  /** `BPFElement::exec`: the low 32 bits of the program's return value; an
      interpreter error yields `(uint32_t) -1`. */
  function Exec(run: VmRun): (r: nat)
    ensures IsU32(r)
    ensures run.Jitted? ==> r == run.value % U32_LIMIT
    ensures run.Interpreted? && run.result.Some? ==> r == run.result.value % U32_LIMIT
    ensures run == Interpreted(None) ==> r == U32_LIMIT - 1
  {
    match run
    case Jitted(v) => v % U32_LIMIT
    case Interpreted(None) => U32_LIMIT - 1
    case Interpreted(Some(v)) => v % U32_LIMIT
  }

  /** The `int` a C++ caller stores an `exec` result in: values from 2^31
      on come out negative (two's complement). */
  function AsCInt(x: nat): (r: int)
    requires IsU32(x)
    ensures -0x8000_0000 <= r < 0x8000_0000
    ensures r >= 0 ==> r == x
    ensures r < 0 ==> r + U32_LIMIT == x
  {
    if x < 0x8000_0000 then x else x - U32_LIMIT
  }

  /** An interpreter error is the only `exec` result a classifier reads
      as -1, apart from a program that itself returns 0xFFFFFFFF. */
  lemma ExecErrorIsMinusOne(run: VmRun)
    ensures AsCInt(Exec(run)) == -1 <==>
      (run == Interpreted(None) || (run.Jitted? && run.value % U32_LIMIT == U32_LIMIT - 1)
       || (run.Interpreted? && run.result.Some? && run.result.value % U32_LIMIT == U32_LIMIT - 1))
  {
  }

  /** What becomes of the packet an element received. */
  datatype Fate =
    | Forwarded(port: nat, packet: Bytes)  // pushed to an output
    | KilledCopy                           // the writable copy is freed
    | KilledOriginal                       // the packet as received is freed
    | Vanished                             // `uniqueify` failed: nothing pushed
    | Held                                 // neither pushed nor freed
    | Blocked                              // waits for a lock that is never released

  datatype Lock = Lock(readers: nat, writer: bool)

  const FREE: Lock := Lock(0, false)

  // ------------------------------------------------------------ BPFilter

  /** The `count` and `filtered` counters (`uint64_t`) and the element's
      lock. */
  datatype FilterCounters = FilterCounters(count: nat, filtered: nat, lock: Lock)

  datatype FilterPush = FilterPush(fate: Fate, counters: FilterCounters)

  /** What BPFilter does after an interpreter error.  As written it
      returns at once: the read lock stays held and the packet is neither
      forwarded nor freed.  The intended handling releases the lock and
      frees the packet. */
  datatype ErrorPath = AsWrittenReturn | UnlockAndKill

  /** `BPFilter::push`: count the packet, run the program on the packet
      buffer, drop (free) the packet and count it as filtered when the
      program returns exactly 1, and forward it on output 0 otherwise.
      The packet is counted before the read lock is taken, so a held write
      lock makes the push wait with the packet already counted. */
  function BPFilterPush(path: ErrorPath, c: FilterCounters, p: Bytes, result: Option<nat>): (r: FilterPush)
    ensures r.counters.count == WrapU64(c.count + 1)
    ensures c.lock.writer ==> r.fate == Blocked && r.counters.filtered == c.filtered && r.counters.lock == c.lock
    ensures result == Some(1) && !c.lock.writer <==> r.fate == KilledOriginal && r.counters.filtered != c.filtered
    ensures result.Some? && result != Some(1) && !c.lock.writer <==> r.fate == Forwarded(0, p)
    ensures result.Some? ==> r.counters.lock == c.lock
    ensures result.None? && !c.lock.writer && path == AsWrittenReturn ==>
      r.fate == Held && r.counters.lock == c.lock.(readers := c.lock.readers + 1)
    ensures result.None? && !c.lock.writer && path == UnlockAndKill ==>
      r.fate == KilledOriginal && r.counters.lock == c.lock
    // only a dropped packet is counted as filtered, by exactly one
    ensures r.counters.filtered ==
      (if result == Some(1) && !c.lock.writer then WrapU64(c.filtered + 1) else c.filtered)
  {
    var counted := c.(count := WrapU64(c.count + 1));
    if c.lock.writer then FilterPush(Blocked, counted)
    else
      match result
      case None =>
        if path == AsWrittenReturn then
          FilterPush(Held, counted.(lock := c.lock.(readers := c.lock.readers + 1)))
        else FilterPush(KilledOriginal, counted)
      case Some(ret) =>
        if ret == 1 then
          FilterPush(KilledOriginal, counted.(filtered := WrapU64(c.filtered + 1)))
        else FilterPush(Forwarded(0, p), counted)
  }

  /** `write_handler` (the `reset_count` button): both counters to zero. */
  function ResetCounters(c: FilterCounters): (r: FilterCounters)
    ensures r.count == 0 && r.filtered == 0 && r.lock == c.lock
  {
    c.(count := 0, filtered := 0)
  }

  /** The counters stay consistent: no more packets are counted as filtered
      than were received, as long as the 64-bit `count` does not wrap. */
  predicate CountersConsistent(c: FilterCounters)
  {
    c.filtered <= c.count < U64_LIMIT
  }

  lemma PushKeepsCountersConsistent(path: ErrorPath, c: FilterCounters, p: Bytes, result: Option<nat>)
    requires CountersConsistent(c) && c.count + 1 < U64_LIMIT
    ensures CountersConsistent(BPFilterPush(path, c, p, result).counters)
    ensures ResetCounters(c).count == 0 && CountersConsistent(ResetCounters(c))
  {
  }

  /** BPFilter reads 1 as "drop".  That is the filter-rs crates' DROP, but
      it is `FilterResult::Pass`: a `FilterResult` program's passed packets
      are freed and its dropped and aborted packets forwarded. */
  lemma BPFilterInvertsFilterResult(c: FilterCounters, p: Bytes)
    requires !c.lock.writer
    ensures BPFilterPush(AsWrittenReturn, c, p, Some(FILTER_RS_DROP)).fate == KilledOriginal
    ensures BPFilterPush(AsWrittenReturn, c, p, Some(FILTER_RS_PASS)).fate == Forwarded(0, p)
    ensures BPFilterPush(AsWrittenReturn, c, p, Some(FilterCode(Pass))).fate == KilledOriginal
    ensures BPFilterPush(AsWrittenReturn, c, p, Some(FilterCode(Drop))).fate == Forwarded(0, p)
    ensures BPFilterPush(AsWrittenReturn, c, p, Some(FilterCode(Abort))).fate == Forwarded(0, p)
  {
  }

  // ------------------------------------------------------------ BPFClassifier

  /** `BPFClassifier::push`: a failed `uniqueify` ends the push before
      the read lock is taken; otherwise the code, read as a C `int`, is -1
      to free the packet as received, or the output to push the writable
      copy to.  Pushing to an output the element does not have frees the
      copy (Click's `checked_output_push`). */
  function BPFClassifierPush(lock: Lock, unique: Option<Bytes>, outputs: nat, run: VmRun): (r: Fate)
    ensures unique.None? ==> r == Vanished
    ensures unique.Some? && lock.writer ==> r == Blocked
    ensures unique.Some? && !lock.writer ==>
      && (r == KilledOriginal <==> AsCInt(Exec(run)) == -1)
      && (r.Forwarded? <==> 0 <= AsCInt(Exec(run)) < outputs)
      && (r.Forwarded? ==> r.port == Exec(run) && r.packet == unique.value)
      && (r == KilledCopy <==> AsCInt(Exec(run)) != -1 && !(0 <= AsCInt(Exec(run)) < outputs))
  {
    match unique
    case None => Vanished
    case Some(q) =>
      if lock.writer then Blocked
      else
        var ret := AsCInt(Exec(run));
        if ret == -1 then KilledOriginal
        else if 0 <= ret < outputs then Forwarded(ret, q)
        else KilledCopy
  }

  /** The classifier programs end to end: the UDP/TCP classifier's
      output and the round-robin output reach the element's output of that
      number when the element has it, and otherwise the copy is freed. */
  lemma ClassifierOutputsReachPorts(lock: Lock, q: Bytes, p: Bytes, counter: FixedArray<nat>, outputs: nat)
    requires !lock.writer
    ensures UdpTcpClassify(p) < outputs ==>
      BPFClassifierPush(lock, Some(q), outputs, Jitted(UdpTcpClassify(p))) == Forwarded(UdpTcpClassify(p), q)
    ensures UdpTcpClassify(p) >= outputs ==>
      BPFClassifierPush(lock, Some(q), outputs, Jitted(UdpTcpClassify(p))) == KilledCopy
    ensures RoundRobin(counter).0 < outputs ==>
      BPFClassifierPush(lock, Some(q), outputs, Jitted(RoundRobin(counter).0)) == Forwarded(RoundRobin(counter).0, q)
  {
  }

  // ------------------------------------------------------------ BPFRewriter

  /** `BPFRewriter::push`: a failed `uniqueify` ends the push before the
      read lock is taken; after the run, `_current_packet` (possibly
      replaced by a resize) is pushed to output 0 on `Success` (1), freed on
      `Abort` (0) with an error, and any other code frees the packet as
      received. */
  function BPFRewriterPush(lock: Lock, unique: Option<Bytes>, code: nat, rewritten: Bytes): (r: Fate)
    requires IsU32(code)
    ensures unique.None? ==> r == Vanished
    ensures unique.Some? && lock.writer ==> r == Blocked
    ensures unique.Some? && !lock.writer ==>
      && (r == Forwarded(0, rewritten) <==> DecodeRewriter(code) == Some(RewriteSuccess))
      && (r == KilledCopy <==> DecodeRewriter(code) == Some(RewriteAbort))
      && (r == KilledOriginal <==> DecodeRewriter(code).None?)
  {
    match unique
    case None => Vanished
    case Some(_) =>
      if lock.writer then Blocked
      else
        var ret := AsCInt(code);
        if ret == 1 then Forwarded(0, rewritten)
        else if ret == 0 then KilledCopy
        else KilledOriginal
  }

  /** As written, every packet the stripper or the mirror rewrites is freed
      by BPFRewriter, since both return 0; with the intended codes a frame
      with a whole Ethernet header leaves on output 0, rewritten. */
  lemma RewrittenPacketsAreFreed(lock: Lock, p: Bytes)
    requires !lock.writer && StripDefined(p)
    ensures BPFRewriterPush(lock, Some(p), StripVlan(AsWrittenCode, p).code, StripVlan(AsWrittenCode, p).packet) == KilledCopy
    ensures BPFRewriterPush(lock, Some(p), EtherMirror(AsWrittenCode, p).code, EtherMirror(AsWrittenCode, p).packet) == KilledCopy
  {
  }

  lemma IntendedRewritesAreForwarded(lock: Lock, p: Bytes)
    requires !lock.writer && StripDefined(p) && |p| >= 14
    ensures BPFRewriterPush(lock, Some(p), StripVlan(IntendedCode, p).code, StripVlan(IntendedCode, p).packet)
         == Forwarded(0, StripVlan(IntendedCode, p).packet)
    ensures BPFRewriterPush(lock, Some(p), EtherMirror(IntendedCode, p).code, EtherMirror(IntendedCode, p).packet)
         == Forwarded(0, EtherMirror(IntendedCode, p).packet)
  {
  }
}

=== FILE: control_datagram.dfy ===
/** The control datagram clients send to the router to ask for a
    reconfiguration (examples/showcase/tui/src/click_api.rs, helper/src/main.rs,
    benchmark/benches/live_reconfigure.rs, benchmark/src/live_reconfigure.rs):
    the ASCII tag "control", the element id as a little-endian `u64`, the
    program name behind a little-endian `u64` length, and optionally the
    signature file name behind another such length.  Names are taken as the
    bytes `as_bytes` gives. */
module ControlDatagram {
  import opened Base

  /** "control" in ASCII. */
  const TAG: Bytes := [0x63, 0x6f, 0x6e, 0x74, 0x72, 0x6f, 0x6c]
  const TAG_LEN: nat := 7

  lemma TagIsControl()
    ensures TAG == Ascii("control")
  {
  }
  const FIELD_LEN: nat := 8

  datatype Command = Command(id: nat, program: Bytes, signature: Option<Bytes>)

  /** Every number fits its `u64` field. */
  predicate Encodable(c: Command)
  {
    IsU64(c.id) && IsU64(|c.program|) && (c.signature.Some? ==> IsU64(|c.signature.value|))
  }

  /** A length-prefixed byte string. */
  function Field(b: Bytes): (r: Bytes)
    ensures |r| == FIELD_LEN + |b|
  {
    LeU64(|b|) + b
  }

  /** The tag and the element id. */
  function Header(id: nat): (h: Bytes)
    ensures |h| == TAG_LEN + FIELD_LEN
    ensures h[..TAG_LEN] == TAG && h[TAG_LEN..] == LeU64(id)
  {
    TAG + LeU64(id)
  }

  /** The optional signature field: absent, or length-prefixed. */
  function SignatureField(sig: Option<Bytes>): (r: Bytes)
    ensures |r| == if sig.Some? then FIELD_LEN + |sig.value| else 0
  {
    if sig.Some? then Field(sig.value) else []
  }

  /** The datagram for a command. */
  function Encode(c: Command): (d: Bytes)
    requires Encodable(c)
    ensures |d| == 23 + |c.program| + (if c.signature.Some? then FIELD_LEN + |c.signature.value| else 0)
    ensures d[..TAG_LEN] == TAG
    ensures d[TAG_LEN..TAG_LEN + FIELD_LEN] == LeU64(c.id)
  {
    var h := Header(c.id);
    var d := h + (Field(c.program) + SignatureField(c.signature));
    assert d[..TAG_LEN] == h[..TAG_LEN];
    assert d[TAG_LEN..TAG_LEN + FIELD_LEN] == h[TAG_LEN..];
    d
  }

  /** Reads a length-prefixed field at the front of `b`, returning it and
      what follows. */
  function TakeField(b: Bytes): (r: Option<(Bytes, Bytes)>)
    ensures r.Some? ==> |b| >= FIELD_LEN && r.value.0 + r.value.1 == b[FIELD_LEN..]
    ensures r.Some? ==> |r.value.0| == LeValue(b[..FIELD_LEN])
  {
    if |b| < FIELD_LEN then None
    else
      var n := LeValue(b[..FIELD_LEN]);
      if |b| - FIELD_LEN < n then None
      else
        var rest := b[FIELD_LEN..];
        assert rest[..n] + rest[n..] == rest;
        Some((rest[..n], rest[n..]))
  }

  lemma TakeFieldOfField(b: Bytes, rest: Bytes)
    requires IsU64(|b|)
    ensures TakeField(Field(b) + rest) == Some((b, rest))
  {
    LeU64RoundTrip(|b|);
    var d := Field(b) + rest;
    assert d[..FIELD_LEN] == LeU64(|b|);
    assert LeValue(d[..FIELD_LEN]) == |b|;
    var tail := d[FIELD_LEN..];
    assert tail == b + rest;
    assert tail[..|b|] == b;
    assert tail[|b|..] == rest;
  }

  /** The receiving side's reading of a datagram: the tag, the id, the
      program field, then either nothing or exactly one signature field. */
  function Decode(d: Bytes): (r: Option<Command>)
    ensures r.Some? ==> |d| >= TAG_LEN + FIELD_LEN && d[..TAG_LEN] == TAG
    ensures r.Some? ==> r.value.id == LeValue(d[TAG_LEN..TAG_LEN + FIELD_LEN])
  {
    if |d| < TAG_LEN + FIELD_LEN || d[..TAG_LEN] != TAG then None
    else
      var id := LeValue(d[TAG_LEN..TAG_LEN + FIELD_LEN]);
      match TakeField(d[TAG_LEN + FIELD_LEN..])
      case None => None
      case Some(pr) =>
        if |pr.1| == 0 then Some(Command(id, pr.0, None))
        else
          match TakeField(pr.1)
          case None => None
          case Some(sr) =>
            if |sr.1| == 0 then Some(Command(id, pr.0, Some(sr.0))) else None
  }

  /** Decoding an encoded command gives the command back. */
  lemma DecodeEncode(c: Command)
    requires Encodable(c)
    ensures Decode(Encode(c)) == Some(c)
  {
    LeU64RoundTrip(c.id);
    var sig := SignatureField(c.signature);
    var d := Encode(c);
    assert d[TAG_LEN + FIELD_LEN..] == Field(c.program) + sig;
    TakeFieldOfField(c.program, sig);
    if c.signature.Some? {
      TakeFieldOfField(c.signature.value, []);
      assert Field(c.signature.value) + [] == sig;
    }
  }

  /** A field that was read is re-encoded as the bytes it was read from. */
  lemma FieldOfTakeField(b: Bytes)
    requires TakeField(b).Some?
    ensures IsU64(|TakeField(b).value.0|)
    ensures b == Field(TakeField(b).value.0) + TakeField(b).value.1
  {
    LeBytesOfValue(b[..FIELD_LEN]);
    assert b == b[..FIELD_LEN] + b[FIELD_LEN..];
  }

  /** What decodes re-encodes to the very same bytes: the format has one
      datagram per command. */
  lemma EncodeDecode(d: Bytes)
    requires Decode(d).Some?
    ensures Encodable(Decode(d).value) && Encode(Decode(d).value) == d
  {
    var c := Decode(d).value;
    var idField := d[TAG_LEN..TAG_LEN + FIELD_LEN];
    LeBytesOfValue(idField);
    assert Header(c.id) == d[..TAG_LEN + FIELD_LEN] by {
      assert d[..TAG_LEN + FIELD_LEN] == d[..TAG_LEN] + idField;
    }
    DecodedBody(d);
    assert Encode(c) == Header(c.id) + (Field(c.program) + SignatureField(c.signature));
    assert d == d[..TAG_LEN + FIELD_LEN] + d[TAG_LEN + FIELD_LEN..];
  }

  /** Behind the header, a decoded datagram is exactly the program field
      and the signature field. */
  lemma DecodedBody(d: Bytes)
    requires Decode(d).Some?
    ensures IsU64(|Decode(d).value.program|)
    ensures Decode(d).value.signature.Some? ==> IsU64(|Decode(d).value.signature.value|)
    ensures d[TAG_LEN + FIELD_LEN..] == Field(Decode(d).value.program) + SignatureField(Decode(d).value.signature)
  {
    var c := Decode(d).value;
    var body := d[TAG_LEN + FIELD_LEN..];
    var pr := TakeField(body).value;
    FieldOfTakeField(body);
    if |pr.1| != 0 {
      FieldOfTakeField(pr.1);
      assert SignatureField(c.signature) == pr.1;
    } else {
      assert SignatureField(c.signature) == pr.1;
    }
  }

  /** Eight bytes are the encoding of their own little-endian value, which
      fits a `u64`. */
  lemma LeBytesOfValue(b: Bytes)
    requires |b| == FIELD_LEN
    ensures IsU64(LeValue(b)) && LeU64(LeValue(b)) == b
  {
    Pow256Of8();
    LeValueBound(b);
    LeBytesOfLeValue(b);
  }

  lemma {:induction false} LeValueBound(b: Bytes)
    ensures LeValue(b) < Pow256(|b|)
    decreases |b|
  {
    if |b| > 0 {
      LeValueBound(b[1..]);
    }
  }

  lemma {:induction false} LeBytesOfLeValue(b: Bytes)
    ensures LeBytes(LeValue(b), |b|) == b
    decreases |b|
  {
    if |b| > 0 {
      ByteDigit(b[0] as nat, LeValue(b[1..]));
      LeBytesOfLeValue(b[1..]);
      assert b == [b[0]] + b[1..];
    }
  }

  /** The low byte and the rest of a little-endian number. */
  lemma ByteDigit(d: nat, rest: nat)
    requires d < 0x100
    ensures (d + 0x100 * rest) % 0x100 == d && (d + 0x100 * rest) / 0x100 == rest
  {
  }

  // ------------------------------------------------------------ clients

  /** `ClickApi::reconfigure(id, program, signature)`. */
  function ClickApiReconfigure(id: nat, program: Bytes, signature: Bytes): (d: Bytes)
    requires IsU64(id) && IsU64(|program|) && IsU64(|signature|)
    ensures |d| == 31 + |program| + |signature|
    ensures Decode(d) == Some(Command(id, program, Some(signature)))
  {
    DecodeEncode(Command(id, program, Some(signature)));
    Encode(Command(id, program, Some(signature)))
  }

  /** The reconfiguration trigger of benchmark/src/live_reconfigure.rs:
      element 1, no signature. */
  function ToolTrigger(program: Bytes): (d: Bytes)
    requires IsU64(|program|)
    ensures |d| == 23 + |program|
    ensures Decode(d) == Some(Command(1, program, None))
  {
    DecodeEncode(Command(1, program, None));
    Encode(Command(1, program, None))
  }

  /** The benchmark's trigger: element 1, signature `<program>.sig`. */
  function BenchTrigger(program: Bytes): (d: Bytes)
    requires IsU64(|program| + 4)
    ensures |d| == 35 + 2 * |program|
    ensures Decode(d) == Some(Command(1, program, Some(program + Ascii(".sig"))))
  {
    DecodeEncode(Command(1, program, Some(program + Ascii(".sig"))));
    Encode(Command(1, program, Some(program + Ascii(".sig"))))
  }

  /** Where a client sends: the router's control or data address. */
  datatype Endpoint = ControlAddr | DataAddr

  datatype Datagram = Datagram(to: Endpoint, payload: Bytes)

  lemma ArgumentsDiffer()
    ensures Ascii("reconfigure") != Ascii("send-packet")
  {
    assert Ascii("reconfigure")[0] != Ascii("send-packet")[0];
  }

  /** `main` of the helper tool: `reconfigure <program>` sends the
      three-field trigger for element 1 to the control address,
      `send-packet` sends "data" to the data address, and anything else,
      or a missing program name, is an error with nothing sent. */
  function HelperMain(args: seq<Bytes>): (r: Result<Datagram>)
    requires forall i :: 0 <= i < |args| ==> IsU64(|args[i]|)
    ensures r.Ok? <==> |args| >= 2 && (args[1] == Ascii("send-packet") || (args[1] == Ascii("reconfigure") && |args| >= 3))
    ensures |args| >= 3 && args[1] == Ascii("reconfigure") ==>
      r.Ok? && r.value.to == ControlAddr && Decode(r.value.payload) == Some(Command(1, args[2], None))
    ensures r.Ok? && args[1] == Ascii("send-packet") ==> r.value == Datagram(DataAddr, Ascii("data"))
  {
    ArgumentsDiffer();
    if |args| < 2 then Err
    else if args[1] == Ascii("reconfigure") then
      if |args| < 3 then Err else Ok(Datagram(ControlAddr, ToolTrigger(args[2])))
    else if args[1] == Ascii("send-packet") then Ok(Datagram(DataAddr, Ascii("data")))
    else Err
  }

  /** The signed and unsigned triggers of the same program agree on the id
      and the program and differ only in the trailing signature field. */
  lemma TriggersShareFirstFields(program: Bytes)
    requires IsU64(|program| + 4)
    ensures BenchTrigger(program)[..|ToolTrigger(program)|] == ToolTrigger(program)
  {
    var c := Command(1, program, Some(program + Ascii(".sig")));
    EncodeAppendsSignature(c);
  }

  /** A signed command's datagram is the unsigned one followed by the
      signature field. */
  lemma EncodeAppendsSignature(c: Command)
    requires Encodable(c) && c.signature.Some?
    ensures Encode(c) == Encode(c.(signature := None)) + Field(c.signature.value)
    ensures Encode(c)[..|Encode(c.(signature := None))|] == Encode(c.(signature := None))
  {
    var h := Header(c.id);
    var f := Field(c.program);
    var g := Field(c.signature.value);
    assert Encode(c) == h + (f + g);
    assert Encode(c.(signature := None)) == h + (f + []);
    AppendRegroups(h, f, g);
  }

  lemma AppendRegroups(h: Bytes, f: Bytes, g: Bytes)
    ensures h + (f + g) == (h + (f + [])) + g
    ensures (h + (f + g))[..|h + (f + [])|] == h + (f + [])
  {
    assert f + [] == f;
  }
}

=== FILE: control_element.dfy ===
/** The router's `Control` element (libs/click/unikraft/control.cc): on any
    packet it frees the packet and writes the empty string to the `config`
    handler of every element of class "BPFilter", in element order.  The
    datagram's contents are never looked at, so the model takes none.  What
    a `config` write does inside Click is not part of this model. */
module ControlElement {
  /** How an element exposes its `config` handler. */
  datatype HandlerAccess = NoHandler | NotWriteVisible | NotWritable | Writable

  datatype RouterElement = RouterElement(className: string, config: HandlerAccess)

  /** What the loop does for one element. */
  datatype Action =
    | WriteConfig(index: nat, value: string)  // `call_write("", ...)`
    | ReportMissingHandler(index: nat)        // "BPFilter found but no config handler"

  const FILTER_CLASS: string := "BPFilter"

  predicate IsFilter(e: RouterElement) { e.className == FILTER_CLASS }

  /** The actions for elements `from` onwards. */
  function Visit(elements: seq<RouterElement>, from: nat): (r: seq<Action>)
    requires from <= |elements|
    ensures forall k :: 0 <= k < |r| ==> from <= ActionIndex(r[k]) < |elements|
    decreases |elements| - from
  {
    if from == |elements| then []
    else
      var rest := Visit(elements, from + 1);
      var e := elements[from];
      if !IsFilter(e) then rest else [FirstAction(elements, from)] + rest
  }

  /** The action for a BPFilter element: write its handler, or report
      that it has none to write. */
  function FirstAction(elements: seq<RouterElement>, i: nat): (a: Action)
    requires i < |elements|
    ensures ActionIndex(a) == i
  {
    if elements[i].config != Writable then ReportMissingHandler(i) else WriteConfig(i, "")
  }

  function ActionIndex(a: Action): nat
  {
    match a
    case WriteConfig(i, _) => i
    case ReportMissingHandler(i) => i
  }

  /** Each action concerns a BPFilter element, and it is a write of ""
      exactly when that element's handler is writable. */
  predicate Sound(elements: seq<RouterElement>, r: seq<Action>)
  {
    forall k :: 0 <= k < |r| ==>
      && ActionIndex(r[k]) < |elements| && IsFilter(elements[ActionIndex(r[k])])
      && (r[k] == WriteConfig(ActionIndex(r[k]), "") <==> elements[ActionIndex(r[k])].config == Writable)
  }

  predicate Ordered(r: seq<Action>)
  {
    forall k, l :: 0 <= k < l < |r| ==> ActionIndex(r[k]) < ActionIndex(r[l])
  }

  /** Every BPFilter element from `from` on has an action. */
  predicate Covers(elements: seq<RouterElement>, from: nat, r: seq<Action>)
  {
    forall i :: from <= i < |elements| && IsFilter(elements[i]) ==>
      exists k :: 0 <= k < |r| && ActionIndex(r[k]) == i
  }

  /** Every action concerns a BPFilter element, and it is a write of ""
      exactly when that element's handler is writable. */
  lemma {:induction false} VisitSound(elements: seq<RouterElement>, from: nat)
    requires from <= |elements|
    ensures Sound(elements, Visit(elements, from))
    decreases |elements| - from
  {
    if from < |elements| {
      VisitSound(elements, from + 1);
      var rest := Visit(elements, from + 1);
      var r := Visit(elements, from);
      if IsFilter(elements[from]) {
        assert r == [FirstAction(elements, from)] + rest;
      } else {
        assert r == rest;
      }
    }
  }

  /** Actions follow element order. */
  lemma {:induction false} VisitOrdered(elements: seq<RouterElement>, from: nat)
    requires from <= |elements|
    ensures Ordered(Visit(elements, from))
    decreases |elements| - from
  {
    if from < |elements| {
      VisitOrdered(elements, from + 1);
      var rest := Visit(elements, from + 1);
      var r := Visit(elements, from);
      if IsFilter(elements[from]) {
        assert r == [FirstAction(elements, from)] + rest;
      } else {
        assert r == rest;
      }
    }
  }

  /** Every BPFilter element gets an action. */
  lemma {:induction false} VisitCovers(elements: seq<RouterElement>, from: nat)
    requires from <= |elements|
    ensures Covers(elements, from, Visit(elements, from))
    decreases |elements| - from
  {
    if from < |elements| {
      VisitCovers(elements, from + 1);
      var rest := Visit(elements, from + 1);
      var r := Visit(elements, from);
      if IsFilter(elements[from]) {
        assert r == [FirstAction(elements, from)] + rest;
        PrependKeepsCover(elements, from, FirstAction(elements, from), rest);
      } else {
        assert r == rest;
      }
    }
  }

  lemma PrependKeepsCover(elements: seq<RouterElement>, from: nat, a: Action, rest: seq<Action>)
    requires from < |elements| && ActionIndex(a) == from
    requires Covers(elements, from + 1, rest)
    ensures Covers(elements, from, [a] + rest)
  {
    var r := [a] + rest;
    forall i | from <= i < |elements| && IsFilter(elements[i])
      ensures exists k :: 0 <= k < |r| && ActionIndex(r[k]) == i
    {
      if i == from {
        assert ActionIndex(r[0]) == i;
      } else {
        var k :| 0 <= k < |rest| && ActionIndex(rest[k]) == i;
        assert ActionIndex(r[k + 1]) == i;
      }
    }
  }

  /** `Control::push`: the packet is freed first (so the result carries
      no packet), then every element is visited in order. */
  function ControlPush(elements: seq<RouterElement>): (r: seq<Action>)
    // each BPFilter element gets exactly one action, in element order,
    // and no other element gets any
    ensures forall k :: 0 <= k < |r| ==> ActionIndex(r[k]) < |elements|
    ensures forall k, l :: 0 <= k < l < |r| ==> ActionIndex(r[k]) < ActionIndex(r[l])
    ensures forall i :: 0 <= i < |elements| ==>
      (IsFilter(elements[i]) <==> exists k :: 0 <= k < |r| && ActionIndex(r[k]) == i)
    // a filter's handler is written, with "", exactly when it is writable
    ensures forall k :: 0 <= k < |r| ==>
      (r[k] == WriteConfig(ActionIndex(r[k]), "") <==> elements[ActionIndex(r[k])].config == Writable)
  {
    VisitSound(elements, 0);
    VisitOrdered(elements, 0);
    VisitCovers(elements, 0);
    Visit(elements, 0)
  }

  /** Only the class name "BPFilter" counts: the other program elements
      are never reconfigured by Control, however their handlers look. */
  lemma OtherElementsUntouched(elements: seq<RouterElement>, i: nat)
    requires i < |elements| && elements[i].className in {"BPFClassifier", "BPFRewriter"}
    ensures forall k :: 0 <= k < |ControlPush(elements)| ==> ActionIndex(ControlPush(elements)[k]) != i
  {
    assert !IsFilter(elements[i]) by {
      assert elements[i].className[3] != FILTER_CLASS[3];
    }
  }
}

=== FILE: dns_filter.dfy ===
/** The DNS filter (ebpf/src/bin/dns-filter.rs, and its older XDP build
    ebpf/dns-filter-ebpf): UDP datagrams to port 53 are parsed as DNS
    messages (RFC 1035 section 4.1) and dropped when a question names
    `lmu.de` or cannot be parsed.  The DNS parser is a foreign library and
    is a parameter here. */
module DnsFilter {
  import opened Base
  import opened PacketAccess
  import opened Verdicts
  import opened Headers

  const DNS_PORT: nat := 53

  /** A domain name as its sequence of labels. */
  type DnsName = seq<Bytes>

  /** The blocked name `lmu.de`. */
  function Blocked(): (n: DnsName)
    ensures |n| == 2 && |n[0]| == 3 && |n[1]| == 2
  {
    [Ascii("lmu"), Ascii("de")]
  }

  datatype Question = Question(name: DnsName)

  /** What the parser makes of a payload: the message header is rejected
      (`DnsMessage::new` fails), the question section cannot be iterated,
      or a sequence of questions each parsed or not. */
  datatype DnsParse = MessageError | QuestionsError | Parsed(questions: seq<Result<Question>>)

  /** The question loop: the first question that fails to parse or names
      `lmu.de` drops the packet; otherwise it passes. */
  function QuestionsVerdict(qs: seq<Result<Question>>): (r: FilterResult)
    ensures r != Abort
    ensures r == Drop <==> exists i :: 0 <= i < |qs| && (qs[i].Err? || qs[i].value.name == Blocked())
  {
    if |qs| == 0 then Pass
    else if qs[0].Err? || qs[0].value.name == Blocked() then Drop
    else
      var r := QuestionsVerdict(qs[1..]);
      assert forall i :: 1 <= i < |qs| ==> qs[i] == qs[1..][i - 1];
      r
  }

  /** The verdict for a parsed payload; `None` when the message header is
      rejected, where the source's `unwrap` panics and the panic handler is
      `unreachable_unchecked`, so the behaviour is undefined. */
  function ParseVerdict(d: DnsParse): (r: Option<FilterResult>)
    ensures r.None? <==> d.MessageError?
    ensures r.Some? ==> r.value != Abort
  {
    match d
    case MessageError => None
    case QuestionsError => Some(Drop)
    case Parsed(qs) => Some(QuestionsVerdict(qs))
  }

  /** How the payload slice is taken: `get_slice` (capped at 50000 bytes)
      in dns-filter.rs, `slice_at` (uncapped) in the older build. */
  datatype SliceAccess = CappedSlice | UncappedSlice

  /** The payload length: both builds pass the UDP length field as it is,
      though it counts the 8-byte UDP header too (RFC 768); the intended
      length subtracts the header. */
  datatype PayloadLength = AsWrittenLength | IntendedLength

  function PayloadLen(rule: PayloadLength, udpLen: nat): (r: Result<nat>)
    ensures rule == AsWrittenLength ==> r == Ok(udpLen)
    ensures rule == IntendedLength ==> (r.Err? <==> udpLen < UDP_HDR_LEN)
    ensures rule == IntendedLength && r.Ok? ==> r.value + UDP_HDR_LEN == udpLen
  {
    if rule == AsWrittenLength then Ok(udpLen)
    else if udpLen < UDP_HDR_LEN then Err
    else Ok(udpLen - UDP_HDR_LEN)
  }

  function Slice(access: SliceAccess, p: Bytes, len: nat, offset: nat): (r: Result<Bytes>)
    ensures r.Ok? <==> offset + len <= |p| && (access.UncappedSlice? || len <= MAX_SLICE)
    ensures r.Ok? ==> r.value == p[offset..offset + len]
  {
    match access
    case CappedSlice => GetSlice(Frame(0, p, 0), p, len, offset)
    case UncappedSlice => SliceAt(Frame(0, p, 0), p, len, offset)
  }

  /** Raw-byte view: the IPv4 header length from the IHL nibble of byte 14,
      and the offset of the UDP header after it. */
  function UdpOffset(p: Bytes): (r: nat)
    requires |p| >= 15
    ensures r <= ETH_HDR_LEN + 60
  {
    ETH_HDR_LEN + (p[14] as nat % 16) * 4
  }

  /** A frame that gets past every header check to the payload slice: IPv4,
      IHL of at least 5 words, UDP, a readable UDP header, port 53. */
  predicate ReachesPayload(p: Bytes)
  {
    && IsIpv4Frame(p) && |p| >= 34
    && UdpOffset(p) >= ETH_HDR_LEN + IPV4_HDR_LEN && p[23] as nat == PROTO_UDP
    && |p| >= UdpOffset(p) + UDP_HDR_LEN
    && Be16(p[UdpOffset(p) + 2..UdpOffset(p) + 4]) == DNS_PORT
  }

  /** The UDP length field of a frame that reaches the payload. */
  function UdpLen(p: Bytes): nat
    requires ReachesPayload(p)
  {
    Be16(p[UdpOffset(p) + 4..UdpOffset(p) + 6])
  }

  /** `try_filter` with `unwrap_or_else(Abort)`.  Short headers abort;
      non-IPv4 frames, bad IHL, other protocols and other ports pass; a
      payload slice that does not fit aborts; otherwise the parser decides. */
  function Filter(access: SliceAccess, rule: PayloadLength, parse: Bytes -> DnsParse, p: Bytes): (r: Option<FilterResult>)
    ensures |p| < ETH_HDR_LEN ==> r == Some(Abort)
    ensures |p| >= ETH_HDR_LEN && !IsIpv4Frame(p) ==> r == Some(Pass)
    ensures IsIpv4Frame(p) && |p| < 34 ==> r == Some(Abort)
    ensures IsIpv4Frame(p) && |p| >= 34 && (UdpOffset(p) < 34 || p[23] as nat != PROTO_UDP) ==> r == Some(Pass)
    ensures IsIpv4Frame(p) && |p| >= 34 && UdpOffset(p) >= 34 && p[23] as nat == PROTO_UDP ==>
      (|p| < UdpOffset(p) + UDP_HDR_LEN ==> r == Some(Abort))
      && (|p| >= UdpOffset(p) + UDP_HDR_LEN && Be16(p[UdpOffset(p) + 2..UdpOffset(p) + 4]) != DNS_PORT ==> r == Some(Pass))
    ensures !ReachesPayload(p) ==> r.Some? && r.value != Drop
  {
    match Load(p, 0, ETH_HDR_LEN)
    case Err => Some(Abort)
    case Ok(eth) =>
      if EtherType(eth) != ETHERTYPE_IPV4 then Some(Pass)
      else
        match Load(p, ETH_HDR_LEN, IPV4_HDR_LEN)
        case Err => Some(Abort)
        case Ok(ip) =>
          var ihl := IpHeaderLen(ip);
          if ihl < IPV4_HDR_LEN then Some(Pass)
          else if Proto(ip) != PROTO_UDP then Some(Pass)
          else
            match Load(p, ETH_HDR_LEN + ihl, UDP_HDR_LEN)
            case Err => Some(Abort)
            case Ok(udp) =>
              SliceOfSlice(p, ETH_HDR_LEN + ihl, ETH_HDR_LEN + ihl + UDP_HDR_LEN, 2, 4);
              SliceOfSlice(p, ETH_HDR_LEN + ihl, ETH_HDR_LEN + ihl + UDP_HDR_LEN, 4, 6);
              if DstPort(udp) != DNS_PORT then Some(Pass)
              else
                match PayloadLen(rule, UdpLength(udp))
                case Err => Some(Abort)
                case Ok(len) =>
                  match Slice(access, p, len, ETH_HDR_LEN + ihl + UDP_HDR_LEN)
                  case Err => Some(Abort)
                  case Ok(payload) => ParseVerdict(parse(payload))
  }

  /** A frame that reaches the payload and ends exactly where its UDP
      length field says the datagram ends. */
  predicate ExactDatagram(p: Bytes)
  {
    ReachesPayload(p) && UdpLen(p) >= UDP_HDR_LEN && |p| == UdpOffset(p) + UdpLen(p)
  }

  /** Once past the header checks, the verdict is decided by the payload
      length rule, the slice and the parser, in that order. */
  lemma FilterAtPayload(access: SliceAccess, rule: PayloadLength, parse: Bytes -> DnsParse, p: Bytes)
    requires ReachesPayload(p)
    ensures Filter(access, rule, parse, p) ==
      match PayloadLen(rule, UdpLen(p))
      case Err => Some(Abort)
      case Ok(len) =>
        match Slice(access, p, len, UdpOffset(p) + UDP_HDR_LEN)
        case Err => Some(Abort)
        case Ok(payload) => ParseVerdict(parse(payload))
  {
    var eth := p[0..ETH_HDR_LEN];
    assert Load(p, 0, ETH_HDR_LEN) == Ok(eth);
    SliceOfSlice(p, 0, ETH_HDR_LEN, 12, 14);
    var ip := p[ETH_HDR_LEN..34];
    assert Load(p, ETH_HDR_LEN, IPV4_HDR_LEN) == Ok(ip);
    assert ip[0] == p[14] && ip[9] == p[23];
    var off := UdpOffset(p);
    assert off == ETH_HDR_LEN + IpHeaderLen(ip);
    var udp := p[off..off + UDP_HDR_LEN];
    assert Load(p, off, UDP_HDR_LEN) == Ok(udp);
    SliceOfSlice(p, off, off + UDP_HDR_LEN, 2, 4);
    SliceOfSlice(p, off, off + UDP_HDR_LEN, 4, 6);
    assert DstPort(udp) == DNS_PORT && UdpLength(udp) == UdpLen(p);
  }

  /** dns-filter.rs as written: the slice it asks for is the UDP length
      long but starts after the 8-byte UDP header, so it runs 8 bytes past
      the end of a datagram that exactly fills the frame, and every such
      DNS query aborts whatever it contains. */
  lemma AsWrittenExactDatagramAborts(access: SliceAccess, parse: Bytes -> DnsParse, p: Bytes)
    requires ExactDatagram(p)
    ensures Filter(access, AsWrittenLength, parse, p) == Some(Abort)
  {
    FilterAtPayload(access, AsWrittenLength, parse, p);
  }

  /** With the header subtracted, the parser sees exactly the UDP payload
      of an exactly sized datagram, so the verdict depends on the DNS
      message alone and is never an abort. */
  lemma IntendedExactDatagramParsesPayload(access: SliceAccess, parse: Bytes -> DnsParse, p: Bytes)
    requires ExactDatagram(p)
    requires access.UncappedSlice? || UdpLen(p) - UDP_HDR_LEN <= MAX_SLICE
    ensures Filter(access, IntendedLength, parse, p) == ParseVerdict(parse(p[UdpOffset(p) + UDP_HDR_LEN..]))
    ensures Filter(access, IntendedLength, parse, p) != Some(Abort)
  {
    FilterAtPayload(access, IntendedLength, parse, p);
    var start := UdpOffset(p) + UDP_HDR_LEN;
    assert p[start..start + (UdpLen(p) - UDP_HDR_LEN)] == p[start..];
  }

  /** The two builds agree except on payloads longer than the 50000-byte
      cap that do fit the frame: there `get_slice` aborts where `slice_at`
      hands the payload to the parser. */
  lemma SliceAccessesAgree(rule: PayloadLength, parse: Bytes -> DnsParse, p: Bytes)
    ensures Filter(CappedSlice, rule, parse, p) != Filter(UncappedSlice, rule, parse, p) ==>
      && ReachesPayload(p) && PayloadLen(rule, UdpLen(p)).Ok?
      && PayloadLen(rule, UdpLen(p)).value > MAX_SLICE
      && UdpOffset(p) + UDP_HDR_LEN + PayloadLen(rule, UdpLen(p)).value <= |p|
      && Filter(CappedSlice, rule, parse, p) == Some(Abort)
  {
    if ReachesPayload(p) {
      FilterAtPayload(CappedSlice, rule, parse, p);
      FilterAtPayload(UncappedSlice, rule, parse, p);
    }
  }
}

=== FILE: element_config.dfy ===
/** Loading and live reconfiguration of a program into an element
    (libs/click/unikraft/bpfelement.cc `BPFElement::configure`, shared by
    BPFClassifier and BPFRewriter, and libs/click/unikraft/bpfilter.cc
    `BPFilter::configure`).

    Everything the configuration touches outside the element — Click's
    argument parser, the file system, the virtual machine's ELF loader and
    JIT compiler — is a parameter (`Host`).  The console lines the element
    prints around a (re)configuration are part of the result, since the
    benchmarks time reconfiguration by them. */
module ElementConfig {
  import opened Base
  import opened ClickDispatch

  /** The keyword arguments `ID`, `JIT`, `FILE` and (BPFElement only)
      `DUMP_JIT`. */
  datatype ConfArgs = ConfArgs(id: nat, jit: bool, file: string, dumpJit: bool)

  /** What the element relies on.  `readFile` gives `None` when the file
      cannot be opened or read; `load` gives the loader's error message,
      if any; `compiles` says whether the JIT accepts the loaded code. */
  datatype Host = Host(
    parse: seq<string> -> Option<ConfArgs>,
    readFile: string -> Option<Bytes>,
    vmCreated: bool,
    load: Bytes -> Option<string>,
    compiles: Bytes -> bool)

  /** The element's virtual machine: none before the first successful
      creation, then one holding the loaded program, if any. */
  datatype Vm = NoVm | Vm(code: Option<Bytes>)

  datatype ElementState = ElementState(vm: Vm, id: nat, jit: bool, lock: Lock)

  datatype Status =
    | ArgsRejected          // returns -1: empty or unparsable configuration
    | Reported(msg: string) // returns the error handler's code after reporting `msg`
    | Done                  // returns 0
    | Waiting               // blocks on the write lock

  datatype Configured = Configured(status: Status, log: seq<string>, state: ElementState)

  /** Which error paths after taking the write lock release it.  As written
      in BPFElement, none do; the intended code releases it on every path. */
  datatype LockRelease = AsWrittenRelease | ReleaseOnError

  /** Decimal digits of `n`, as `%lu` prints it. */
  function Decimal(n: nat): (s: string)
    ensures |s| > 0
    ensures forall i :: 0 <= i < |s| ==> '0' <= s[i] <= '9'
    decreases n
  {
    var d := ['0' + (n % 10) as char];
    if n < 10 then d else Decimal(n / 10) + d
  }

  /** Value of a string of decimal digits. */
  function DigitsValue(s: string): nat
    requires forall i :: 0 <= i < |s| ==> '0' <= s[i] <= '9'
  {
    if |s| == 0 then 0 else 10 * DigitsValue(s[..|s| - 1]) + (s[|s| - 1] - '0') as nat
  }

  /** Printing an identifier loses nothing. */
  lemma {:induction false} DecimalRoundTrip(n: nat)
    ensures DigitsValue(Decimal(n)) == n
    decreases n
  {
    if n >= 10 {
      DecimalRoundTrip(n / 10);
      var s := Decimal(n);
      assert s[..|s| - 1] == Decimal(n / 10);
    }
  }

  /** `%d`/`%b` of the JIT flag. */
  function FlagText(b: bool): string { if b then "1" else "0" }

  /** The announcement printed before and after a (re)configuration:
      `<verb> <class> (ID: <id> - JIT: <flag>) with program <file><end>`. */
  function Announce(verb: string, className: string, args: ConfArgs, ending: string): (line: string)
    ensures |line| > |verb| + |className| + 3
    ensures line[..|verb| + |className| + 3] == verb + " " + className + " ("
  {
    var details := Details(className, args, ending);
    assert details[..|className| + 3] == " " + className + " (";
    verb + details
  }

  /** Everything after the verb. */
  function Details(className: string, args: ConfArgs, ending: string): (s: string)
    ensures |s| > |className| + 3
  {
    " " + className + " (" + ("ID: " + Decimal(args.id) + " - JIT: " + FlagText(args.jit)
      + ") with program " + args.file + ending)
  }

  function StartVerb(reconfigure: bool): string
  {
    if reconfigure then "Reconfiguring" else "Configuring"
  }

  function EndVerb(reconfigure: bool): string
  {
    if reconfigure then "Reconfigured" else "Configured"
  }

  /** Start ending: the two format strings differ in their final dots. */
  function StartEnding(reconfigure: bool): string
  {
    if reconfigure then ".." else "..."
  }

  /** Take the write lock: impossible while anyone holds the lock. */
  function TakeWriteLock(l: Lock): (r: Option<Lock>)
    ensures r.Some? <==> l == FREE
    ensures r.Some? ==> r.value == Lock(0, true)
  {
    if l.readers == 0 && !l.writer then Some(Lock(0, true)) else None
  }

  // ------------------------------------------------------------ BPFElement

  /** `BPFElement::configure` for an element of class `className`. */
  function ElementConfigure(rel: LockRelease, className: string, host: Host, conf: seq<string>, s: ElementState): (r: Configured)
    // nothing happens unless the arguments parse
    ensures r.status == ArgsRejected <==> |conf| == 0 || host.parse(conf).None?
    ensures r.status == ArgsRejected ==> r.log == [] && r.state == s
    // the first line announces a reconfiguration exactly when a VM exists
    ensures r.status != ArgsRejected ==>
      && |r.log| >= 1
      && r.log[0] == Announce(StartVerb(s.vm != NoVm), className, host.parse(conf).value, StartEnding(s.vm != NoVm))
    // success: the new program is loaded, the lock is back as it was, and
    // the closing line mirrors the opening one
    ensures r.status == Done ==>
      && r.log == [r.log[0], Announce(EndVerb(s.vm != NoVm), className, host.parse(conf).value, "")]
      && host.readFile(host.parse(conf).value.file).Some?
      && r.state.vm == Vm(host.readFile(host.parse(conf).value.file))
      && r.state.lock == s.lock == FREE
    // failures before the lock leave the VM and the lock alone
    ensures r.status == Reported("Error reading file") ==> r.state.vm == s.vm && r.state.lock == s.lock
    ensures r.status == Waiting ==> r.state.lock == s.lock && s.lock != FREE
  {
    if |conf| == 0 then Configured(ArgsRejected, [], s)
    else match host.parse(conf)
    case None => Configured(ArgsRejected, [], s)
    case Some(args) =>
      var reconfigure := s.vm != NoVm;
      var s1 := s.(id := args.id, jit := args.jit);
      var start := [Announce(StartVerb(reconfigure), className, args, StartEnding(reconfigure))];
      match host.readFile(args.file)
      case None => Configured(Reported("Error reading file"), start, s1)
      case Some(buffer) =>
        if |buffer| == 0 then Configured(Reported("Error reading file"), start, s1)
        else if !reconfigure && !host.vmCreated then Configured(Reported("Error initializing ubpf vm"), start, s1)
        else
          var s2 := if reconfigure then s1 else s1.(vm := Vm(None));
          match TakeWriteLock(s2.lock)
          case None => Configured(Waiting, start, s2)
          case Some(held) =>
            var held := if rel == AsWrittenRelease then held else s2.lock;
            match host.load(buffer)
            case Some(msg) => Configured(Reported("Error loading ubpf program: " + msg), start, s2.(vm := Vm(None), lock := held))
            case None =>
              var loaded := s2.(vm := Vm(Some(buffer)));
              if args.jit && !host.compiles(buffer) then
                Configured(Reported("Error compiling ubpf program"), start, loaded.(lock := held))
              else
                Configured(Done, start + [Announce(EndVerb(reconfigure), className, args, "")], loaded)
  }

  /** A reconfiguration whose program fails to load has already unloaded
      the old one, and, as written, returns with the write lock still
      held: from then on every packet waits on the lock. */
  lemma AsWrittenLoadFailureBlocksPackets(className: string, host: Host, conf: seq<string>, s: ElementState,
                                          p: Bytes, outputs: nat, run: VmRun, code: nat, rewritten: Bytes)
    requires IsU32(code)
    requires s.vm != NoVm && s.lock == FREE && |conf| > 0 && host.parse(conf).Some?
    requires host.readFile(host.parse(conf).value.file).Some?
    requires |host.readFile(host.parse(conf).value.file).value| > 0
    requires host.load(host.readFile(host.parse(conf).value.file).value).Some?
    ensures var r := ElementConfigure(AsWrittenRelease, className, host, conf, s);
      && r.status.Reported? && r.state.vm == Vm(None)
      && BPFClassifierPush(r.state.lock, Some(p), outputs, run) == Blocked
      && BPFRewriterPush(r.state.lock, Some(p), code, rewritten) == Blocked
      && ElementConfigure(AsWrittenRelease, className, host, conf, r.state).status == Waiting
  {
  }

  /** Releasing the lock on the error paths keeps the element usable: the
      next packet is dispatched and the next reconfiguration gets to load. */
  lemma ReleasedLoadFailureKeepsElementUsable(className: string, host: Host, conf: seq<string>, s: ElementState,
                                              p: Bytes, outputs: nat, run: VmRun)
    requires s.vm != NoVm && s.lock == FREE && |conf| > 0 && host.parse(conf).Some?
    requires host.readFile(host.parse(conf).value.file).Some?
    requires |host.readFile(host.parse(conf).value.file).value| > 0
    requires host.load(host.readFile(host.parse(conf).value.file).value).Some?
    ensures var r := ElementConfigure(ReleaseOnError, className, host, conf, s);
      && r.status.Reported? && r.state.lock == FREE
      && BPFClassifierPush(r.state.lock, Some(p), outputs, run) != Blocked
      && ElementConfigure(ReleaseOnError, className, host, conf, r.state).status != Waiting
  {
  }

  /** The JIT compile error is the second path that, as written, returns
      with the write lock held: the new program is loaded but the element
      blocks every packet and every later reconfiguration. */
  lemma AsWrittenCompileFailureBlocksPackets(className: string, host: Host, conf: seq<string>, s: ElementState,
                                             p: Bytes, outputs: nat, run: VmRun, code: nat, rewritten: Bytes)
    requires IsU32(code)
    requires s.vm != NoVm && s.lock == FREE && |conf| > 0 && host.parse(conf).Some?
    requires host.readFile(host.parse(conf).value.file).Some?
    requires |host.readFile(host.parse(conf).value.file).value| > 0
    requires host.load(host.readFile(host.parse(conf).value.file).value).None?
    requires host.parse(conf).value.jit && !host.compiles(host.readFile(host.parse(conf).value.file).value)
    ensures var r := ElementConfigure(AsWrittenRelease, className, host, conf, s);
      && r.status.Reported? && r.state.vm == Vm(Some(host.readFile(host.parse(conf).value.file).value))
      && BPFClassifierPush(r.state.lock, Some(p), outputs, run) == Blocked
      && BPFRewriterPush(r.state.lock, Some(p), code, rewritten) == Blocked
      && ElementConfigure(AsWrittenRelease, className, host, conf, r.state).status == Waiting
  {
  }

  /** Releasing the lock on the compile error, too, keeps the element
      usable. */
  lemma ReleasedCompileFailureKeepsElementUsable(className: string, host: Host, conf: seq<string>, s: ElementState,
                                                 p: Bytes, outputs: nat, run: VmRun)
    requires s.vm != NoVm && s.lock == FREE && |conf| > 0 && host.parse(conf).Some?
    requires host.readFile(host.parse(conf).value.file).Some?
    requires |host.readFile(host.parse(conf).value.file).value| > 0
    requires host.load(host.readFile(host.parse(conf).value.file).value).None?
    requires host.parse(conf).value.jit && !host.compiles(host.readFile(host.parse(conf).value.file).value)
    ensures var r := ElementConfigure(ReleaseOnError, className, host, conf, s);
      && r.status.Reported? && r.state.lock == FREE
      && BPFClassifierPush(r.state.lock, Some(p), outputs, run) != Blocked
      && ElementConfigure(ReleaseOnError, className, host, conf, r.state).status != Waiting
  {
  }

  // ------------------------------------------------------------ BPFilter

  /** `BPFilter::configure`: the same sequence without the JIT compile, with
      the lock released right after loading, and with the class name
      written into the announcements. */
  function FilterConfigure(host: Host, conf: seq<string>, s: ElementState): (r: Configured)
    ensures r.status == ArgsRejected <==> |conf| == 0 || host.parse(conf).None?
    ensures r.status == ArgsRejected ==> r.log == [] && r.state == s
    ensures r.status != ArgsRejected ==>
      && |r.log| >= 1
      && r.log[0] == Announce(StartVerb(s.vm != NoVm), "BPFilter", host.parse(conf).value, StartEnding(s.vm != NoVm))
    ensures r.status == Done ==>
      && r.log == [r.log[0], Announce(EndVerb(s.vm != NoVm), "BPFilter", host.parse(conf).value, "")]
      && r.state.vm == Vm(host.readFile(host.parse(conf).value.file))
    // whatever happens short of waiting, the lock is left as it was found
    ensures r.status != Waiting ==> r.state.lock == s.lock
    ensures r.status == Waiting ==> s.lock != FREE
  {
    if |conf| == 0 then Configured(ArgsRejected, [], s)
    else match host.parse(conf)
    case None => Configured(ArgsRejected, [], s)
    case Some(args) =>
      var reconfigure := s.vm != NoVm;
      var s1 := s.(id := args.id, jit := args.jit);
      var start := [Announce(StartVerb(reconfigure), "BPFilter", args, StartEnding(reconfigure))];
      match host.readFile(args.file)
      case None => Configured(Reported("Error reading file"), start, s1)
      case Some(buffer) =>
        if !reconfigure && !host.vmCreated then Configured(Reported("Error creating ubpf vm"), start, s1)
        else
          var s2 := if reconfigure then s1 else s1.(vm := Vm(None));
          match TakeWriteLock(s2.lock)
          case None => Configured(Waiting, start, s2)
          case Some(_) =>
            match host.load(buffer)
            case Some(msg) => Configured(Reported("Error loading ubpf program: " + msg), start, s2.(vm := Vm(None)))
            case None =>
              Configured(Done, start + [Announce(EndVerb(reconfigure), "BPFilter", args, "")], s2.(vm := Vm(Some(buffer))))
  }

  /** A failed reload leaves BPFilter without a program: every later packet
      makes the interpreter fail. */
  lemma FilterLoadFailureUnloads(host: Host, conf: seq<string>, s: ElementState)
    requires s.vm != NoVm && s.lock == FREE && |conf| > 0 && host.parse(conf).Some?
    requires host.readFile(host.parse(conf).value.file).Some?
    requires host.load(host.readFile(host.parse(conf).value.file).value).Some?
    ensures FilterConfigure(host, conf, s).status.Reported?
    ensures FilterConfigure(host, conf, s).state.vm == Vm(None)
  {
  }

  /** As written, one interpreter error in BPFilter leaves a read lock
      held, and every later reconfiguration that gets as far as loading
      waits for it forever. */
  lemma AsWrittenExecErrorBlocksReconfigure(c: FilterCounters, p: Bytes, host: Host, conf: seq<string>, s: ElementState)
    requires !c.lock.writer
    requires s.lock == BPFilterPush(AsWrittenReturn, c, p, None).counters.lock
    requires s.vm != NoVm && |conf| > 0 && host.parse(conf).Some?
    requires host.readFile(host.parse(conf).value.file).Some?
    ensures BPFilterPush(AsWrittenReturn, c, p, None).fate == Held
    ensures FilterConfigure(host, conf, s).status == Waiting
  {
  }

  /** Releasing the lock and freeing the packet on an interpreter error
      lets the next reconfiguration proceed. */
  lemma UnlockedExecErrorAllowsReconfigure(c: FilterCounters, p: Bytes, host: Host, conf: seq<string>, s: ElementState)
    requires c.lock == FREE
    requires s.lock == BPFilterPush(UnlockAndKill, c, p, None).counters.lock
    requires s.vm != NoVm && |conf| > 0 && host.parse(conf).Some?
    requires host.readFile(host.parse(conf).value.file).Some?
    ensures BPFilterPush(UnlockAndKill, c, p, None).fate == KilledOriginal
    ensures FilterConfigure(host, conf, s).status != Waiting
  {
  }
}

=== FILE: headers.dfy ===
/** Header layouts the programs read: Ethernet II (with the 802.1Q tag
    protocol identifier of IEEE 802.1Q clause 9.5), IPv4 (RFC 791 section
    3.1), TCP and UDP (RFC 768).  Multi-byte fields are in network order;
    every accessor returns the host-order value `from_be` would give. */
module Headers {
  import opened Base

  const ETH_HDR_LEN: nat := 14
  const IPV4_HDR_LEN: nat := 20
  const TCP_HDR_LEN: nat := 20
  const UDP_HDR_LEN: nat := 8

  const ETHERTYPE_IPV4: nat := 0x0800
  const ETHERTYPE_8021Q: nat := 0x8100

  const PROTO_TCP: nat := 6
  const PROTO_UDP: nat := 17

  /** EtherType of an Ethernet header (bytes 12..14). */
  function EtherType(eth: Bytes): (r: nat)
    requires |eth| >= ETH_HDR_LEN
    ensures IsU16(r)
  {
    Be16(eth[12..14])
  }

  /** Protocol field of an IPv4 header (byte 9). */
  function Proto(ip: Bytes): nat
    requires |ip| >= IPV4_HDR_LEN
  {
    ip[9] as nat
  }

  /** Header length in bytes: the IHL nibble (low half of byte 0) times 4. */
  function IpHeaderLen(ip: Bytes): (r: nat)
    requires |ip| >= IPV4_HDR_LEN
    ensures r <= 60
  {
    (ip[0] as nat % 16) * 4
  }

  function SrcAddr(ip: Bytes): (r: nat)
    requires |ip| >= IPV4_HDR_LEN
    ensures IsU32(r)
  {
    Be32(ip[12..16])
  }

  function DstAddr(ip: Bytes): (r: nat)
    requires |ip| >= IPV4_HDR_LEN
    ensures IsU32(r)
  {
    Be32(ip[16..20])
  }

  /** Source and destination ports sit at the same place in TCP and UDP. */
  function SrcPort(l4: Bytes): (r: nat)
    requires |l4| >= UDP_HDR_LEN
    ensures IsU16(r)
  {
    Be16(l4[0..2])
  }

  function DstPort(l4: Bytes): (r: nat)
    requires |l4| >= UDP_HDR_LEN
    ensures IsU16(r)
  {
    Be16(l4[2..4])
  }

  /** UDP length field: header plus payload, in bytes (RFC 768). */
  function UdpLength(udp: Bytes): (r: nat)
    requires |udp| >= UDP_HDR_LEN
    ensures IsU16(r)
  {
    Be16(udp[4..6])
  }

  /** A frame, described on raw bytes, whose Ethernet header is readable
      and carries the IPv4 EtherType. */
  predicate IsIpv4Frame(p: Bytes)
  {
    |p| >= ETH_HDR_LEN && Be16(p[12..14]) == ETHERTYPE_IPV4
  }

  /** `size_of` the L4 header type a program dereferences for `proto`. */
  function L4HeaderLen(proto: nat): nat
  {
    if proto == PROTO_TCP then TCP_HDR_LEN else UDP_HDR_LEN
  }
}

=== FILE: migration.dfy ===
/** State migration between two versions of a packet-counting filter
    (ebpf/src/bin/state-migration-v1.rs, ebpf/src/bin/state-migration-v2.rs).
    Version 1 counts packets in a `u32` array; version 2 keeps a `u64`
    counter and, on its first packet, copies the version-1 count over and
    records version 2 in a `VERSION` array. */
module Migration {
  import opened Base
  import opened Stores
  import opened Verdicts

  /** Packets past this count are dropped. */
  const PASS_LIMIT: nat := 10
  const CURRENT_VERSION: nat := 2

  /** Pass while the count is at most 10, drop afterwards. */
  function CountVerdict(count: nat): (v: FilterResult)
    ensures v != Abort
    ensures v == Pass <==> count <= PASS_LIMIT
  {
    if count > PASS_LIMIT then Drop else Pass
  }

  // ------------------------------------------------------------ version 1

  /** One packet through version 1: increment `PACKET_CTR_V1[0]` (a `u32`,
      so it wraps) and judge by the new count; a missing slot aborts and
      changes nothing. */
  function CounterV1(ctr: FixedArray<nat>): (r: (FilterResult, FixedArray<nat>))
    ensures r.0 == Abort <==> |ctr.slots| == 0
    ensures r.0 == Abort ==> r.1 == ctr
    ensures |r.1.slots| == |ctr.slots|
    ensures r.0 != Abort ==> IsU32(r.1.slots[0]) && r.1.slots[1..] == ctr.slots[1..]
    // the `u32` count moves on by one, wrapping, and the packet is judged
    // by the new count
    ensures r.0 != Abort ==>
      && r.1.slots[0] == WrapU32(ctr.slots[0] + 1)
      && (r.0 == Drop <==> r.1.slots[0] > PASS_LIMIT)
  {
    match ctr.Get(0)
    case None => (Abort, ctr)
    case Some(c) =>
      var next := WrapU32(c + 1);
      (CountVerdict(next), ctr.Set(0, next))
  }

  /** The verdicts of `k` successive packets and the counter afterwards. */
  function RunV1(ctr: FixedArray<nat>, k: nat): (r: (seq<FilterResult>, FixedArray<nat>))
    ensures |r.0| == k && |r.1.slots| == |ctr.slots|
    decreases k
  {
    if k == 0 then ([], ctr)
    else
      var step := CounterV1(ctr);
      var rest := RunV1(step.1, k - 1);
      ([step.0] + rest.0, rest.1)
  }

  /** Over `k` packets from a counter `c0`, the counter ends at `c0 + k`
      modulo 2^32 and the i-th packet passes exactly when the count it
      brings, `c0 + i + 1` modulo 2^32, is at most 10. */
  lemma {:induction false} CounterV1Run(ctr: FixedArray<nat>, k: nat)
    requires |ctr.slots| > 0 && IsU32(ctr.slots[0])
    ensures RunV1(ctr, k).1.slots[0] == WrapU32(ctr.slots[0] + k)
    ensures forall i :: 0 <= i < k ==>
      RunV1(ctr, k).0[i] == CountVerdict(WrapU32(ctr.slots[0] + i + 1))
    decreases k
  {
    if k > 0 {
      var step := CounterV1(ctr);
      var c0 := ctr.slots[0];
      CounterV1Step(ctr);
      var rest := RunV1(step.1, k - 1);
      assert RunV1(ctr, k) == ([step.0] + rest.0, rest.1);
      CounterV1Run(step.1, k - 1);
      ShiftVerdicts(c0, step.1.slots[0], rest.0, k - 1);
      WrapShift(c0, 1, k - 1);
    }
  }

  /** One version-1 packet on a counter that is present: the verdict is
      the one for the new count. */
  lemma CounterV1Step(ctr: FixedArray<nat>)
    requires |ctr.slots| > 0
    ensures CounterV1(ctr).1.slots[0] == WrapU32(ctr.slots[0] + 1)
    ensures CounterV1(ctr).0 == CountVerdict(CounterV1(ctr).1.slots[0])
  {
  }

  /** The induction step of `CounterV1Run`: verdicts judged from the
      wrapped next count are those judged from `c0` one packet later. */
  lemma ShiftVerdicts(c0: nat, c1: nat, rest: seq<FilterResult>, n: nat)
    requires c1 == WrapU32(c0 + 1) && |rest| == n
    requires forall i :: 0 <= i < n ==> rest[i] == CountVerdict(WrapU32(c1 + i + 1))
    ensures forall i :: 0 <= i < n + 1 ==>
      ([CountVerdict(c1)] + rest)[i] == CountVerdict(WrapU32(c0 + i + 1))
  {
    forall i | 0 <= i < n + 1
      ensures ([CountVerdict(c1)] + rest)[i] == CountVerdict(WrapU32(c0 + i + 1))
    {
      if i > 0 {
        WrapShift(c0, 1, i);
      }
    }
  }

  /** Adding after a wrap is the same as wrapping the sum. */
  lemma WrapShift(c: int, a: nat, b: nat)
    ensures WrapU32(WrapU32(c + a) + b) == WrapU32(c + a + b)
  {
  }

  /** From a fresh counter, the first ten packets pass and the eleventh is
      dropped. */
  lemma FreshCounterPassesTen(ctr: FixedArray<nat>)
    requires |ctr.slots| > 0 && ctr.slots[0] == 0
    ensures forall i :: 0 <= i < 11 ==> RunV1(ctr, 11).0[i] == (if i < 10 then Pass else Drop)
  {
    CounterV1Run(ctr, 11);
  }

  // ------------------------------------------------------------ version 2

  datatype V2Stores = V2Stores(version: FixedArray<nat>, ctrV1: FixedArray<nat>, ctrV2: FixedArray<nat>)

  /** `handle_migration`: a missing `VERSION` slot is an error; a version
      other than 2 copies `PACKET_CTR_V1[0]` into `PACKET_CTR_V2[0]` and
      records version 2, failing without any change when either counter
      slot is missing; version 2 is left alone. */
  function HandleMigration(s: V2Stores): (r: Result<V2Stores>)
    ensures r.Err? <==> (|s.version.slots| == 0
      || (s.version.slots[0] != CURRENT_VERSION && (|s.ctrV1.slots| == 0 || |s.ctrV2.slots| == 0)))
    ensures r.Ok? ==> |r.value.ctrV2.slots| == |s.ctrV2.slots|
    ensures r.Ok? ==> r.value.version.Get(0) == Some(CURRENT_VERSION)
    ensures r.Ok? ==> r.value.ctrV1 == s.ctrV1
    ensures r.Ok? && s.version.slots[0] != CURRENT_VERSION ==> r.value.ctrV2.Get(0) == s.ctrV1.Get(0)
    ensures r.Ok? && s.version.slots[0] == CURRENT_VERSION ==> r.value == s
  {
    match s.version.Get(0)
    case None => Err
    case Some(v) =>
      if v == CURRENT_VERSION then Ok(s)
      else
        match s.ctrV1.Get(0)
        case None => Err
        case Some(count) =>
          if s.ctrV2.Get(0).None? then Err
          else Ok(V2Stores(s.version.Set(0, CURRENT_VERSION), s.ctrV1, s.ctrV2.Set(0, count)))
  }

  /** Migrating a second time changes nothing. */
  lemma MigrationIdempotent(s: V2Stores)
    requires HandleMigration(s).Ok?
    ensures HandleMigration(HandleMigration(s).value) == HandleMigration(s)
  {
  }

  /** The count a version-2 packet continues from: the version-2 counter
      on stores already at version 2, the version-1 count on stores still
      to be migrated. */
  function CountBefore(s: V2Stores): nat
    requires HandleMigration(s).Ok? && |s.ctrV2.slots| > 0
  {
    if s.version.slots[0] == CURRENT_VERSION then s.ctrV2.slots[0] else s.ctrV1.slots[0]
  }

  /** One packet through version 2: migrate (an error aborts with the
      stores as they were), then increment `PACKET_CTR_V2[0]` (a `u64`) and
      judge by the new count. */
  function CounterV2(s: V2Stores): (r: (FilterResult, V2Stores))
    ensures r.0 == Abort <==> HandleMigration(s).Err? || |s.ctrV2.slots| == 0
    ensures r.0 == Abort ==> r.1 == s
    ensures r.0 != Abort ==> r.1.version.Get(0) == Some(CURRENT_VERSION) && r.1.ctrV1 == s.ctrV1
    ensures |r.1.ctrV2.slots| == |s.ctrV2.slots|
    // the count continues from where the stores left it, one packet on,
    // and the packet is judged by the new count
    ensures r.0 != Abort ==>
      && r.1.ctrV2.slots[0] == WrapU64(CountBefore(s) + 1)
      && r.1.ctrV2.slots[1..] == s.ctrV2.slots[1..]
      && (r.0 == Drop <==> r.1.ctrV2.slots[0] > PASS_LIMIT)
  {
    match HandleMigration(s)
    case Err => (Abort, s)
    case Ok(m) =>
      match m.ctrV2.Get(0)
      case None => (Abort, s)
      case Some(c) =>
        var next := WrapU64(c + 1);
        (CountVerdict(next), m.(ctrV2 := m.ctrV2.Set(0, next)))
  }

  /** The verdicts of `k` successive version-2 packets and the stores
      afterwards. */
  function RunV2(s: V2Stores, k: nat): (r: (seq<FilterResult>, V2Stores))
    ensures |r.0| == k && |r.1.ctrV2.slots| == |s.ctrV2.slots|
    decreases k
  {
    if k == 0 then ([], s)
    else
      var step := CounterV2(s);
      var rest := RunV2(step.1, k - 1);
      ([step.0] + rest.0, rest.1)
  }

  /** Over `k >= 1` packets on stores that migrate, the stores end at
      version 2 with the `u64` count advanced by `k` from where it was, and
      the i-th packet is judged by the count it brings, `c0 + i + 1` modulo
      2^64. */
  lemma {:induction false} CounterV2Run(s: V2Stores, k: nat)
    requires HandleMigration(s).Ok? && |s.ctrV2.slots| > 0
    ensures k > 0 ==> RunV2(s, k).1.version.Get(0) == Some(CURRENT_VERSION)
    ensures k > 0 ==> RunV2(s, k).1.ctrV2.slots[0] == WrapU64(CountBefore(s) + k)
    ensures forall i :: 0 <= i < k ==>
      RunV2(s, k).0[i] == CountVerdict(WrapU64(CountBefore(s) + i + 1))
    decreases k
  {
    if k > 0 {
      var step := CounterV2(s);
      var c0 := CountBefore(s);
      var rest := RunV2(step.1, k - 1);
      assert RunV2(s, k) == ([step.0] + rest.0, rest.1);
      assert CountBefore(step.1) == WrapU64(c0 + 1);
      CounterV2Run(step.1, k - 1);
      ShiftVerdictsU64(c0, step.1.ctrV2.slots[0], rest.0, k - 1);
      WrapShiftU64(c0, 1, k - 1);
    }
  }

  /** The induction step of `CounterV2Run`, as `ShiftVerdicts` is for
      version 1. */
  lemma ShiftVerdictsU64(c0: nat, c1: nat, rest: seq<FilterResult>, n: nat)
    requires c1 == WrapU64(c0 + 1) && |rest| == n
    requires forall i :: 0 <= i < n ==> rest[i] == CountVerdict(WrapU64(c1 + i + 1))
    ensures forall i :: 0 <= i < n + 1 ==>
      ([CountVerdict(c1)] + rest)[i] == CountVerdict(WrapU64(c0 + i + 1))
  {
    forall i | 0 <= i < n + 1
      ensures ([CountVerdict(c1)] + rest)[i] == CountVerdict(WrapU64(c0 + i + 1))
    {
      if i > 0 {
        WrapShiftU64(c0, 1, i);
      }
    }
  }

  lemma WrapShiftU64(c: int, a: nat, b: nat)
    ensures WrapU64(WrapU64(c + a) + b) == WrapU64(c + a + b)
  {
  }

  /** The count carries across the upgrade: the first version-2 packet on
      stores left by version 1 gets the verdict version 1 would have given
      it and leaves the count version 1 would have left, unless the `u32`
      count was about to wrap. */
  lemma UpgradeContinuesCount(s: V2Stores)
    requires |s.version.slots| > 0 && s.version.slots[0] != CURRENT_VERSION
    requires |s.ctrV1.slots| > 0 && |s.ctrV2.slots| > 0
    requires s.ctrV1.slots[0] + 1 < U32_LIMIT
    ensures CounterV2(s).0 == CounterV1(s.ctrV1).0
    ensures CounterV2(s).1.ctrV2.slots[0] == CounterV1(s.ctrV1).1.slots[0]
  {
  }

  /** At the wrap the widths differ: a `u32` count of 2^32 - 1 wraps to 0
      and passes under version 1, but the same packet is dropped under
      version 2, whose `u64` counter reaches 2^32. */
  lemma UpgradeAtWrap(s: V2Stores)
    requires |s.version.slots| > 0 && s.version.slots[0] != CURRENT_VERSION
    requires |s.ctrV1.slots| > 0 && |s.ctrV2.slots| > 0
    requires s.ctrV1.slots[0] == U32_LIMIT - 1
    ensures CounterV1(s.ctrV1).0 == Pass
    ensures CounterV2(s).0 == Drop
  {
  }
}

=== FILE: nat.dfy ===
/** The flow-table NAT classifier (ebpf/src/bin/nat.rs).

    Packets arrive without their Ethernet header: the IPv4 header is at
    offset 0 and the TCP or UDP header right after its fixed 20 bytes.
    Input port 0 is the internal network, port 1 the external one.  A flow
    seen first on port 0 gets a port from [50000, 65535) and two rules in
    the CONNECTIONS map: a forward rewrite for its own packets and a reverse
    rewrite for the replies. */
module Nat {
  import opened Base
  import opened PacketAccess
  import opened Headers
  import opened Stores

  const PORT_START: nat := 50000
  const PORT_END: nat := 65535
  const PORT_SPAN: nat := PORT_END - PORT_START

  /** Output towards the outside world, and (by its comment) towards the
      internal network. */
  const FOUTPUT: nat := 0
  const ROUTPUT: nat := 1
  const OUTPUTS: nat := 2

  /** The external interface's address, 172.44.0.3. */
  const DEV_EX_IP: U32 := 0xac2c0003

  const CONNECTIONS_CAPACITY: nat := 1028

  /** A flow key; addresses and ports as the header carries them. */
  datatype Connection = Connection(srcIp: U32, srcPort: U16, dstIp: U32, dstPort: U16, proto: nat)

  /** The substitution a rule applies, and the output it chooses. */
  datatype Rewrite = Rewrite(srcIp: U32, srcPort: U16, dstIp: U32, dstPort: U16, output: nat)

  /** The NEXT_PORT array and the CONNECTIONS map. */
  datatype NatState = NatState(nextPort: FixedArray<nat>, connections: BoundedMap<Connection, Rewrite>)

  // ---------------------------------------------------------------- ports

  predicate InPortRange(x: int) { PORT_START <= x < PORT_END }

  /** NEXT_PORT holds 0 before the first allocation and a port afterwards. */
  predicate StoredPortOk(x: int) { x == 0 || InPortRange(x) }

  /** `next_port`: a stored 0 first becomes 50000; the stored value is
      handed out (as a `u16`) and replaced by its successor, computed in
      wrapping `u32` arithmetic.  A missing slot is an error. */
  function NextPort(a: FixedArray<nat>): (r: Result<(U16, FixedArray<nat>)>)
    ensures r.Err? <==> |a.slots| == 0
    ensures r.Ok? ==> |r.value.1.slots| == |a.slots|
  {
    match a.Get(0)
    case None => Err
    case Some(stored) =>
      var port := if stored == 0 then PORT_START else stored;
      Ok((TruncU16(port), a.Set(0, WrapU32(port - PORT_START + 1) % PORT_SPAN + PORT_START)))
  }

  /** Position of a stored value in the cycle of ports. */
  function Offset(x: nat): (r: nat)
    requires StoredPortOk(x)
    ensures r < PORT_SPAN
  {
    if x == 0 then 0 else x - PORT_START
  }

  /** From a well-formed NEXT_PORT the allocation succeeds, hands out the
      port at the stored position of the cycle and stores the next one:
      ports stay in [50000, 65534] and 65534 is followed by 50000. */
  lemma NextPortCycles(a: FixedArray<nat>)
    requires |a.slots| >= 1 && StoredPortOk(a.slots[0])
    ensures NextPort(a).Ok?
    ensures NextPort(a).value.0 == PORT_START + Offset(a.slots[0])
    ensures NextPort(a).value.1.slots[0] == PORT_START + (Offset(a.slots[0]) + 1) % PORT_SPAN
    ensures InPortRange(NextPort(a).value.0) && InPortRange(NextPort(a).value.1.slots[0])
    ensures a.slots[0] == PORT_END - 1 ==> NextPort(a).value.1.slots[0] == PORT_START
  {
  }

  /** The ports `k` successive allocations hand out, and NEXT_PORT after. */
  function Allocate(a: FixedArray<nat>, k: nat): (r: (seq<nat>, FixedArray<nat>))
    requires |a.slots| >= 1
    ensures |r.0| == k && |r.1.slots| == |a.slots|
    decreases k
  {
    if k == 0 then ([], a)
    else
      var (ports, a') := Allocate(a, k - 1);
      match NextPort(a')
      case Ok((port, a'')) => (ports + [port], a'')
  }

  /** Successive allocations walk the range cyclically: the i-th port is
      the stored position plus i, modulo the 15535 ports of the range. */
  lemma {:induction false} AllocationsCycle(a: FixedArray<nat>, k: nat)
    requires |a.slots| >= 1 && StoredPortOk(a.slots[0])
    ensures StoredPortOk(Allocate(a, k).1.slots[0])
    ensures Offset(Allocate(a, k).1.slots[0]) == (Offset(a.slots[0]) + k) % PORT_SPAN
    ensures forall i :: 0 <= i < k ==> Allocate(a, k).0[i] == PORT_START + (Offset(a.slots[0]) + i) % PORT_SPAN
    decreases k
  {
    if k > 0 {
      AllocationsCycle(a, k - 1);
      var prev := Allocate(a, k - 1);
      NextPortCycles(prev.1);
      var step := NextPort(prev.1).value;
      assert Allocate(a, k) == (prev.0 + [step.0], step.1);
      var o := Offset(a.slots[0]);
      assert step.0 == PORT_START + (o + k - 1) % PORT_SPAN;
      ModSucc(o + k - 1);
      assert Offset(step.1.slots[0]) == ((o + k - 1) % PORT_SPAN + 1) % PORT_SPAN;
    }
  }

  lemma ModSucc(x: nat)
    ensures (x % PORT_SPAN + 1) % PORT_SPAN == (x + 1) % PORT_SPAN
  {
  }

  // ---------------------------------------------------------------- headers

  /** The flow key of a packet: IPv4 addresses at 12..16 and 16..20, the
      protocol at byte 9, ports from the L4 header at offset 20.  Protocols
      other than TCP and UDP, and short packets, are errors. */
  function ParseConnection(p: Bytes): (r: Result<Connection>)
    ensures r.Err? <==>
      |p| < IPV4_HDR_LEN || (p[9] as nat != PROTO_TCP && p[9] as nat != PROTO_UDP)
      || |p| < IPV4_HDR_LEN + L4HeaderLen(p[9] as nat)
    ensures r.Ok? ==> r.value == Connection(Be32(p[12..16]), Be16(p[20..22]), Be32(p[16..20]), Be16(p[22..24]), p[9] as nat)
  {
    match Load(p, 0, IPV4_HDR_LEN)
    case Err => Err
    case Ok(ip) =>
      var proto := Proto(ip);
      if proto != PROTO_TCP && proto != PROTO_UDP then Err
      else
        match Load(p, IPV4_HDR_LEN, L4HeaderLen(proto))
        case Err => Err
        case Ok(l4) =>
          SliceOfSlice(p, 0, 20, 12, 16);
          SliceOfSlice(p, 0, 20, 16, 20);
          SliceOfSlice(p, 20, 20 + L4HeaderLen(proto), 0, 2);
          SliceOfSlice(p, 20, 20 + L4HeaderLen(proto), 2, 4);
          Ok(Connection(SrcAddr(ip), SrcPort(l4), DstAddr(ip), DstPort(l4), proto))
  }

  /** `apply_rewrite`: the IPv4 addresses are written once a 20-byte header
      fits, then the L4 ports once the TCP or UDP header fits; checksums are
      left as they were.  Only bytes 12..24 can change. */
  function ApplyRewrite(p: Bytes, proto: nat, rw: Rewrite): (r: Written)
    ensures r.ok <==>
      |p| >= IPV4_HDR_LEN && (proto == PROTO_TCP || proto == PROTO_UDP)
      && |p| >= IPV4_HDR_LEN + L4HeaderLen(proto)
    ensures |r.packet| == |p|
    ensures |p| < IPV4_HDR_LEN ==> r.packet == p
    ensures forall i :: 0 <= i < |p| && !(12 <= i < 24) ==> r.packet[i] == p[i]
    ensures r.ok ==>
      && r.packet[12..16] == ToBe32(rw.srcIp) && r.packet[16..20] == ToBe32(rw.dstIp)
      && r.packet[20..22] == ToBe16(rw.srcPort) && r.packet[22..24] == ToBe16(rw.dstPort)
  {
    if GetPtrMut(Frame(0, p, 0), 0, IPV4_HDR_LEN).Err? then Written(false, p)
    else
      var q1 := Store(p, 12, ToBe32(rw.srcIp)).packet;
      var q := Store(q1, 16, ToBe32(rw.dstIp)).packet;
      if proto != PROTO_TCP && proto != PROTO_UDP then Written(false, q)
      else if GetPtrMut(Frame(0, q, 0), IPV4_HDR_LEN, L4HeaderLen(proto)).Err? then Written(false, q)
      else
        var q3 := Store(q, 20, ToBe16(rw.srcPort)).packet;
        var q4 := Store(q3, 22, ToBe16(rw.dstPort)).packet;
        assert q4[12..16] == q3[12..16] == q[12..16] == q1[12..16];
        assert q4[16..20] == q3[16..20] == q[16..20];
        assert q4[20..22] == q3[20..22];
        Written(true, q4)
  }

  /** Reading a rewritten packet back yields the rewrite's addresses and
      ports under the packet's own protocol. */
  lemma RewriteReadsBack(p: Bytes, rw: Rewrite)
    requires ParseConnection(p).Ok?
    ensures ApplyRewrite(p, ParseConnection(p).value.proto, rw).ok
    ensures ParseConnection(ApplyRewrite(p, ParseConnection(p).value.proto, rw).packet)
         == Ok(Connection(rw.srcIp, rw.srcPort, rw.dstIp, rw.dstPort, ParseConnection(p).value.proto))
  {
    var q := ApplyRewrite(p, ParseConnection(p).value.proto, rw).packet;
    assert q[9] == p[9];
    Be32RoundTrip(rw.srcIp);
    Be32RoundTrip(rw.dstIp);
    Be16RoundTrip(rw.srcPort);
    Be16RoundTrip(rw.dstPort);
  }

  // ---------------------------------------------------------------- rules

  /** The destination port of the reverse rule: nat.rs as written copies
      the flow's destination port; the intended one is its source port. */
  datatype ReverseRule = AsWrittenReverse | IntendedReverse

  /** The connection a packet carries after `rw` rewrote it. */
  function Rewritten(rw: Rewrite, proto: nat): Connection
  {
    Connection(rw.srcIp, rw.srcPort, rw.dstIp, rw.dstPort, proto)
  }

  /** The connection of a packet sent back along `c`. */
  function Flip(c: Connection): Connection
  {
    Connection(c.dstIp, c.dstPort, c.srcIp, c.srcPort, c.proto)
  }

  /** Key under which replies to `c` arrive at the external address: the
      translated packet's connection, sent back. */
  function ReverseKey(c: Connection, natPort: U16): (r: Connection)
    ensures r == Flip(Rewritten(ForwardRewrite(c, natPort), c.proto))
  {
    Connection(c.dstIp, c.dstPort, DEV_EX_IP, natPort, c.proto)
  }

  /** Outgoing packets leave from the external address and the NAT port. */
  function ForwardRewrite(c: Connection, natPort: U16): (r: Rewrite)
    ensures var t := Rewritten(r, c.proto);
      t.srcIp == DEV_EX_IP && t.srcPort == natPort && t.dstIp == c.dstIp && t.dstPort == c.dstPort
    ensures r.output == FOUTPUT
  {
    Rewrite(DEV_EX_IP, natPort, c.dstIp, c.dstPort, FOUTPUT)
  }

  /** Replies are given back the flow's peer as source and the internal
      host as destination. */
  function ReverseRewrite(rule: ReverseRule, c: Connection): (r: Rewrite)
    ensures r.output == FOUTPUT
    // the intended rule gives the reply exactly the flow's connection sent
    // back; as written only when the flow's two ports coincide
    ensures rule == IntendedReverse ==> Rewritten(r, c.proto) == Flip(c)
    ensures rule == AsWrittenReverse ==> (Rewritten(r, c.proto) == Flip(c) <==> c.srcPort == c.dstPort)
  {
    Rewrite(c.dstIp, c.dstPort, c.srcIp,
            if rule == AsWrittenReverse then c.dstPort else c.srcPort, FOUTPUT)
  }

  /** The output chosen, the packet as rewritten and the stores after. */
  datatype NatResult = NatResult(output: nat, packet: Bytes, state: NatState)

  /** `main` / `try_classify` for a packet arriving on input `port`; every
      error yields output 0, keeping whatever was written before it. */
  function Step(rule: ReverseRule, p: Bytes, port: nat, st: NatState): (r: NatResult)
    ensures r.output < OUTPUTS
    ensures |r.packet| == |p|
    ensures ParseConnection(p).Err? ==> r == NatResult(0, p, st)
    ensures ParseConnection(p).Ok? && ParseConnection(p).value in st.connections.entries ==>
      var rw := st.connections.entries[ParseConnection(p).value];
      && r.state == st && r.output == rw.output % OUTPUTS
      && r.packet == ApplyRewrite(p, ParseConnection(p).value.proto, rw).packet
    ensures ParseConnection(p).Ok? && ParseConnection(p).value !in st.connections.entries && port != 0 ==>
      r == NatResult(0, p, st)
    ensures r.state.connections.capacity == st.connections.capacity
    ensures st.connections.entries.Keys <= r.state.connections.entries.Keys
  {
    match ParseConnection(p)
    case Err => NatResult(0, p, st)
    case Ok(c) =>
      match st.connections.Get(c)
      case Some(rw) =>
        var w := ApplyRewrite(p, c.proto, rw);
        if w.ok then NatResult(rw.output % OUTPUTS, w.packet, st) else NatResult(FOUTPUT, w.packet, st)
      case None =>
        if port == 1 then NatResult(FOUTPUT, p, st)
        else if port != 0 then NatResult(0, p, st)
        else OpenFlow(rule, p, c, st)
  }

  /** A miss on the internal input: allocate a port, install the forward
      rule and then the reverse rule (each failure ends the step, keeping
      what was done), rewrite the packet and return input port 0. */
  function OpenFlow(rule: ReverseRule, p: Bytes, c: Connection, st: NatState): (r: NatResult)
    ensures r.output == 0 && |r.packet| == |p|
    ensures r.state.connections.capacity == st.connections.capacity
    ensures st.connections.entries.Keys <= r.state.connections.entries.Keys
    ensures forall k :: k in r.state.connections.entries ==>
      r.state.connections.entries[k].output == FOUTPUT
      || (k in st.connections.entries && r.state.connections.entries[k] == st.connections.entries[k])
  {
    match NextPort(st.nextPort)
    case Err => NatResult(0, p, st)
    case Ok((natPort, next)) =>
      match st.connections.Insert(c, ForwardRewrite(c, natPort))
      case Err => NatResult(0, p, NatState(next, st.connections))
      case Ok(m1) =>
        match m1.Insert(ReverseKey(c, natPort), ReverseRewrite(rule, c))
        case Err => NatResult(0, p, NatState(next, m1))
        case Ok(m2) =>
          var w := ApplyRewrite(p, c.proto, ForwardRewrite(c, natPort));
          NatResult(0, w.packet, NatState(next, m2))
  }

  /** Every installed rule sends its packets to output 0. */
  predicate AllForward(st: NatState)
  {
    forall k :: k in st.connections.entries ==> st.connections.entries[k].output == FOUTPUT
  }

  /** Both rules a new flow installs carry FOUTPUT, so the NAT never uses
      output 1 (ROUTPUT): every packet, reply or not, leaves on output 0. */
  lemma AlwaysForwardOutput(rule: ReverseRule, p: Bytes, port: nat, st: NatState)
    requires AllForward(st)
    ensures Step(rule, p, port, st).output == FOUTPUT
    ensures AllForward(Step(rule, p, port, st).state)
  {
    match ParseConnection(p)
    case Err =>
    case Ok(c) =>
      if c !in st.connections.entries && port == 0 {
        assert Step(rule, p, port, st) == OpenFlow(rule, p, c, st);
      }
  }

  /** A new flow from the internal side, with NEXT_PORT well-formed and room
      for two rules, is given the stored port, installs exactly the forward
      and the reverse rule, and leaves from the external address and that
      port towards its original destination. */
  lemma NewFlowInstallsTwoRules(rule: ReverseRule, p: Bytes, st: NatState)
    requires ParseConnection(p).Ok? && ParseConnection(p).value !in st.connections.entries
    requires |st.nextPort.slots| >= 1 && StoredPortOk(st.nextPort.slots[0])
    requires |st.connections.entries| + 2 <= st.connections.capacity
    ensures NextPort(st.nextPort).Ok?
    ensures NextPort(st.nextPort).value.0 == PORT_START + Offset(st.nextPort.slots[0])
    ensures
      var c := ParseConnection(p).value;
      var natPort := NextPort(st.nextPort).value.0;
      var r := Step(rule, p, 0, st);
      && r.output == 0
      && r.state.nextPort == NextPort(st.nextPort).value.1
      && r.state.connections.entries
         == st.connections.entries[c := ForwardRewrite(c, natPort)][ReverseKey(c, natPort) := ReverseRewrite(rule, c)]
      && ParseConnection(r.packet) == Ok(Connection(DEV_EX_IP, natPort, c.dstIp, c.dstPort, c.proto))
  {
    NextPortCycles(st.nextPort);
    var c := ParseConnection(p).value;
    OpenFlowInstalls(rule, p, c, st);
    assert Step(rule, p, 0, st) == OpenFlow(rule, p, c, st);
  }

  lemma OpenFlowInstalls(rule: ReverseRule, p: Bytes, c: Connection, st: NatState)
    requires ParseConnection(p) == Ok(c) && c !in st.connections.entries
    requires |st.nextPort.slots| >= 1 && StoredPortOk(st.nextPort.slots[0])
    requires |st.connections.entries| + 2 <= st.connections.capacity
    ensures
      var r := OpenFlow(rule, p, c, st);
      && r.state.nextPort == NextPort(st.nextPort).value.1
      && r.state.connections.entries
         == st.connections.entries[c := ForwardRewrite(c, NextPort(st.nextPort).value.0)][ReverseKey(c, NextPort(st.nextPort).value.0) := ReverseRewrite(rule, c)]
      && ParseConnection(r.packet) == Ok(Connection(DEV_EX_IP, NextPort(st.nextPort).value.0, c.dstIp, c.dstPort, c.proto))
  {
    NextPortCycles(st.nextPort);
    var port := NextPort(st.nextPort).value.0;
    var next := NextPort(st.nextPort).value.1;
    var fwd := ForwardRewrite(c, port);
    var m1 := BoundedMap(st.connections.entries[c := fwd], st.connections.capacity);
    assert st.connections.Insert(c, fwd) == Ok(m1);
    assert m1.entries.Keys == st.connections.entries.Keys + {c};
    var rk := ReverseKey(c, port);
    var m2 := BoundedMap(m1.entries[rk := ReverseRewrite(rule, c)], st.connections.capacity);
    assert m1.Insert(rk, ReverseRewrite(rule, c)) == Ok(m2);
    var w := ApplyRewrite(p, c.proto, fwd);
    assert OpenFlow(rule, p, c, st) == NatResult(0, w.packet, NatState(next, m2));
    assert ParseConnection(w.packet) == Ok(Connection(DEV_EX_IP, port, c.dstIp, c.dstPort, c.proto)) by {
      RewriteReadsBack(p, fwd);
    }
  }

  /** The two inserts are not atomic: when only the forward rule fits (the
      reverse key is new and the forward rule fills the map), it stays
      installed and the port stays consumed, while the packet gets
      output 0 unchanged. */
  lemma ReverseInsertFailureKeepsForward(rule: ReverseRule, p: Bytes, st: NatState)
    requires ParseConnection(p).Ok? && ParseConnection(p).value !in st.connections.entries
    requires |st.nextPort.slots| >= 1 && StoredPortOk(st.nextPort.slots[0])
    requires |st.connections.entries| + 1 == st.connections.capacity
    requires
      var rk := ReverseKey(ParseConnection(p).value, PORT_START + Offset(st.nextPort.slots[0]));
      rk != ParseConnection(p).value && rk !in st.connections.entries
    ensures
      var c := ParseConnection(p).value;
      var r := Step(rule, p, 0, st);
      && r.output == 0 && r.packet == p
      && r.state.nextPort == NextPort(st.nextPort).value.1
      && r.state.connections.entries
         == st.connections.entries[c := ForwardRewrite(c, NextPort(st.nextPort).value.0)]
  {
    var c := ParseConnection(p).value;
    assert Step(rule, p, 0, st) == OpenFlow(rule, p, c, st);
    NextPortCycles(st.nextPort);
    OpenFlowReverseFails(rule, p, c, st);
  }

  lemma OpenFlowReverseFails(rule: ReverseRule, p: Bytes, c: Connection, st: NatState)
    requires c !in st.connections.entries
    requires |st.nextPort.slots| >= 1 && StoredPortOk(st.nextPort.slots[0])
    requires |st.connections.entries| + 1 == st.connections.capacity
    requires NextPort(st.nextPort).Ok? && ReverseKey(c, NextPort(st.nextPort).value.0) != c
    requires ReverseKey(c, NextPort(st.nextPort).value.0) !in st.connections.entries
    ensures
      var r := OpenFlow(rule, p, c, st);
      && r.packet == p
      && r.state.nextPort == NextPort(st.nextPort).value.1
      && r.state.connections.entries
         == st.connections.entries[c := ForwardRewrite(c, NextPort(st.nextPort).value.0)]
  {
    var port := NextPort(st.nextPort).value.0;
    var next := NextPort(st.nextPort).value.1;
    var fwd := ForwardRewrite(c, port);
    var m1 := BoundedMap(st.connections.entries[c := fwd], st.connections.capacity);
    assert st.connections.Insert(c, fwd) == Ok(m1);
    assert m1.entries.Keys == st.connections.entries.Keys + {c};
    assert m1.Insert(ReverseKey(c, port), ReverseRewrite(rule, c)) == Err;
    assert OpenFlow(rule, p, c, st) == NatResult(0, p, NatState(next, m1));
  }

  /** Outbound packet `p` of flow `c`, translated to port `natPort`, and a
      reply `q` from the peer to that port: the packet the NAT forwards for
      the reply, under `rule`. */
  function ReplyAfter(rule: ReverseRule, p: Bytes, q: Bytes, st: NatState): NatResult
  {
    Step(rule, q, 1, Step(rule, p, 0, st).state)
  }

  /** Preconditions shared by the two reply lemmas: `p` opens a new flow
      that installs both rules, and `q` is a reply to its translation. */
  ghost predicate ReplyScenario(p: Bytes, q: Bytes, st: NatState)
  {
    && ParseConnection(p).Ok? && ParseConnection(p).value !in st.connections.entries
    && |st.nextPort.slots| >= 1 && StoredPortOk(st.nextPort.slots[0])
    && |st.connections.entries| + 2 <= st.connections.capacity
    && ParseConnection(q)
       == Ok(ReverseKey(ParseConnection(p).value, PORT_START + Offset(st.nextPort.slots[0])))
  }

  /** With the intended reverse rule the translation round-trips: a reply
      to the translated packet is rewritten to come from the flow's peer and
      go to the internal host at the port that opened the flow. */
  lemma IntendedReplyReachesSender(p: Bytes, q: Bytes, st: NatState)
    requires ReplyScenario(p, q, st)
    ensures
      var c := ParseConnection(p).value;
      ParseConnection(ReplyAfter(IntendedReverse, p, q, st).packet)
        == Ok(Connection(c.dstIp, c.dstPort, c.srcIp, c.srcPort, c.proto))
  {
    var c := ParseConnection(p).value;
    NewFlowInstallsTwoRules(IntendedReverse, p, st);
    RewriteReadsBack(q, ReverseRewrite(IntendedReverse, c));
  }

  /** nat.rs as written: the same reply is delivered to the peer's port
      instead of the internal host's, so whenever the two ports differ the
      reply misses the socket that opened the flow. */
  lemma AsWrittenReplyMisdirected(p: Bytes, q: Bytes, st: NatState)
    requires ReplyScenario(p, q, st)
    requires ParseConnection(p).value.srcPort != ParseConnection(p).value.dstPort
    ensures
      var c := ParseConnection(p).value;
      && ParseConnection(ReplyAfter(AsWrittenReverse, p, q, st).packet)
         == Ok(Connection(c.dstIp, c.dstPort, c.srcIp, c.dstPort, c.proto))
      && ParseConnection(ReplyAfter(AsWrittenReverse, p, q, st).packet).value.dstPort != c.srcPort
  {
    var c := ParseConnection(p).value;
    NewFlowInstallsTwoRules(AsWrittenReverse, p, st);
    RewriteReadsBack(q, ReverseRewrite(AsWrittenReverse, c));
  }
}

=== FILE: packet_access.dfy ===
/** Bounds-checked packet access (ebpf/src/lib.rs `BpfContext` and the
    per-program `ptr_at`/`slice_at` copies of the older crates).

    A program sees the packet through a context holding the address of its
    first byte (`data`), the address one past its last byte (`dataEnd`) and
    the input port.  Addresses and offsets are unbounded naturals: the
    `usize` overflow of `start + offset + len` is not modelled. */
module PacketAccess {
  import opened Base

  /** The largest slice `get_slice` hands out. */
  const MAX_SLICE: nat := 50000

  datatype Context = Context(data: nat, dataEnd: nat, port: nat)

  /** The context the host builds for packet `p` stored at address `base`. */
  function Frame(base: nat, p: Bytes, port: nat): (ctx: Context)
    ensures ctx.dataEnd - ctx.data == |p|
  {
    Context(base, base + |p|, port)
  }

  /** The bytes at address `addr` of packet `p` as seen through `ctx`. */
  function Window(ctx: Context, p: Bytes, addr: nat, size: nat): Bytes
    requires ctx.dataEnd - ctx.data == |p|
    requires ctx.data <= addr && addr + size <= ctx.dataEnd
  {
    p[addr - ctx.data .. addr - ctx.data + size]
  }

  /** `get_ptr::<T>(offset)` with `size == size_of::<T>()`. */
  function GetPtr(ctx: Context, offset: nat, size: nat): (r: Result<nat>)
    ensures r.Ok? <==> offset + size <= ctx.dataEnd - ctx.data
    ensures r.Ok? ==> r.value == ctx.data + offset
    ensures r.Ok? ==> ctx.data <= r.value && r.value + size <= ctx.dataEnd
  {
    if ctx.data + offset + size > ctx.dataEnd then Err else Ok(ctx.data + offset)
  }

  /** `get_ptr_mut::<T>(offset)`: the same check, a writable address. */
  function GetPtrMut(ctx: Context, offset: nat, size: nat): (r: Result<nat>)
    ensures r.Ok? <==> offset + size <= ctx.dataEnd - ctx.data
    ensures r.Ok? ==> r.value == ctx.data + offset
  {
    if ctx.data + offset + size > ctx.dataEnd then Err else Ok(ctx.data + offset)
  }

  /** Read and write access are granted under exactly the same condition
      and yield the same address. */
  lemma GetPtrMutAgrees(ctx: Context, offset: nat, size: nat)
    ensures GetPtrMut(ctx, offset, size) == GetPtr(ctx, offset, size)
  {
  }

  /** Whatever address the packet is stored at, an access succeeds exactly
      when the requested bytes lie inside the packet, and the address it
      returns designates the bytes `p[offset..offset + size]`. */
  lemma GetPtrReadsPacket(base: nat, p: Bytes, port: nat, offset: nat, size: nat)
    ensures GetPtr(Frame(base, p, port), offset, size).Ok? <==> offset + size <= |p|
    ensures GetPtr(Frame(base, p, port), offset, size).Ok? ==>
      Window(Frame(base, p, port), p, GetPtr(Frame(base, p, port), offset, size).value, size)
        == p[offset..offset + size]
  {
  }

  /** `get_slice(len, offset)`: capped at 50000 bytes, then bounds checked. */
  function GetSlice(ctx: Context, p: Bytes, len: nat, offset: nat): (r: Result<Bytes>)
    requires ctx.dataEnd - ctx.data == |p|
    ensures len > MAX_SLICE ==> r.Err?
    ensures r.Ok? <==> len <= MAX_SLICE && offset + len <= |p|
    ensures r.Ok? ==> |r.value| == len && r.value == p[offset..offset + len]
  {
    if len > MAX_SLICE then Err
    else if ctx.data + offset + len > ctx.dataEnd then Err
    else Ok(Window(ctx, p, ctx.data + offset, len))
  }

  /** `slice_at(len, offset)` of the older DNS filter: no length cap. */
  function SliceAt(ctx: Context, p: Bytes, len: nat, offset: nat): (r: Result<Bytes>)
    requires ctx.dataEnd - ctx.data == |p|
    ensures r.Ok? <==> offset + len <= |p|
    ensures r.Ok? ==> r.value == p[offset..offset + len]
  {
    if ctx.data + offset + len > ctx.dataEnd then Err
    else Ok(Window(ctx, p, ctx.data + offset, len))
  }

  /** The two slice accessors differ only in the cap: below it they agree,
      above it `get_slice` refuses what `slice_at` may grant. */
  lemma GetSliceIsCappedSliceAt(ctx: Context, p: Bytes, len: nat, offset: nat)
    requires ctx.dataEnd - ctx.data == |p|
    ensures len <= MAX_SLICE ==> GetSlice(ctx, p, len, offset) == SliceAt(ctx, p, len, offset)
    ensures len > MAX_SLICE && offset + len <= |p| ==>
      GetSlice(ctx, p, len, offset).Err? && SliceAt(ctx, p, len, offset).Ok?
  {
  }

  /** The slice-based `ptr_at` of the filter-rs crates and of the older
      classifier and mirror crates: the result is the offset from the start
      of the slice. */
  function SlicePtrAt(p: Bytes, offset: nat, size: nat): (r: Result<nat>)
    ensures r.Ok? <==> offset + size <= |p|
    ensures r.Ok? ==> r.value == offset
  {
    if offset + size > |p| then Err else Ok(offset)
  }

  /** The pointer-pair and slice-based checks accept the same accesses. */
  lemma SlicePtrAtAgrees(base: nat, p: Bytes, port: nat, offset: nat, size: nat)
    ensures SlicePtrAt(p, offset, size).Ok? <==> GetPtr(Frame(base, p, port), offset, size).Ok?
    ensures SlicePtrAt(p, offset, size).Ok? ==>
      GetPtr(Frame(base, p, port), offset, size).value == base + SlicePtrAt(p, offset, size).value
  {
  }

  /** A checked read of `size` bytes at `offset` of a packet, the way every
      program below dereferences what `get_ptr` returned. */
  function Load(p: Bytes, offset: nat, size: nat): (r: Result<Bytes>)
    ensures r.Ok? <==> offset + size <= |p|
    ensures r.Ok? ==> |r.value| == size && r.value == p[offset..offset + size]
  {
    var ctx := Frame(0, p, 0);
    match GetPtr(ctx, offset, size)
    case Err => Err
    case Ok(addr) => Ok(Window(ctx, p, addr, size))
  }

  /** Outcome of a checked write: whether the check passed, and the packet
      afterwards. */
  datatype Written = Written(ok: bool, packet: Bytes)

  /** `*get_ptr_mut(offset)? = v`: a write lands only when it fits. */
  function Store(p: Bytes, offset: nat, v: Bytes): (r: Written)
    ensures r.ok <==> offset + |v| <= |p|
    ensures !r.ok ==> r.packet == p
    ensures |r.packet| == |p|
    ensures r.ok ==> r.packet[offset..offset + |v|] == v
    ensures forall i :: 0 <= i < |p| && !(offset <= i < offset + |v|) ==> r.packet[i] == p[i]
  {
    var ctx := Frame(0, p, 0);
    match GetPtrMut(ctx, offset, |v|)
    case Err => Written(false, p)
    case Ok(addr) => Written(true, p[..addr] + v + p[addr + |v|..])
  }

  /** Reading back what a successful write stored yields the stored bytes. */
  lemma LoadAfterStore(p: Bytes, offset: nat, v: Bytes)
    requires offset + |v| <= |p|
    ensures Load(Store(p, offset, v).packet, offset, |v|) == Ok(v)
  {
  }
}

=== FILE: rate_limiter.dfy ===
/** Token-bucket rate limiting per IPv4 source (ebpf/src/bin/rate-limiter.rs
    and the two older builds, ebpf/rate-limiter-ebpf and
    filter-rs/rate-limiter-ebpf).

    Each source address owns a bucket of at most 3 tokens; a packet costs 2
    tokens and is dropped when fewer are left.  Buckets refill by one token
    per elapsed second.  The clock (`bpf_ktime_get_ns`, nanoseconds) is a
    parameter `now`. */
module RateLimiter {
  import opened Base
  import opened PacketAccess
  import opened Verdicts
  import opened Headers
  import opened Stores

  const MAX_TOKENS: nat := 3
  const TOKEN_COST: nat := 2
  const NS_PER_SEC: nat := 1_000_000_000
  const MAX_SOURCES: nat := 1024

  /** `RateLimit`: the tokens left and the time of the last grant. */
  datatype RateLimit = RateLimit(tokens: nat, lastGrant: nat)

  /** How the time of the last grant is kept and compared.
      - `AsWrittenSeconds`: rate-limiter.rs stores whole seconds in a `u32`
        but subtracts them from the current time in nanoseconds and grants
        that difference as tokens;
      - `IntendedSeconds`: the same seconds stamp, compared with the current
        time in seconds;
      - `Nanoseconds`: the older builds store nanoseconds in a `u64` and
        grant one token per whole elapsed second. */
  datatype Clock = AsWrittenSeconds | IntendedSeconds | Nanoseconds

  /** The time stamp a grant (or a fresh bucket) records. */
  function Stamp(clock: Clock, now: nat): (r: nat)
    ensures clock != Nanoseconds ==> IsU32(r)
    ensures clock == Nanoseconds ==> r == now
    // a seconds stamp names the second `now` falls in, until 2^32 seconds
    ensures clock != Nanoseconds && now < U32_LIMIT * NS_PER_SEC ==>
      r * NS_PER_SEC <= now < (r + 1) * NS_PER_SEC
  {
    if clock == Nanoseconds then now else WrapU32(now / NS_PER_SEC)
  }

  /** `RateLimit::default()`: a full bucket stamped now. */
  function Fresh(clock: Clock, now: nat): (r: RateLimit)
    ensures r.tokens == MAX_TOKENS && r.lastGrant == Stamp(clock, now)
    // with a consistent clock nothing is due at the instant of creation; as
    // written, a fresh bucket is due tokens at once
    ensures clock != AsWrittenSeconds ==> NewTokens(clock, r, now) == 0
    ensures clock == AsWrittenSeconds && 0 < now < U64_LIMIT ==> NewTokens(clock, r, now) > 0
  {
    RateLimit(MAX_TOKENS, Stamp(clock, now))
  }

  /** The `new_tokens` a grant computes; subtractions wrap as in a release
      build. */
  function NewTokens(clock: Clock, rl: RateLimit, now: nat): (r: nat)
    // tokens are due exactly when the second changed since the stamp
    ensures clock == IntendedSeconds && IsU32(rl.lastGrant) ==> (r == 0 <==> Stamp(clock, now) == rl.lastGrant)
    // tokens are due exactly when a whole second has passed
    ensures clock == Nanoseconds && rl.lastGrant <= now < rl.lastGrant + U64_LIMIT ==>
      (r == 0 <==> now - rl.lastGrant < NS_PER_SEC)
    // as written, tokens are due whenever the clock reading differs from the stamp
    ensures clock == AsWrittenSeconds && rl.lastGrant <= now < rl.lastGrant + U64_LIMIT ==>
      (r == 0 <==> now == rl.lastGrant)
  {
    match clock
    case AsWrittenSeconds => WrapU64(now - rl.lastGrant)
    case IntendedSeconds => WrapU32(Stamp(clock, now) - rl.lastGrant)
    case Nanoseconds => WrapU64(now - rl.lastGrant) / NS_PER_SEC
  }

  /** `grant_tokens_if_needed`: when any tokens are due, add them (the
      `u32` addition wraps), cap at 3 and restamp; otherwise nothing
      changes. */
  function GrantTokens(clock: Clock, rl: RateLimit, now: nat): (r: RateLimit)
    ensures NewTokens(clock, rl, now) == 0 ==> r == rl
    ensures NewTokens(clock, rl, now) > 0 ==> r.tokens <= MAX_TOKENS && r.lastGrant == Stamp(clock, now)
    ensures NewTokens(clock, rl, now) > 0 && rl.tokens + NewTokens(clock, rl, now) < U32_LIMIT ==>
      r.tokens == Min(rl.tokens + NewTokens(clock, rl, now), MAX_TOKENS)
  {
    var n := NewTokens(clock, rl, now);
    if n > 0 then RateLimit(Min(WrapU32(rl.tokens + WrapU32(n)), MAX_TOKENS), Stamp(clock, now))
    else rl
  }

  /** `spend_token`: succeeds and takes 2 tokens exactly when 2 are there. */
  function SpendToken(rl: RateLimit): (r: (bool, RateLimit))
    ensures r.0 <==> rl.tokens >= TOKEN_COST
    ensures r.0 ==> r.1 == RateLimit(rl.tokens - TOKEN_COST, rl.lastGrant)
    ensures !r.0 ==> r.1 == rl
  {
    if rl.tokens >= TOKEN_COST then (true, RateLimit(rl.tokens - TOKEN_COST, rl.lastGrant))
    else (false, rl)
  }

  type Buckets = BoundedMap<nat, RateLimit>

  /** The verdict for one packet and the buckets afterwards. */
  datatype Outcome = Outcome(verdict: FilterResult, buckets: Buckets)

  /** Source address of the IPv4 header that follows the Ethernet header. */
  function Source(p: Bytes): (r: nat)
    requires |p| >= ETH_HDR_LEN + IPV4_HDR_LEN
    ensures IsU32(r)
  {
    Be32(p[26..30])
  }

  /** The bucket the packet is charged to: an existing one after its grant,
      or a fresh full one (no grant). */
  function Charged(clock: Clock, buckets: Buckets, src: nat, now: nat): RateLimit
  {
    match buckets.Get(src)
    case Some(rl) => GrantTokens(clock, rl, now)
    case None => Fresh(clock, now)
  }

  /** `try_filter`, shared by all three builds: short headers abort,
      non-IPv4 frames are dropped, a new source whose insert fails (the map
      holds 1024 sources) aborts, and otherwise the source's bucket, after
      its grant, pays for the packet or the packet is dropped.  Only the
      source's bucket changes. */
  function Filter(clock: Clock, p: Bytes, buckets: Buckets, now: nat): (r: Outcome)
    ensures r.verdict == Abort <==>
      |p| < ETH_HDR_LEN
      || (IsIpv4Frame(p) && (|p| < 34
            || (Source(p) !in buckets.entries && |buckets.entries| >= buckets.capacity)))
    ensures |p| >= ETH_HDR_LEN && !IsIpv4Frame(p) ==> r.verdict == Drop
    ensures r.verdict == Abort || !IsIpv4Frame(p) ==> r.buckets == buckets
    ensures IsIpv4Frame(p) && r.verdict != Abort ==>
      && r.buckets.capacity == buckets.capacity
      && r.buckets.entries.Keys == buckets.entries.Keys + {Source(p)}
      && (forall a :: a in buckets.entries && a != Source(p) ==> r.buckets.entries[a] == buckets.entries[a])
      && (r.verdict == Pass <==> Charged(clock, buckets, Source(p), now).tokens >= TOKEN_COST)
      && r.buckets.entries[Source(p)] == SpendToken(Charged(clock, buckets, Source(p), now)).1
  {
    match Load(p, 0, ETH_HDR_LEN)
    case Err => Outcome(Abort, buckets)
    case Ok(eth) =>
      if EtherType(eth) != ETHERTYPE_IPV4 then Outcome(Drop, buckets)
      else
        match Load(p, ETH_HDR_LEN, IPV4_HDR_LEN)
        case Err => Outcome(Abort, buckets)
        case Ok(ip) =>
          var src := SrcAddr(ip);
          SliceOfSlice(p, 14, 34, 12, 16);
          var inserted := match buckets.Get(src)
                          case Some(_) => Ok(buckets)
                          case None => buckets.Insert(src, Fresh(clock, now));
          match inserted
          case Err => Outcome(Abort, buckets)
          case Ok(table) =>
            var (paid, rl) := SpendToken(Charged(clock, buckets, src, now));
            Outcome(if paid then Pass else Drop, table.Put(src, rl))
  }

  /** The verdict codes of the three builds: rate-limiter.rs returns
      `FilterCode` of the verdict and ebpf/rate-limiter-ebpf its `XdpCode`;
      the filter-rs build returns PASS = 0 and DROP = 1 and turns every
      error into DROP, so it cannot abort. */
  function FilterRsBuildCode(v: FilterResult): (code: nat)
    ensures code == FILTER_RS_PASS <==> v == Pass
    ensures code == FILTER_RS_DROP <==> v != Pass
  {
    if v == Pass then FILTER_RS_PASS else FILTER_RS_DROP
  }

  /** Every bucket holds at most 3 tokens. */
  ghost predicate Bounded(buckets: Buckets)
  {
    buckets.Valid() && forall a :: a in buckets.entries ==> buckets.entries[a].tokens <= MAX_TOKENS
  }

  /** The filter keeps every bucket at 3 tokens or fewer and never holds
      more sources than the map allows, whatever the clock does. */
  lemma FilterKeepsBuckets(clock: Clock, p: Bytes, buckets: Buckets, now: nat)
    requires Bounded(buckets)
    ensures Bounded(Filter(clock, p, buckets, now).buckets)
  {
    var r := Filter(clock, p, buckets, now);
    if IsIpv4Frame(p) && r.verdict != Abort {
      var src := Source(p);
      if src !in buckets.entries {
        assert |buckets.entries| < buckets.capacity;
        InsertKeepsBound(buckets, src, Fresh(clock, now));
        assert r.buckets.entries.Keys == buckets.Insert(src, Fresh(clock, now)).value.entries.Keys;
      }
    }
  }

  /** A frame from a source seen for the first time, while the map has
      room, passes and leaves its source one token. */
  lemma NewSourcePasses(clock: Clock, p: Bytes, buckets: Buckets, now: nat)
    requires IsIpv4Frame(p) && |p| >= 34
    requires Source(p) !in buckets.entries && |buckets.entries| < buckets.capacity
    ensures Filter(clock, p, buckets, now).verdict == Pass
    ensures Filter(clock, p, buckets, now).buckets.entries[Source(p)].tokens == MAX_TOKENS - TOKEN_COST
  {
  }

  /** Under a clock that compares like with like, a second frame from a new
      source at the same instant finds one token and is dropped: a burst
      passes one packet per token refill. */
  lemma SameInstantSecondFrameDrops(clock: Clock, p: Bytes, buckets: Buckets, now: nat)
    requires clock != AsWrittenSeconds
    requires IsIpv4Frame(p) && |p| >= 34
    requires Source(p) !in buckets.entries && |buckets.entries| < buckets.capacity
    ensures Filter(clock, p, Filter(clock, p, buckets, now).buckets, now).verdict == Drop
  {
    var first := Filter(clock, p, buckets, now);
    var rl := first.buckets.entries[Source(p)];
    assert rl == RateLimit(1, Stamp(clock, now));
    assert NewTokens(clock, rl, now) == 0;
  }

  /** Nanosecond clock: a bucket last granted `now - last` nanoseconds ago
      gains one token per whole elapsed second, capped at 3, and a frame
      passes exactly when that leaves it 2 tokens.  (Past about 136 years
      without a grant the `u32` cast of the token count wraps.) */
  lemma NanosecondRefill(p: Bytes, buckets: Buckets, now: nat)
    requires IsIpv4Frame(p) && |p| >= 34 && Source(p) in buckets.entries
    requires buckets.entries[Source(p)].tokens <= MAX_TOKENS
    requires buckets.entries[Source(p)].lastGrant <= now && IsU64(now)
    requires (now - buckets.entries[Source(p)].lastGrant) / NS_PER_SEC < U32_LIMIT - MAX_TOKENS
    ensures
      var rl := buckets.entries[Source(p)];
      var secs := (now - rl.lastGrant) / NS_PER_SEC;
      Filter(Nanoseconds, p, buckets, now).verdict == Pass <==> Min(rl.tokens + secs, MAX_TOKENS) >= TOKEN_COST
  {
    var rl := buckets.entries[Source(p)];
    var secs := (now - rl.lastGrant) / NS_PER_SEC;
    assert NewTokens(Nanoseconds, rl, now) == secs;
  }

  /** The seconds stamp the intended comparison uses grants exactly the
      whole seconds elapsed since the last grant (while the seconds count
      stays inside a `u32`): a frame passes exactly when the bucket plus
      those seconds, capped at 3, reaches 2. */
  lemma IntendedSecondsRefill(p: Bytes, buckets: Buckets, now: nat)
    requires IsIpv4Frame(p) && |p| >= 34 && Source(p) in buckets.entries
    requires buckets.entries[Source(p)].tokens <= MAX_TOKENS
    requires buckets.entries[Source(p)].lastGrant <= now / NS_PER_SEC < U32_LIMIT - MAX_TOKENS
    ensures
      var rl := buckets.entries[Source(p)];
      var secs := now / NS_PER_SEC - rl.lastGrant;
      Filter(IntendedSeconds, p, buckets, now).verdict == Pass <==> Min(rl.tokens + secs, MAX_TOKENS) >= TOKEN_COST
  {
    var rl := buckets.entries[Source(p)];
    assert NewTokens(IntendedSeconds, rl, now) == now / NS_PER_SEC - rl.lastGrant;
  }

  /** rate-limiter.rs as written: the bucket was drained to one token in
      the very second it was stamped (second 5), yet a frame in that same
      second passes, because the nanosecond clock minus a seconds stamp is
      billions of "tokens"; the intended comparison drops it. */
  lemma SecondsClockCounterexample(p: Bytes)
    requires IsIpv4Frame(p) && |p| >= 34
    ensures
      var buckets := BoundedMap(map[Source(p) := RateLimit(1, 5)], MAX_SOURCES);
      && Filter(AsWrittenSeconds, p, buckets, 5 * NS_PER_SEC).verdict == Pass
      && Filter(IntendedSeconds, p, buckets, 5 * NS_PER_SEC).verdict == Drop
  {
    var rl := RateLimit(1, 5);
    assert NewTokens(AsWrittenSeconds, rl, 5 * NS_PER_SEC) == 4_999_999_995;
    assert WrapU32(1 + WrapU32(4_999_999_995)) == 705_032_700;
    assert NewTokens(IntendedSeconds, rl, 5 * NS_PER_SEC) == 0;
  }
}

=== FILE: reconfigure_markers.dfy ===
/** How the live-reconfiguration benchmarks time a reconfiguration
    (benchmark/benches/live_reconfigure.rs and benchmark/src/live_reconfigure.rs):
    read the router's console line by line, start the clock at the first
    line containing a start marker, and stop it at the first later line
    containing "Reconfigured BPFilter".

    A console line is the element's message behind a prefix the platform
    adds (a timestamp and the like); prefixes and program file names are
    taken not to contain the letter 'R'. */
module ReconfigureMarkers {
  import opened Base
  import opened ElementConfig

  const BENCH_START: string := "Reconfiguring BPFilter"
  const TOOL_START: string := "Reconfiguring BPFilter..."
  const END_MARKER: string := "Reconfigured BPFilter"

  /** `m` occurs in `s` starting at index `i`. */
  predicate MatchesAt(s: string, m: string, i: nat)
  {
    i + |m| <= |s| && s[i..i + |m|] == m
  }

  /** `line.contains(m)`. */
  predicate Contains(s: string, m: string)
  {
    exists i: nat :: i <= |s| && MatchesAt(s, m, i)
  }

  /** The first line at or after `from` that contains `m`; the iterator
      `find` consumes lines up to and including it. */
  function FindFrom(lines: seq<string>, from: nat, m: string): (r: Option<nat>)
    ensures r.Some? ==> from <= r.value < |lines| && Contains(lines[r.value], m)
    ensures r.Some? ==> forall j :: from <= j < r.value ==> !Contains(lines[j], m)
    ensures r.None? ==> forall j :: from <= j < |lines| ==> !Contains(lines[j], m)
    decreases |lines| - from
  {
    if from >= |lines| then None
    else if Contains(lines[from], m) then Some(from)
    else FindFrom(lines, from + 1, m)
  }

  datatype Measurement = Measurement(start: nat, end: nat)

  /** The two waits one after the other: the end marker is looked for only
      in the lines after the one that matched the start marker. */
  function Measure(lines: seq<string>, startMarker: string): (r: Option<Measurement>)
    ensures r.Some? ==> r.value.start < r.value.end < |lines|
    ensures r.Some? ==> Contains(lines[r.value.start], startMarker) && Contains(lines[r.value.end], END_MARKER)
    ensures r.Some? ==> forall j :: r.value.start < j < r.value.end ==> !Contains(lines[j], END_MARKER)
    ensures FindFrom(lines, 0, startMarker).None? ==> r.None?
    // the clock starts at the first start-marker line
    ensures r.Some? ==> forall j :: 0 <= j < r.value.start ==> !Contains(lines[j], startMarker)
    // and a measurement is missed only when no start line exists or no end
    // line follows the first one
    ensures r.None? <==>
      || FindFrom(lines, 0, startMarker).None?
      || (forall j :: FindFrom(lines, 0, startMarker).value < j < |lines| ==> !Contains(lines[j], END_MARKER))
  {
    match FindFrom(lines, 0, startMarker)
    case None => None
    case Some(s) =>
      match FindFrom(lines, s + 1, END_MARKER)
      case None => None
      case Some(e) => Some(Measurement(s, e))
  }

  predicate Lacks(s: string, c: char)
  {
    forall i :: 0 <= i < |s| ==> s[i] != c
  }

  /** A string whose only occurrence of `m[0]` is at `k` and which differs
      from `m` at `k + off` does not contain `m`. */
  lemma NotContained(s: string, m: string, k: nat, off: nat)
    requires 0 < |m| && off < |m|
    requires forall i :: 0 <= i < |s| && i != k ==> s[i] != m[0]
    requires k + off < |s| ==> s[k + off] != m[off]
    ensures !Contains(s, m)
  {
    forall i: nat | i + |m| <= |s|
      ensures !MatchesAt(s, m, i)
    {
      if i == k {
        assert s[i..i + |m|][off] == s[k + off];
      } else {
        assert s[i..i + |m|][0] == s[i];
      }
    }
  }

  lemma LacksConcat(a: string, b: string, c: char)
    requires Lacks(a, c) && Lacks(b, c)
    ensures Lacks(a + b, c)
  {
  }

  /** The details of an announcement carry no 'R' of their own. */
  lemma DetailsLackR(className: string, args: ConfArgs, ending: string)
    requires Lacks(className, 'R') && Lacks(args.file, 'R') && Lacks(ending, 'R')
    ensures Lacks(Details(className, args, ending), 'R')
  {
    var d := Decimal(args.id);
    LacksConcat(" " + className, " (", 'R');
    LacksConcat("ID: ", d, 'R');
    LacksConcat("ID: " + d, " - JIT: " + FlagText(args.jit) + ") with program ", 'R');
    LacksConcat("ID: " + d + " - JIT: " + FlagText(args.jit) + ") with program ", args.file, 'R');
    LacksConcat("ID: " + d + " - JIT: " + FlagText(args.jit) + ") with program " + args.file, ending, 'R');
    LacksConcat(" " + className + " (", "ID: " + d + " - JIT: " + FlagText(args.jit)
      + ") with program " + args.file + ending, 'R');
  }

  /** The console line of a BPFilter announcement whose verb starts with
      'R': an 'R' appears only where the message starts. */
  lemma OnlyLeadingR(prefix: string, verb: string, args: ConfArgs, ending: string)
    requires |verb| > 0 && verb[0] == 'R' && Lacks(verb[1..], 'R')
    requires Lacks(prefix, 'R') && Lacks(args.file, 'R') && Lacks(ending, 'R')
    ensures var s := prefix + Announce(verb, "BPFilter", args, ending);
      forall i :: 0 <= i < |s| && i != |prefix| ==> s[i] != 'R'
  {
    DetailsLackR("BPFilter", args, ending);
    var d := Details("BPFilter", args, ending);
    var a := Announce(verb, "BPFilter", args, ending);
    assert a == verb + d;
    var s := prefix + a;
    forall i | 0 <= i < |s| && i != |prefix|
      ensures s[i] != 'R'
    {
      if i < |prefix| {
        assert s[i] == prefix[i];
      } else if i < |prefix| + |verb| {
        assert s[i] == verb[i - |prefix|] == verb[1..][i - |prefix| - 1];
      } else {
        assert s[i] == d[i - |prefix| - |verb|];
      }
    }
  }

  /** The start of a console line holding an announcement. */
  lemma AnnounceHead(prefix: string, verb: string, args: ConfArgs, ending: string, n: nat)
    requires n <= |verb| + 11
    ensures var s := prefix + Announce(verb, "BPFilter", args, ending);
      |prefix| + n <= |s| && s[|prefix|..|prefix| + n] == (verb + " BPFilter (")[..n]
  {
    var a := Announce(verb, "BPFilter", args, ending);
    var s := prefix + a;
    assert s[|prefix|..|prefix| + n] == a[..n];
    assert a[..n] == a[..|verb| + 11][..n];
  }

  /** The two lines a successful BPFilter reconfiguration prints, each
      behind its console prefix. */
  function ReconfigureLines(startPrefix: string, endPrefix: string, args: ConfArgs): (lines: seq<string>)
    ensures |lines| == 2
  {
    [startPrefix + Announce(StartVerb(true), "BPFilter", args, StartEnding(true)),
     endPrefix + Announce(EndVerb(true), "BPFilter", args, "")]
  }

  /** Those are exactly the lines `BPFilter::configure` prints. */
  lemma ReconfigureLinesAreLogged(host: Host, conf: seq<string>, s: ElementState)
    requires FilterConfigure(host, conf, s).status == Done && s.vm != NoVm
    ensures ReconfigureLines("", "", host.parse(conf).value) == FilterConfigure(host, conf, s).log
  {
    var args := host.parse(conf).value;
    var log := FilterConfigure(host, conf, s).log;
    assert "" + log[0] == log[0];
    assert "" + log[1] == log[1];
  }

  /** Which line matches which marker. */
  lemma MarkersInLines(startPrefix: string, endPrefix: string, args: ConfArgs)
    requires Lacks(startPrefix, 'R') && Lacks(endPrefix, 'R') && Lacks(args.file, 'R')
    ensures var lines := ReconfigureLines(startPrefix, endPrefix, args);
      && Contains(lines[0], BENCH_START) && !Contains(lines[0], END_MARKER) && !Contains(lines[0], TOOL_START)
      && Contains(lines[1], END_MARKER) && !Contains(lines[1], BENCH_START) && !Contains(lines[1], TOOL_START)
  {
    var lines := ReconfigureLines(startPrefix, endPrefix, args);
    OnlyLeadingR(startPrefix, "Reconfiguring", args, "..");
    OnlyLeadingR(endPrefix, "Reconfigured", args, "");
    AnnounceHead(startPrefix, "Reconfiguring", args, "..", 24);
    AnnounceHead(endPrefix, "Reconfigured", args, "", 23);
    var s0 := lines[0];
    var s1 := lines[1];
    var k0 := |startPrefix|;
    var k1 := |endPrefix|;
    assert MatchesAt(s0, BENCH_START, k0);
    assert MatchesAt(s1, END_MARKER, k1);
    assert s0[k0 + 10] == s0[k0..k0 + 24][10] == 'i';
    assert s0[k0 + 22] == s0[k0..k0 + 24][22] == ' ';
    assert s1[k1 + 10] == s1[k1..k1 + 23][10] == 'e';
    NotContained(s0, END_MARKER, k0, 10);
    NotContained(s0, TOOL_START, k0, 22);
    NotContained(s1, BENCH_START, k1, 10);
    NotContained(s1, TOOL_START, k1, 10);
  }

  /** The benchmark's markers bracket a reconfiguration: with other console
      lines around it that do not carry the markers, the clock starts at
      the "Reconfiguring" line and stops at the "Reconfigured" line. */
  lemma BenchMarkersBracketReconfiguration(before: seq<string>, middle: seq<string>, after: seq<string>,
                                           startPrefix: string, endPrefix: string, args: ConfArgs)
    requires Lacks(startPrefix, 'R') && Lacks(endPrefix, 'R') && Lacks(args.file, 'R')
    requires forall j :: 0 <= j < |before| ==> !Contains(before[j], BENCH_START)
    requires forall j :: 0 <= j < |middle| ==> !Contains(middle[j], END_MARKER)
    ensures var r := ReconfigureLines(startPrefix, endPrefix, args);
      Measure(before + [r[0]] + middle + [r[1]] + after, BENCH_START)
        == Some(Measurement(|before|, |before| + 1 + |middle|))
  {
    var r := ReconfigureLines(startPrefix, endPrefix, args);
    var lines := before + [r[0]] + middle + [r[1]] + after;
    MarkersInLines(startPrefix, endPrefix, args);
    assert lines[|before|] == r[0];
    assert lines[|before| + 1 + |middle|] == r[1];
    assert forall j :: 0 <= j < |before| ==> lines[j] == before[j];
    assert forall j :: |before| < j < |before| + 1 + |middle| ==> lines[j] == middle[j - |before| - 1];
    FindFromIs(lines, 0, BENCH_START, |before|);
    FindFromIs(lines, |before| + 1, END_MARKER, |before| + 1 + |middle|);
  }

  /** `FindFrom` stops at the first match. */
  lemma {:induction false} FindFromIs(lines: seq<string>, from: nat, m: string, k: nat)
    requires from <= k < |lines| && Contains(lines[k], m)
    requires forall j :: from <= j < k ==> !Contains(lines[j], m)
    ensures FindFrom(lines, from, m) == Some(k)
    decreases k - from
  {
    if from < k {
      FindFromIs(lines, from + 1, m, k);
    }
  }

  /** benchmark/src/live_reconfigure.rs waits for "Reconfiguring
      BPFilter...", which no reconfiguration line contains, because the
      announcement continues " (ID: " after the class name: the clock never
      starts. */
  lemma AsWrittenStartMarkerNeverMatches(startPrefix: string, endPrefix: string, args: ConfArgs)
    requires Lacks(startPrefix, 'R') && Lacks(endPrefix, 'R') && Lacks(args.file, 'R')
    ensures Measure(ReconfigureLines(startPrefix, endPrefix, args), TOOL_START).None?
  {
    var lines := ReconfigureLines(startPrefix, endPrefix, args);
    MarkersInLines(startPrefix, endPrefix, args);
    assert FindFrom(lines, 0, TOOL_START).None? by {
      assert FindFrom(lines, 2, TOOL_START).None?;
    }
  }
}

=== FILE: rewriters.dfy ===
/** Rewriter programs and the host side of packet resizing: the VLAN
    header stripper (ebpf/src/bin/strip-ether-vlan-header.rs and the older
    ebpf/strip-ether-vlan-header-ebpf), the Ethernet address mirror
    (ebpf/src/bin/ether-mirror.rs and ebpf/ether-mirror-ebpf), and the
    `bpf_packet_add_space` helper the Click rewriter element registers
    (libs/click/unikraft/bpfrewriter.cc). */
module Rewriters {
  import opened Base
  import opened PacketAccess
  import opened Verdicts
  import opened Headers

  const MAC_LEN: nat := 6
  const VLAN_TAG_LEN: nat := 4

  function Max0(x: int): nat { if x > 0 then x else 0 }

  /** The host resize: a positive `head` pushes that many bytes in front
      (whatever the headroom held, `headroom` here), a negative one pulls
      bytes off the front; `tail` puts or takes bytes at the end likewise.
      Click's own clamping of an oversized pull or take is not part of this
      model: the caller never shrinks the packet below empty. */
  function HostAddSpace(p: Bytes, head: int, tail: int, headroom: Bytes, tailroom: Bytes): (r: Bytes)
    requires |headroom| == Max0(head) && |tailroom| == Max0(tail)
    requires -head <= |p| && -tail <= |p| + head
    ensures |r| == |p| + head + tail
    // push and put
    ensures head >= 0 && tail >= 0 ==> r == headroom + p + tailroom
    // pull and put
    ensures head <= 0 && tail >= 0 ==> r == p[-head..] + tailroom
    // pull and take
    ensures head <= 0 && tail <= 0 ==> r == p[-head..|p| + tail]
    // push and take: a take no longer than the packet keeps the pushed
    // bytes; a longer one eats into them
    ensures head >= 0 && tail <= 0 ==> r == (headroom + p)[..|p| + head + tail]
    ensures head >= 0 && tail <= 0 && -tail <= |p| ==> r == headroom + p[..|p| + tail]
  {
    var q := if head > 0 then headroom + p else if head < 0 then p[-head..] else p;
    if tail > 0 then q + tailroom else if tail < 0 then q[..|q| + tail] else q
  }

  /** Guest and host agree on the packet after a resize: the context the
      guest rebuilds from the returned start and its own length arithmetic
      is exactly the frame of the packet the host produced. */
  lemma ResizeAgreesWithHost(base: nat, p: Bytes, port: nat, head: int, tail: int,
                             headroom: Bytes, tailroom: Bytes, newData: nat)
    requires IsI32(head) && IsI32(tail)
    requires |headroom| == Max0(head) && |tailroom| == Max0(tail)
    requires -head <= |p| && -tail <= |p| + head
    ensures GuestResize(Frame(base, p, port), head, tail, newData).0
         == Frame(newData, HostAddSpace(p, head, tail, headroom, tailroom), port)
  {
  }

  /** After a resize a program must re-derive its offsets: an access at
      offset `o` through the rebuilt context reads the bytes that were at
      `o - head` before the call, for every range that survived it.  A
      pull of 14 bytes makes offset 0 read what offset 14 held. */
  lemma ResizeShiftsOffsets(base: nat, p: Bytes, port: nat, head: int, tail: int,
                            headroom: Bytes, tailroom: Bytes, newData: nat, o: nat, size: nat)
    requires IsI32(head) && IsI32(tail)
    requires |headroom| == Max0(head) && |tailroom| == Max0(tail)
    requires -head <= |p| && -tail <= |p| + head
    requires o >= head && o - head + size <= |p| && o + size <= |p| + head + tail
    ensures var ctx := GuestResize(Frame(base, p, port), head, tail, newData).0;
      var q := HostAddSpace(p, head, tail, headroom, tailroom);
      && GetPtr(ctx, o, size).Ok?
      && Window(ctx, q, GetPtr(ctx, o, size).value, size) == p[o - head .. o - head + size]
  {
    var q := HostAddSpace(p, head, tail, headroom, tailroom);
    ResizeAgreesWithHost(base, p, port, head, tail, headroom, tailroom, newData);
    HostKeepsBytes(p, head, tail, headroom, tailroom, o, size);
    GetPtrReadsPacket(newData, q, port, o, size);
  }

  /** The host's resize keeps every surviving byte, shifted by `head`. */
  lemma HostKeepsBytes(p: Bytes, head: int, tail: int, headroom: Bytes, tailroom: Bytes, o: nat, size: nat)
    requires |headroom| == Max0(head) && |tailroom| == Max0(tail)
    requires -head <= |p| && -tail <= |p| + head
    requires o >= head && o - head + size <= |p| && o + size <= |p| + head + tail
    ensures HostAddSpace(p, head, tail, headroom, tailroom)[o .. o + size] == p[o - head .. o - head + size]
  {
    var q := HostAddSpace(p, head, tail, headroom, tailroom);
    forall i | o <= i < o + size
      ensures q[i] == p[i - head]
    {
    }
  }

  // ------------------------------------------------------------ strip VLAN

  /** `try_rewrite` of the stripper: the resize it requests, if any.  The
      EtherType at 12..14 decides: an 802.1Q tag removes the 18-byte tagged
      Ethernet header, anything else the plain 14-byte one.  A frame too
      short to hold the EtherType is left alone (the error is only logged). */
  function StripVlanCall(p: Bytes): (r: Option<ResizeCall>)
    ensures r.None? <==> |p| < ETH_HDR_LEN
    ensures r.Some? ==> r.value.tail == 0
    ensures r == Some(ResizeCall(-18, 0)) <==>
      |p| >= ETH_HDR_LEN && Be16(p[12..14]) == ETHERTYPE_8021Q
    ensures r == Some(ResizeCall(-14, 0)) <==>
      |p| >= ETH_HDR_LEN && Be16(p[12..14]) != ETHERTYPE_8021Q
  {
    match Load(p, 12, 2)
    case Err => None
    case Ok(field) =>
      if Be16(field) == ETHERTYPE_8021Q then Some(ResizeCall(-18, 0))
      else Some(ResizeCall(-14, 0))
  }

  /** The source computes the new length without checking it: a tagged
      frame of 14 to 17 bytes would make it negative, which is undefined
      behaviour in the guest.  Every other frame is stripped safely. */
  predicate StripDefined(p: Bytes)
  {
    match StripVlanCall(p)
    case None => true
    case Some(call) => |p| + call.head >= 0
  }

  /** A program run: its return code and the packet it leaves behind. */
  datatype RewriteRun = RewriteRun(code: nat, packet: Bytes)

  /** Which code a rewriter returns.  As written, both rewriters return 0
      whatever happened, which is `RewriterResult::Abort`; the intended
      code reports `Success` (1) when the rewrite was carried out and
      `Abort` (0) when a bounds check refused it. */
  datatype CodeRule = AsWrittenCode | IntendedCode

  function ReturnCode(rule: CodeRule, rewritten: bool): (code: nat)
    ensures rule == AsWrittenCode ==> code == RewriterCode(RewriteAbort)
    ensures rule == IntendedCode ==>
      code == RewriterCode(if rewritten then RewriteSuccess else RewriteAbort)
  {
    match rule
    case AsWrittenCode => 0
    case IntendedCode => if rewritten then 1 else 0
  }

  /** `rewrite` of the stripper with the host helper applied: the packet
      loses its (tagged or untagged) Ethernet header, and a frame shorter
      than 14 bytes is unchanged; as written the code is 0 either way. */
  function StripVlan(rule: CodeRule, p: Bytes): (r: RewriteRun)
    requires StripDefined(p)
    ensures rule == AsWrittenCode ==> r.code == 0
    ensures rule == IntendedCode ==> (r.code == 1 <==> |p| >= ETH_HDR_LEN)
    ensures |p| < ETH_HDR_LEN ==> r.packet == p
    ensures |p| >= ETH_HDR_LEN && Be16(p[12..14]) == ETHERTYPE_8021Q ==> r.packet == p[ETH_HDR_LEN + VLAN_TAG_LEN..]
    ensures |p| >= ETH_HDR_LEN && Be16(p[12..14]) != ETHERTYPE_8021Q ==> r.packet == p[ETH_HDR_LEN..]
  {
    match StripVlanCall(p)
    case None => RewriteRun(ReturnCode(rule, false), p)
    case Some(call) => RewriteRun(ReturnCode(rule, true), HostAddSpace(p, call.head, call.tail, [], []))
  }

  // ------------------------------------------------------------ mirror

  /** `try_rewrite` of the mirror: with a whole Ethernet header present,
      the destination (bytes 0..6) and source (6..12) addresses trade
      places; every other byte and the length stay. */
  function EtherMirror(rule: CodeRule, p: Bytes): (r: RewriteRun)
    ensures rule == AsWrittenCode ==> r.code == 0
    ensures rule == IntendedCode ==> (r.code == 1 <==> |p| >= ETH_HDR_LEN)
    ensures |r.packet| == |p|
    ensures |p| < ETH_HDR_LEN ==> r.packet == p
    ensures |p| >= ETH_HDR_LEN ==>
      && r.packet[0..6] == p[6..12] && r.packet[6..12] == p[0..6]
      && r.packet[12..] == p[12..]
  {
    match GetPtrMut(Frame(0, p, 0), 0, ETH_HDR_LEN)
    case Err => RewriteRun(ReturnCode(rule, false), p)
    case Ok(_) =>
      var dst := p[0..MAC_LEN];
      var src := p[MAC_LEN..2 * MAC_LEN];
      var w := Store(Store(p, 0, src).packet, MAC_LEN, dst);
      assert w.packet == src + dst + p[12..];
      RewriteRun(ReturnCode(rule, true), w.packet)
  }

  /** Mirroring twice restores the frame. */
  lemma MirrorTwiceRestores(rule: CodeRule, p: Bytes)
    ensures EtherMirror(rule, EtherMirror(rule, p).packet).packet == p
  {
    if |p| >= ETH_HDR_LEN {
      var q := EtherMirror(rule, p).packet;
      var r := EtherMirror(rule, q).packet;
      assert r == r[0..6] + r[6..12] + r[12..];
      assert p == p[0..6] + p[6..12] + p[12..];
    }
  }

  /** The stripper's guest view and the host agree: after the resize call
      the guest's context is the frame of the stripped packet, at whatever
      address the host returned. */
  lemma StripViewsAgree(rule: CodeRule, base: nat, p: Bytes, port: nat, newData: nat)
    requires StripDefined(p) && |p| >= ETH_HDR_LEN
    ensures var call := StripVlanCall(p).value;
      GuestResize(Frame(base, p, port), call.head, call.tail, newData).0
        == Frame(newData, StripVlan(rule, p).packet, port)
  {
    var call := StripVlanCall(p).value;
    ResizeAgreesWithHost(base, p, port, call.head, call.tail, [], [], newData);
  }
}

=== FILE: simple_filters.dfy ===
/** Stateless filters: pass and drop (ebpf/src/bin/pass.rs, drop.rs), the
    target-port filter in its three builds (ebpf/src/bin/target-port.rs,
    ebpf/target-port-ebpf, and the port check inside
    filter-rs/dns-filter-ebpf, which also keeps two stores), and the
    always-drop firewall template (ebpf/src/bin/firewall.rs). */
module SimpleFilters {
  import opened Base
  import opened PacketAccess
  import opened Verdicts
  import opened Headers
  import opened Stores

  /** pass.rs `filter`: no context, no store, a constant verdict. */
  function PassFilter(): FilterResult
  {
    Pass
  }

  /** drop.rs `filter`. */
  function DropFilter(): FilterResult
  {
    Drop
  }

  /** Neither program reads anything, so for every packet and every state
      the verdict is the same: pass never aborts or drops, drop never
      aborts or passes; across the ABI they return 1 and 2. */
  lemma ConstantFilters()
    ensures PassFilter() != Abort && PassFilter() != Drop && FilterCode(PassFilter()) == 1
    ensures DropFilter() != Abort && DropFilter() != Pass && FilterCode(DropFilter()) == 2
  {
  }

  const TARGET_PORT: nat := 12345

  /** Byte-level description of the target-port programs' view of an
      IPv4 frame: its L4 header, taken at the fixed offset 14 + 20 whatever the
      IHL field says, is a readable TCP (20 bytes) or UDP (8 bytes) header. */
  predicate FixedL4Readable(p: Bytes)
  {
    |p| >= 34 && ((p[23] == 6 && |p| >= 54) || (p[23] == 17 && |p| >= 42))
  }

  /** What the port check found before choosing a verdict. */
  datatype PortCheck = NonIpv4 | Checked(dstPort: nat)

  /** The `try_filter` body shared by the three target-port builds. */
  function CheckTargetPort(p: Bytes): (r: Result<PortCheck>)
    ensures r.Err? <==> |p| < 14 || (IsIpv4Frame(p) && !FixedL4Readable(p))
    ensures r == Ok(NonIpv4) <==> |p| >= 14 && !IsIpv4Frame(p)
    ensures r.Ok? && r.value.Checked? ==>
      IsIpv4Frame(p) && FixedL4Readable(p) && r.value.dstPort == Be16(p[36..38])
  {
    match Load(p, 0, ETH_HDR_LEN)
    case Err => Err
    case Ok(eth) =>
      if EtherType(eth) != ETHERTYPE_IPV4 then Ok(NonIpv4)
      else
        match Load(p, ETH_HDR_LEN, IPV4_HDR_LEN)
        case Err => Err
        case Ok(ip) =>
          var proto := Proto(ip);
          if proto != PROTO_TCP && proto != PROTO_UDP then Err
          else
            match Load(p, ETH_HDR_LEN + IPV4_HDR_LEN, L4HeaderLen(proto))
            case Err => Err
            case Ok(l4) =>
              assert l4[2..4] == p[36..38];
              Ok(Checked(DstPort(l4)))
  }

  /** target-port.rs `main`: drop TCP/UDP packets to port 12345, pass other
      traffic, abort on a truncated frame or a non-TCP/UDP IPv4 packet. */
  function TargetPortFilter(p: Bytes): (r: FilterResult)
    ensures |p| < 14 ==> r == Abort
    ensures r == Drop <==> IsIpv4Frame(p) && FixedL4Readable(p) && Be16(p[36..38]) == TARGET_PORT
    ensures r == Pass <==>
      (|p| >= 14 && !IsIpv4Frame(p))
      || (IsIpv4Frame(p) && FixedL4Readable(p) && Be16(p[36..38]) != TARGET_PORT)
    ensures r == Abort <==> |p| < 14 || (IsIpv4Frame(p) && !FixedL4Readable(p))
  {
    match CheckTargetPort(p)
    case Err => Abort
    case Ok(NonIpv4) => Pass
    case Ok(Checked(port)) => if port == TARGET_PORT then Drop else Pass
  }

  /** ebpf/target-port-ebpf `filter`: the same decisions as XDP codes
      (pass 2, drop 1, aborted 0). */
  function TargetPortXdp(p: Bytes): (code: nat)
    ensures code == XdpCode(TargetPortFilter(p))
    ensures code == XDP_DROP <==> IsIpv4Frame(p) && FixedL4Readable(p) && Be16(p[36..38]) == TARGET_PORT
  {
    match CheckTargetPort(p)
    case Err => XDP_ABORTED
    case Ok(NonIpv4) => XDP_PASS
    case Ok(Checked(port)) => if port == TARGET_PORT then XDP_DROP else XDP_PASS
  }

  /** The two stores of filter-rs/dns-filter-ebpf: the `i64` packet counter
      array and the one-entry `u32 -> i64` map whose key 1 is toggled. */
  datatype CounterToggleState = CounterToggleState(counter: FixedArray<int>, toggle: BoundedMap<nat, int>)

  const TOGGLE_KEY: nat := 1

  /** filter-rs/dns-filter-ebpf `filter`: counts the packet, toggles key 1,
      then runs the port check with the filter-rs codes, where every error
      drops. */
  function CounterToggleFilter(p: Bytes, st: CounterToggleState): (r: (nat, CounterToggleState))
    ensures r.0 == FILTER_RS_PASS <==> TargetPortFilter(p) == Pass
    ensures r.0 == FILTER_RS_DROP <==> TargetPortFilter(p) != Pass
    ensures |r.1.counter.slots| == |st.counter.slots|
    ensures st.counter.Get(0).Some? ==> r.1.counter.Get(0) == Some(WrapI64(st.counter.slots[0] + 1))
    ensures st.counter.Get(0).None? ==> r.1.counter == st.counter
    ensures TOGGLE_KEY in st.toggle.entries ==> TOGGLE_KEY !in r.1.toggle.entries
    ensures TOGGLE_KEY !in st.toggle.entries && |st.toggle.entries| < st.toggle.capacity
            ==> r.1.toggle.Get(TOGGLE_KEY) == Some(1)
    // a full map refuses the insert and stays as it was
    ensures TOGGLE_KEY !in st.toggle.entries && |st.toggle.entries| >= st.toggle.capacity
            ==> r.1.toggle == st.toggle
    // only key 1 ever changes, and the map keeps its capacity
    ensures r.1.toggle.capacity == st.toggle.capacity
    ensures r.1.toggle.entries - {TOGGLE_KEY} == st.toggle.entries - {TOGGLE_KEY}
  {
    var counter := match st.counter.Get(0)
      case Some(c) => st.counter.Set(0, WrapI64(c + 1))
      case None => st.counter;
    var toggle := if TOGGLE_KEY in st.toggle.entries then st.toggle.Remove(TOGGLE_KEY)
      else match st.toggle.Insert(TOGGLE_KEY, 1)
        case Ok(m) => m
        case Err => st.toggle;
    var code := match CheckTargetPort(p)
      case Err => FILTER_RS_DROP
      case Ok(NonIpv4) => FILTER_RS_PASS
      case Ok(Checked(port)) => if port == TARGET_PORT then FILTER_RS_DROP else FILTER_RS_PASS;
    (code, CounterToggleState(counter, toggle))
  }

  /** Two consecutive packets toggle key 1 back to where it was, whatever
      the packets are. */
  lemma ToggleTwiceRestores(p1: Bytes, p2: Bytes, st: CounterToggleState)
    requires st.toggle.Valid() && st.toggle.capacity >= 1
    requires st.toggle.entries.Keys <= {TOGGLE_KEY}
    ensures (TOGGLE_KEY in CounterToggleFilter(p2, CounterToggleFilter(p1, st).1).1.toggle.entries)
         == (TOGGLE_KEY in st.toggle.entries)
  {
    var st1 := CounterToggleFilter(p1, st).1;
    if TOGGLE_KEY !in st.toggle.entries {
      assert |st.toggle.entries| == 0 by {
        assert st.toggle.entries.Keys == {};
      }
    } else {
      assert st1.toggle.entries.Keys == {};
      assert |st1.toggle.entries| == 0;
    }
  }

  /** firewall.rs `try_classify`: the IPv4 header is at offset 0 (no
      Ethernet header); only TCP and UDP headers are read. */
  function FirewallTry(p: Bytes): (r: Result<FilterResult>)
    ensures r.Err? <==>
      |p| < 20 || (p[9] != 6 && p[9] != 17) || (p[9] == 6 && |p| < 40) || (p[9] == 17 && |p| < 28)
    ensures r.Ok? ==> r.value == Drop
  {
    match Load(p, 0, IPV4_HDR_LEN)
    case Err => Err
    case Ok(ip) =>
      var proto := Proto(ip);
      if proto != PROTO_TCP && proto != PROTO_UDP then Err
      else
        match Load(p, IPV4_HDR_LEN, L4HeaderLen(proto))
        case Err => Err
        case Ok(l4) =>
          // the port match has a single wildcard arm
          var _ := (SrcPort(l4), DstPort(l4));
          Ok(Drop)
  }

  /** firewall.rs `main`: errors map to Drop, so every packet is dropped. */
  function Firewall(p: Bytes): (r: FilterResult)
    ensures r == Drop
  {
    match FirewallTry(p)
    case Err => Drop
    case Ok(v) => v
  }
}

=== FILE: stores.dfy ===
/** The persistent stores a program declares: fixed arrays (`Array`) and
    capacity-bounded hash maps (`HashMap`), as values.  A program step takes
    the stores as they are and returns them as they become. */
module Stores {
  import opened Base

  /** A hash map created with `with_max_entries(capacity, 0)`. */
  datatype BoundedMap<K(==), V> = BoundedMap(entries: map<K, V>, capacity: nat) {

    ghost predicate Valid() { |entries| <= capacity }

    /** `get` / `get_ptr` / `get_ptr_mut`. */
    function Get(k: K): (r: Option<V>)
      ensures r.Some? <==> k in entries
      ensures r.Some? ==> r.value == entries[k]
    {
      if k in entries then Some(entries[k]) else None
    }

    /** `insert(k, v, 0)`: overwrites an existing key in place, adds a new
        key while there is room, and fails without any change when the map
        is full and the key is new. */
    function Insert(k: K, v: V): (r: Result<BoundedMap<K, V>>)
      ensures r.Err? <==> k !in entries && |entries| >= capacity
      ensures r.Ok? ==> r.value == BoundedMap(entries[k := v], capacity)
    {
      if k in entries || |entries| < capacity then Ok(BoundedMap(entries[k := v], capacity))
      else Err
    }

    /** A write through the pointer `get_ptr_mut` returned for a present key. */
    function Put(k: K, v: V): (r: BoundedMap<K, V>)
      requires k in entries
      ensures r.entries.Keys == entries.Keys && r.capacity == capacity
      ensures r.Get(k) == Some(v)
      ensures forall j :: j in entries && j != k ==> r.entries[j] == entries[j]
    {
      BoundedMap(entries[k := v], capacity)
    }

    /** `remove(k)`. */
    function Remove(k: K): (r: BoundedMap<K, V>)
      ensures r.entries.Keys == entries.Keys - {k} && r.capacity == capacity
      ensures forall j :: j in r.entries ==> r.entries[j] == entries[j]
    {
      BoundedMap(entries - {k}, capacity)
    }
  }

  /** An insert never makes a map exceed its capacity, and a successful one
      makes the key readable with the inserted value. */
  lemma InsertKeepsBound<K, V>(m: BoundedMap<K, V>, k: K, v: V)
    requires m.Valid()
    ensures m.Insert(k, v).Ok? ==> m.Insert(k, v).value.Valid()
    ensures m.Insert(k, v).Ok? ==> m.Insert(k, v).value.Get(k) == Some(v)
  {
    if m.Insert(k, v).Ok? && k !in m.entries {
      assert m.Insert(k, v).value.entries.Keys == m.entries.Keys + {k};
    }
  }

  /** An `Array` with a fixed number of slots; a slot past the end (an array
      the host bound with fewer entries than the program indexes) reads as
      missing. */
  datatype FixedArray<V> = FixedArray(slots: seq<V>) {

    function Get(i: nat): (r: Option<V>)
      ensures r.Some? <==> i < |slots|
      ensures r.Some? ==> r.value == slots[i]
    {
      if i < |slots| then Some(slots[i]) else None
    }

    function Set(i: nat, v: V): (r: FixedArray<V>)
      requires i < |slots|
      ensures |r.slots| == |slots|
      ensures r.Get(i) == Some(v)
      ensures forall j :: 0 <= j < |slots| && j != i ==> r.slots[j] == slots[j]
    {
      FixedArray(slots[i := v])
    }
  }
}

=== FILE: string_matcher.dfy ===
/** The fixed-pattern string matcher (ebpf/src/bin/stringmatcher.rs): a
    three-state automaton looks for the byte pair 0x22 0x8d in the first
    2000 bytes of the packet and drops the packet one byte after finding
    it. */
module StringMatcher {
  import opened Base
  import opened PacketAccess
  import opened Verdicts
  import opened Headers

  const FIRST: Byte := 0x22
  const SECOND: Byte := 0x8d
  const SCAN_LIMIT: nat := 2000

  /** The automaton's reaction to a byte that does not complete the pair
      while it has seen the first byte: stringmatcher.rs as written goes
      back to state 0 even on another 0x22; the intended matcher stays in
      state 1, since that byte may start the pair. */
  datatype Matcher = AsWrittenMatcher | IntendedMatcher

  /** One transition from state 0 or 1. */
  function Next(m: Matcher, state: nat, b: Byte): (r: nat)
    requires state <= 1
    ensures r <= 2
    ensures r == 2 <==> state == 1 && b == SECOND
    ensures r == 1 <==> b == FIRST && (state == 0 || m == IntendedMatcher)
  {
    if state == 0 then (if b == FIRST then 1 else 0)
    else if b == SECOND then 2
    else if m == IntendedMatcher && b == FIRST then 1
    else 0
  }

  /** The scan over bytes `s` from `state`: in state 2 the next byte drops
      the packet; running out of bytes passes it. */
  function Scan(m: Matcher, s: Bytes, state: nat): (r: FilterResult)
    requires state <= 2
    ensures r != Abort
    ensures state == 2 ==> (r == Drop <==> |s| > 0)
    // reaching state 2 takes a byte per state still missing, and dropping one more
    ensures r == Drop ==> |s| + state >= 3
    decreases |s|
  {
    if |s| == 0 then Pass
    else if state == 2 then Drop
    else Scan(m, s[1..], Next(m, state, s[0]))
  }

  /** The bytes the loop inspects: at most the first 2000. */
  function Scanned(p: Bytes): (r: Bytes)
    ensures |r| == Min(|p|, SCAN_LIMIT) && r == p[..|r|]
  {
    p[..Min(|p|, SCAN_LIMIT)]
  }

  /** The pair occurs at some position with at least one byte after it. */
  ghost predicate Occurs(s: Bytes)
  {
    exists i :: 0 <= i && i + 2 < |s| && s[i] == FIRST && s[i + 1] == SECOND
  }

  /** `main`/`try_filter`: a packet without room for a 20-byte IPv4 header
      aborts; otherwise the automaton runs from state 0.  The state never
      leaves {0, 1, 2}, so the source's catch-all error arm is never taken,
      and the packet is never written. */
  method Filter(m: Matcher, p: Bytes) returns (r: FilterResult)
    ensures r == Abort <==> |p| < IPV4_HDR_LEN
    ensures |p| >= IPV4_HDR_LEN ==> r == Scan(m, Scanned(p), 0)
  {
    if Load(p, 0, IPV4_HDR_LEN).Err? {
      return Abort;
    }
    ghost var w := Scanned(p);
    var state: nat := 0;
    var i := 0;
    while i < SCAN_LIMIT
      invariant 0 <= i <= |w| && state <= 2
      invariant Scan(m, w, 0) == Scan(m, w[i..], state)
    {
      if Load(p, i, 1).Err? {
        break;
      }
      var b := p[i];
      assert w[i..][0] == b && w[i..][1..] == w[i + 1..];
      if state == 2 {
        return Drop;
      }
      state := Next(m, state, b);
      i := i + 1;
    }
    assert w[i..] == [];
    return Pass;
  }

  /** What a drop from `state` over `s` should mean: the pair occurs (from
      state 1, counting the 0x22 already seen; in state 2, some byte is
      left). */
  ghost predicate Found(state: nat, s: Bytes)
  {
    if state == 0 then Occurs(s)
    else if state == 1 then Occurs([FIRST] + s)
    else |s| >= 1
  }

  /** A pair found after one step was already there before it. */
  lemma FoundBefore(m: Matcher, state: nat, s: Bytes)
    requires |s| >= 1 && state <= 1
    requires Found(Next(m, state, s[0]), s[1..])
    ensures Found(state, s)
  {
    var t := s[1..];
    var next := Next(m, state, s[0]);
    var u := [FIRST] + s;
    if next == 2 {
      assert u[0] == FIRST && u[1] == SECOND && 2 < |u|;
    } else if next == 1 {
      assert [FIRST] + t == s;
      var j :| 0 <= j && j + 2 < |s| && s[j] == FIRST && s[j + 1] == SECOND;
      assert u[j + 1] == FIRST && u[j + 2] == SECOND;
    } else {
      var j :| 0 <= j && j + 2 < |t| && t[j] == FIRST && t[j + 1] == SECOND;
      assert s[j + 1] == FIRST && s[j + 2] == SECOND;
      assert u[j + 2] == FIRST && u[j + 3] == SECOND;
    }
  }

  /** For the intended matcher, a pair present before a step is still
      found after it. */
  lemma FoundAfter(state: nat, s: Bytes)
    requires |s| >= 1 && state <= 1
    requires Found(state, s)
    ensures Found(Next(IntendedMatcher, state, s[0]), s[1..])
  {
    var t := s[1..];
    var next := Next(IntendedMatcher, state, s[0]);
    if state == 0 {
      var i :| 0 <= i && i + 2 < |s| && s[i] == FIRST && s[i + 1] == SECOND;
      if i == 0 {
        assert [FIRST] + t == s;
      } else if next == 0 {
        assert t[i - 1] == FIRST && t[i] == SECOND;
      } else {
        assert ([FIRST] + t)[i] == FIRST && ([FIRST] + t)[i + 1] == SECOND;
      }
    } else {
      var u := [FIRST] + s;
      var i :| 0 <= i && i + 2 < |u| && u[i] == FIRST && u[i + 1] == SECOND;
      if next == 1 {
        assert [FIRST] + t == s;
        assert s[i - 1] == FIRST && s[i] == SECOND;
      } else if next == 0 {
        assert t[i - 2] == FIRST && t[i - 1] == SECOND;
      }
    }
  }

  /** Whatever the variant, a drop means the pair was in the scanned bytes
      with at least one more byte after it. */
  lemma {:induction false} DropMeansPair(m: Matcher, s: Bytes, state: nat)
    requires state <= 2
    requires Scan(m, s, state) == Drop
    ensures Found(state, s)
    decreases |s|
  {
    if state <= 1 {
      DropMeansPair(m, s[1..], Next(m, state, s[0]));
      FoundBefore(m, state, s);
    }
  }

  /** The matcher as written misses a pair whose first byte follows another
      0x22: it passes 0x22 0x22 0x8d followed by any byte. */
  lemma AsWrittenMissesRepeatedFirstByte(b: Byte)
    ensures Occurs([FIRST, FIRST, SECOND, b])
    ensures Scan(AsWrittenMatcher, [FIRST, FIRST, SECOND, b], 0) == Pass
  {
    var s: Bytes := [FIRST, FIRST, SECOND, b];
    assert s[1] == FIRST && s[2] == SECOND;
    var m := AsWrittenMatcher;
    assert s[1..] == [FIRST, SECOND, b];
    assert [FIRST, SECOND, b][1..] == [SECOND, b];
    assert [SECOND, b][1..] == [b];
    assert Scan(m, [b], 0) == Scan(m, [], Next(m, 0, b)) == Pass by {
      assert [b][1..] == [];
    }
    assert Scan(m, s, 0) == Scan(m, [FIRST, SECOND, b], 1) == Scan(m, [SECOND, b], 0) == Scan(m, [b], 0);
  }

  /** The intended matcher drops exactly when the pair occurs with a byte
      after it, from state 0 (and, from state 1, as if 0x22 preceded). */
  lemma {:induction false} IntendedFindsEveryPair(s: Bytes, state: nat)
    requires state <= 2
    ensures Scan(IntendedMatcher, s, state) == Drop <==> Found(state, s)
    decreases |s|
  {
    if |s| == 0 {
      assert !Occurs([FIRST] + s);
    } else if state <= 1 {
      IntendedFindsEveryPair(s[1..], Next(IntendedMatcher, state, s[0]));
      if Found(state, s) {
        FoundAfter(state, s);
      } else if Found(Next(IntendedMatcher, state, s[0]), s[1..]) {
        FoundBefore(IntendedMatcher, state, s);
      }
    }
  }

  /** The intended matcher's verdict, end to end: drop exactly when the
      pair, followed by a byte, lies in the first 2000 bytes. */
  lemma IntendedFilterDropsIffPair(p: Bytes)
    ensures Scan(IntendedMatcher, Scanned(p), 0) == Drop <==> Occurs(Scanned(p))
  {
    IntendedFindsEveryPair(Scanned(p), 0);
  }
}

=== FILE: verdicts.dfy ===
/** Verdict encodings and the guest side of packet resizing
    (ebpf/src/programs.rs, ebpf/strip-ether-vlan-header-ebpf/src/helper.rs),
    plus the two older encodings some crates return: the Linux `xdp_action`
    codes and the filter-rs PASS/DROP pair. */
module Verdicts {
  import opened Base
  import opened PacketAccess

  /** `FilterResult` of a filter program. */
  datatype FilterResult = Abort | Pass | Drop

  /** `RewriterResult` of a rewriter program. */
  datatype RewriterResult = RewriteAbort | RewriteSuccess

  /** The `#[repr(u32)]` discriminant a filter returns across the ABI. */
  function FilterCode(v: FilterResult): (code: nat)
  {
    match v
    case Abort => 0
    case Pass => 1
    case Drop => 2
  }

  /** How a host reads a returned code back as a filter verdict. */
  function DecodeFilter(code: nat): (r: Option<FilterResult>)
    ensures r.Some? <==> code <= 2
  {
    if code == 0 then Some(Abort)
    else if code == 1 then Some(Pass)
    else if code == 2 then Some(Drop)
    else None
  }

  /** The three filter verdicts have three distinct codes, 0, 1 and 2, and
      decoding inverts encoding in both directions. */
  lemma FilterCodesRoundTrip(v: FilterResult, code: nat)
    ensures DecodeFilter(FilterCode(v)) == Some(v)
    ensures DecodeFilter(code) == Some(v) <==> code == FilterCode(v)
    ensures FilterCode(v) <= 2
  {
  }

  function RewriterCode(v: RewriterResult): (code: nat)
  {
    match v
    case RewriteAbort => 0
    case RewriteSuccess => 1
  }

  function DecodeRewriter(code: nat): (r: Option<RewriterResult>)
    ensures r.Some? <==> code <= 1
  {
    if code == 0 then Some(RewriteAbort)
    else if code == 1 then Some(RewriteSuccess)
    else None
  }

  /** Rewriter codes are Abort = 0 and Success = 1, and decoding inverts
      encoding. */
  lemma RewriterCodesRoundTrip(v: RewriterResult, code: nat)
    ensures DecodeRewriter(RewriterCode(v)) == Some(v)
    ensures DecodeRewriter(code) == Some(v) <==> code == RewriterCode(v)
  {
  }

  /** `XDP_ABORTED`, `XDP_DROP` and `XDP_PASS` of the Linux `xdp_action`
      enumeration, returned by the older XDP-style crates. */
  const XDP_ABORTED: nat := 0
  const XDP_DROP: nat := 1
  const XDP_PASS: nat := 2

  function XdpCode(v: FilterResult): (code: nat)
  {
    match v
    case Abort => XDP_ABORTED
    case Pass => XDP_PASS
    case Drop => XDP_DROP
  }

  /** The filter-rs crates return 0 to pass and 1 to drop; they have no
      abort code. */
  const FILTER_RS_PASS: nat := 0
  const FILTER_RS_DROP: nat := 1

  /** The same verdict is encoded differently by the two families: an XDP
      pass is the code the `FilterResult` family uses for drop, and the
      `FilterResult` pass is the XDP drop. */
  lemma EncodingsDisagree()
    ensures XdpCode(Pass) == FilterCode(Drop)
    ensures FilterCode(Pass) == XdpCode(Drop)
    ensures FILTER_RS_DROP == FilterCode(Pass)
  {
  }

  predicate IsI32(x: int) { -0x8000_0000 <= x < 0x8000_0000 }

  /** The arguments the guest passes to the host's `bpf_packet_add_space`. */
  datatype ResizeCall = ResizeCall(head: int, tail: int)

  /** Guest side of a resize: the host helper is called with the same
      `head`/`tail` and returns the new start of the packet, `newData` (a
      parameter here, since the host allocates it); the context then points
      at `newData` and covers the old length plus `head + tail` bytes.
      The source never checks that the new length is non-negative, and a
      negative one makes `new_ptr.add` undefined: the model requires it. */
  function GuestResize(ctx: Context, head: int, tail: int, newData: nat): (r: (Context, ResizeCall))
    requires IsI32(head) && IsI32(tail)
    requires ctx.data <= ctx.dataEnd
    requires (ctx.dataEnd - ctx.data) + head + tail >= 0
    ensures r.1 == ResizeCall(head, tail)
    ensures r.0.data == newData
    ensures r.0.dataEnd - r.0.data == (ctx.dataEnd - ctx.data) + head + tail
    ensures r.0.port == ctx.port
  {
    var oldLen := ctx.dataEnd - ctx.data;
    var newLen := oldLen + head + tail;
    (Context(newData, newData + newLen, ctx.port), ResizeCall(head, tail))
  }
}
